=== FILE: README.md ===
# Incident-to-Rundeck orchestration core, modelled in Dafny

This project models the orchestration engine of an AWS Lambda function. The
function routes incident events from Rootly to Rundeck jobs, guards every
start and every note with a short-window idempotency lease in DynamoDB, drives
a job through start → poll → fetch, and turns the job's noisy log output into a
deduplicated report grouped by section. All of it lives in
`lambda_function.py`. The model is pure and functional. Payloads are a JSON
tree (`Json.J`). Python dicts are ordered association lists (`Dicts`). Every
exception the code can raise is the `Err` arm of a `Result`. Whatever the code
gets from outside (the clock, DynamoDB's answers, HTTP replies, `json.loads`,
configuration) is a parameter.

The modules follow the program:

- `Keys`: `_norm_key` and `_sanitize`.
- `Fields`: `normalize_custom_fields`, `_cf_value_from_root`, `_get_by_path`.
- `Options`: `build_rundeck_options` and the auto-diagnosis preflight list.
- `Failure`: `classify_failure`.
- `Guard`: `DDB.acquire_rem_guard` and the note key of `post_incident_event_once`.
- `LogScan`, `Blocks` and `Sections`: the three stages of `RundeckClient.fetch_output`.
  - `LogScan` cleans lines and runs the key/value-table state machine.
  - `Blocks` does the newline, blank-run and paragraph dedupe.
  - `Sections` splits at section headers, dedupes headers, classifies and groups.
- `Rundeck`: `start_job`, `poll_until_done`, `fetch_output`.
- `Router`: `lambda_handler` and `handle_poll_rundeck_event`.

`Wrappers`, `Text`, `Seqs`, `Dicts` and `Json` supply shared vocabulary. They
cover Python's string methods, ordered dedupe, dict get/put/merge, and
truthiness/`str()`.

Behaviour of the code worth knowing, which the model keeps:

- On a Rundeck start error (lines 1215-1224) and on an option-build failure
  (lines 1090-1099), the handler posts no `ROUTING::` classification note.
  `Router.AfterStart` reports a start error with no routing category.
- A malformed body is not always ignored. A body that parses to a truthy
  JSON value other than a dict raises on `.get`. So does a present `data.id`,
  `data.title` or `event` of the wrong type. Each of these ends in the 500
  `exception` reply (`Router.Route`, `Router.StripStr`, `Router.TitleOf`).
  An event that is itself a truthy number or `true` raises at line 956,
  before the `try`, so the handler gives no reply at all (`Router.Route`).
- The inline branch insists on `executionState == "succeeded"` before it
  fetches (lines 1131-1132). The `poll.rundeck` continuation posts the output
  whatever state the execution ended in (lines 922-930). `Router.Inline` and
  `Router.PolledRun` state both.
- The line scan of `fetch_output` is not idempotent on its own report. The
  report separates groups with a line of 23 dashes (line 562), which the scan
  treats as a rule line (line 452), so scanning the report again drops the
  separator line and leaves only an empty line between the groups
  (`LogScan.RuleBetweenRunsDropped`, `LogScan.RescanDropsRuleLine`).
- A results table whose header is the single line `Key  Value` keeps
  nothing. That line is an ordinary table row and not a `value` header cell
  (lines 467-471), so the scan never starts collecting the value column
  (lines 474-481). Everything before the marker is discarded as well
  (`LogScan.TableWithoutValueCell`, `LogScan.OneLineHeaderKeepsNothing`).

## Model

| member | source | states |
|---|---|---|
| Keys.NormKey | lambda_function.py:645-646 | the normalised key is canonical (lower-case letters, digits and single inner underscores); its letters and digits are exactly those of the lower-cased label, in order; a canonical label is returned unchanged |
| Keys.NormKeyIdempotent | lambda_function.py:645-646 | normalising an already normalised key leaves it unchanged |
| Keys.NormKeyChars | lambda_function.py:645-646 | the steps of `_norm_key` keep exactly the letters and digits of the lower-cased label, in order |
| Keys.CanonicalFixed | lambda_function.py:645-646 | the steps of `_norm_key` leave an already canonical key unchanged |
| Keys.NormKeySquash | lambda_function.py:645-646 | the key is the lower-cased label with everything but letters and digits cut from both ends and each inner run of other characters turned into one `_` |
| Keys.SquashAppend | lambda_function.py:646 | the run substitution works piece by piece when the pieces do not meet inside a run of non-key characters |
| Keys.SquashTrimmed | lambda_function.py:646 | substituting runs and then stripping `_` gives the same as cutting non-key characters from the ends and then substituting |
| Keys.NormKeyLower | lambda_function.py:645-646 | lower-casing a label first does not change its key |
| Keys.NormKeyJoin | lambda_function.py:645-646 | two labels that each have a key, joined by a non-empty separator with no letter or digit, give the two keys joined by exactly one `_` |
| Keys.SafeChars | lambda_function.py:642 | position by position, a character outside `[A-Za-z0-9_-]` becomes `_` and every other character is kept |
| Keys.Sanitize | lambda_function.py:641-642 | a sanitised option name holds only safe characters and is the character-mapped name with exactly its leading and trailing `_` removed |
| Keys.SanitizeIdempotent | lambda_function.py:641-642 | sanitising a sanitised name leaves it unchanged |
| Fields.FirstTruthyAt | lambda_function.py:667-670 | the chosen option key is the first in priority order with a truthy value; no earlier key has one |
| Fields.RecordSlug | lambda_function.py:659-662 | a record's slug is its stripped `slug`, or else its `name`; reading it raises exactly when the metadata is not a dict or the chosen value is truthy and not a string |
| Fields.RecordValue | lambda_function.py:663-672 | reading a record's value raises exactly when its first selected option is truthy and not a dict |
| Fields.RecordValuePriority | lambda_function.py:665-670 | when the first selected option is a dict, the value is the option's first truthy field among value, slug, name, label, text |
| Fields.RecordValueFallback | lambda_function.py:663-672 | the record's own `value` is used when there is no selected option, or when its first option has no truthy field |
| Fields.FromMapping | lambda_function.py:652-653 | the mapping form never stores a blank value, keeps keys unique, and assigns the kept pairs `str(k): str(v)` in input order; from an empty start with distinct keys the result is exactly the kept pairs |
| Fields.FromMappingLookup | lambda_function.py:652-653 | a key is present in the result iff it is in the mapping with a value that is not None and not blank; its value is then `str(v)` |
| Fields.FromRecords | lambda_function.py:654-675 | the record form raises iff some record raises, and otherwise assigns each record's stored slug and stripped value in record order; it never stores a blank value and keeps keys unique |
| Fields.FromRecordsSnoc | lambda_function.py:656-674 | records are processed left to right, one step each; an exception in an earlier record ends the loop |
| Fields.FromRecordsOrder | lambda_function.py:656-674 | the slugs of the record form appear in the order in which they are first stored |
| Fields.RecordWithoutSlugSkipped | lambda_function.py:661-662 | a record whose slug is empty leaves the result unchanged |
| Fields.LaterRecordWins | lambda_function.py:673-674 | a later record with the same slug and a non-blank value overwrites the earlier value with its stripped text |
| Fields.NormalizeCustomFields | lambda_function.py:649-675 | the result has unique keys and no blank values; a dict never raises; anything neither dict nor list gives the empty mapping |
| Fields.FirstKeyMatchAt | lambda_function.py:684-686 | the index is the first key whose normalised form equals the wanted key |
| Fields.LookupSlug | lambda_function.py:681-687 | a hit is the value of the first key matching the normalised slug; a miss means the slug is empty or no key matches |
| Fields.FirstMatchUnique | lambda_function.py:684-686 | any value that is the first match for a non-empty slug is the value the lookup returns |
| Fields.CfValueFromRoot | lambda_function.py:678-687 | the lookup raises iff reading `data.custom_fields` raises; it returns `v` iff the slug is non-empty and `v` is the value of the first key whose normalised form matches; it returns None iff the slug is empty or no key matches |
| Fields.GetByPath | lambda_function.py:690-717 | a path that is not of the `data.custom_fields.<slug>` form never raises |
| Fields.WalkCompose | lambda_function.py:697-717 | walking a path `a + b` is walking `b` from where `a` ends |
| Fields.WalkFromNull | lambda_function.py:699-700 | once the walk reaches None it stays None |
| Fields.WalkDeadEnds | lambda_function.py:699-716 | the walk yields None on a missing dict key, a scalar, an out-of-range index, or a list in which no element has the key |
| Fields.WalkListByKey | lambda_function.py:707-714 | a non-numeric step on a list yields the single hit itself, or the list of all hits when there are several |
| Fields.CustomFieldPathReadsField | lambda_function.py:693-696 | a `data.custom_fields.<slug>` path reads the slug from the normalised fields, with `None` for a miss |
| Dicts.MergeLookup | lambda_function.py:778 | `{**base, **overrides}` has the keys of both, reads the override wherever it has the key, and lists the base keys first followed by the new override keys in their order |
| Dicts.MergeOrder | lambda_function.py:778 | the keys of `{**base, **overrides}` come in first-occurrence order of the base keys followed by the override keys |
| Dicts.PutOrder | lambda_function.py:778 | assigning an existing key keeps the key order; a new key is appended at the end |
| Dicts.PutAllAppend | lambda_function.py:778 | assigning `a + b` is assigning `a` and then `b` |
| Dicts.PutAllOrder | lambda_function.py:778 | after a run of assignments, the keys are the old keys followed by the new keys in first-occurrence order |
| Dicts.PutNew | lambda_function.py:796-799 | inserting only absent keys keeps every existing value, adds exactly the new keys, and gives each new key the value of the first entry carrying it |
| Options.DefaultMaps | lambda_function.py:56-65 | with no overrides, diagnosis reads only `environment_orn`; remediation reads `environment_orn` and `asset` |
| Options.MapStep | lambda_function.py:785-790 | one map entry raises iff its path raises, and adds the sanitised destination exactly when the source resolves |
| Options.MapOptions | lambda_function.py:785-790 | mapping raises iff some source path raises; every option name produced is sanitised |
| Options.MapOptionsKeys | lambda_function.py:785-790 | the mapped option names are exactly the sanitised destinations of the entries whose source resolves |
| Options.MapOptionsSnoc | lambda_function.py:785-790 | entries are applied in map order, one step each |
| Options.LastEntryWins | lambda_function.py:785-789 | a later entry whose source resolves sets its destination to `str` of the resolved value |
| Options.PassThrough | lambda_function.py:796-799 | custom-field pass-through never overwrites a mapped option, adds exactly the `cf_<slug>` names, and gives each added name the value of the first field with that name |
| Options.PassThroughValue | lambda_function.py:796-799 | a custom field whose `cf_` name is not yet an option, and is not shared with an earlier field, is copied under that name with its value |
| Options.CfKeysAreOptionNames | lambda_function.py:797 | every pass-through name is a valid option name |
| Options.BuildFrom | lambda_function.py:768-804 | built options contain the mapped options unchanged; all names are valid; their key set is the mapped keys plus, when pass-through is on, the `cf_` names |
| Options.BuildFromKeys | lambda_function.py:785-799 | the option names are exactly those produced by resolving entries, plus the `cf_` names when pass-through is on |
| Options.MissingOptions | lambda_function.py:1107 | a required name is reported iff its option is absent or blank; the report is no longer than the requirement list |
| Options.MissingOptionsAppend | lambda_function.py:1107 | the report keeps the order of the required names |
| Failure.MatchesCases | lambda_function.py:755-764 | each category matches exactly on its substrings |
| Failure.ClassifyFailure | lambda_function.py:752-766 | a named category matches the lower-cased text; UNKNOWN_FAILURE means no category matches |
| Failure.NoEarlierMatch | lambda_function.py:752-766 | no category checked before the chosen one matches |
| Failure.ClassifyIsFirstMatch | lambda_function.py:752-766 | the first matching category in test order is the one chosen |
| Failure.IamBeforeRundeck | lambda_function.py:761-764 | text naming both an access denial and a Rundeck start error is classified IAM_ERROR |
| Guard.AcquireRemGuard | lambda_function.py:585-622 | only the guard's own row can change; a failed put returns the fail-open flag with the store unchanged; without a fault the row exists afterwards; any change is a grant that writes `(now, now + ttl)` |
| Guard.AbsentKeyGranted | lambda_function.py:591-598 | the first acquisition of a key is granted and stamps the row |
| Guard.PresentKeyGrantedIffElapsed | lambda_function.py:603-620 | an existing row is refreshed, and the call granted, iff its stamp is strictly older than `now - ttl`; a refusal changes nothing |
| Guard.FaultFailsOpen | lambda_function.py:599-622 | a `ClientError` other than a failed condition answers with the fail-open flag and writes nothing |
| Guard.SameInstantTwice | lambda_function.py:585-622 | of two acquisitions at the same instant the first is granted and the second refused |
| Guard.BoundaryStillSuppressed | lambda_function.py:608 | exactly `ttl` seconds after the stamp the guard still refuses |
| Guard.GrantsAfterStamp | lambda_function.py:585-622 | every later grant of a stamped key happens more than `ttl` seconds after the stamp |
| Guard.GrantsSpaced | lambda_function.py:585-622 | any two grants of one key in a run of calls are more than `ttl` seconds apart |
| Guard.PostOnce | lambda_function.py:884-891 | posting a note once touches only the `note:` row of that guard key |
| Guard.GuardPkInjective | lambda_function.py:590 | for incident ids without `#`, equal guard rows mean equal incidents and equal job keys, counting the empty key as `nokey` |
| Guard.NoteKeysSeparate | lambda_function.py:886-887 | a note guard never shares a row with a job guard whose key does not start with `note:` |
| LogScan.StripTimestamp | lambda_function.py:446 | the result is a suffix; when anything was removed it was an `HH:MM:SS` stamp and whitespace, and the rest starts with non-space |
| LogScan.TimestampRoundTrip | lambda_function.py:446 | a stamp followed by whitespace and a message gives back exactly the message |
| LogScan.AnsiLength | lambda_function.py:720 | a recognised escape sequence is at least three characters long and starts with ESC `[` |
| LogScan.StripAnsi | lambda_function.py:748 | removing escape sequences never lengthens the line, only keeps characters of the line, and leaves a line without ESC unchanged |
| LogScan.StripAnsiSequence | lambda_function.py:720 | an escape sequence of parameter bytes, intermediate bytes and a final byte is removed and the rest kept |
| LogScan.CleanPlainLine | lambda_function.py:747-750 | a plain line with no escape, no trailing space and no JSON payload is kept as it is |
| LogScan.MarkerLineShape | lambda_function.py:452-459 | the table marker line is neither blank nor a rule |
| LogScan.LastColumn | lambda_function.py:476-478 | the value cell is a suffix of the row after a run of two or more spaces, with no such run inside |
| LogScan.LastColumnUnique | lambda_function.py:476-478 | that last column is the only suffix with this property |
| LogScan.Flush | lambda_function.py:439-442 | flushing keeps the output as its prefix; an empty section adds nothing; otherwise the section follows line by line and then one empty line |
| LogScan.KindOf | lambda_function.py:448-473 | each kind holds exactly when the tests made before it fail and its own holds: blank, rule, marker, `key` header, `value` header, otherwise text |
| LogScan.MarkerNeedsLength | lambda_function.py:459 | a line containing the table marker is, once stripped, at least as long as the marker |
| LogScan.HeaderCell | lambda_function.py:467-473 | a cell reading `key` or `value` after stripping and lower-casing is neither blank, a rule nor a marker, and is recognised as that header |
| LogScan.ScanAppend | lambda_function.py:444-482 | the scan of concatenated lines is the scan of the second part resumed from the state after the first |
| LogScan.CollectShape | lambda_function.py:439-484 | every kept line is either empty or not blank, and the output ends with an empty line when non-empty |
| LogScan.MarkerDiscardsPrefix | lambda_function.py:459-465 | everything before the table marker is discarded |
| LogScan.RowsBeforeValueDropped | lambda_function.py:467-481 | inside the table and before the `VALUE` header, rows are dropped |
| LogScan.RowsAfterValueKeepColumn | lambda_function.py:474-481 | after the `VALUE` header each row contributes its last column when that column is not blank |
| LogScan.TableKeepsValueColumn | lambda_function.py:459-484 | a marker, `KEY`/`VALUE` headers and rows give exactly the non-blank value cells and a closing empty line, for header cells of any length |
| LogScan.PlainLineKept | lambda_function.py:482 | outside a table an ordinary line joins the current section |
| LogScan.RuleFlushes | lambda_function.py:451-458 | a rule flushes the section and leaves table mode |
| LogScan.PlainRunKept | lambda_function.py:482 | outside a table a run of ordinary lines joins the open section, in order |
| LogScan.TableWithoutValueCell | lambda_function.py:459-481 | a marker followed only by table rows, with no `value` header cell, keeps nothing, whatever came before |
| LogScan.OneLineHeaderKeepsNothing | lambda_function.py:459-481 | the marker, the header line `Key  Value` and two rows keep nothing |
| LogScan.RuleBetweenRunsDropped | lambda_function.py:448-458 | a rule between two runs of ordinary lines, with an empty line on each side, comes back as two sections each closed by one empty line, and the rule line is gone |
| LogScan.RescanDropsRuleLine | lambda_function.py:448-458 | two groups of the report joined by its separator, scanned again, lose the dashes line |
| Seqs.DedupeAdjacent | lambda_function.py:485-488 | the result has no adjacent repeats, the same set of lines and the same first line |
| Seqs.DedupeAdjacentFixed | lambda_function.py:485-488 | a list without adjacent repeats is unchanged |
| Seqs.DedupeAdjacentRun | lambda_function.py:485-488 | a run of equal lines collapses to one |
| Blocks.ReplaceCrLf | lambda_function.py:489 | replacing CRLF never lengthens the text and leaves text without CR unchanged |
| Blocks.ReplaceCrLfUndoesAddCr | lambda_function.py:489 | on text without CR it undoes turning every LF into CRLF |
| Blocks.CollapseBlankRuns | lambda_function.py:490 | after collapsing no three newlines are adjacent, and the first character is kept |
| Blocks.BlankRunCollapses | lambda_function.py:490 | a newline, horizontal blanks and further newlines become exactly one blank line |
| Blocks.CollapseBlankRunsFixed | lambda_function.py:490 | text with no blank run is unchanged |
| Blocks.SplitParas | lambda_function.py:491 | splitting at blank lines gives at least one part and no part contains a blank line |
| Blocks.JoinSplitParas | lambda_function.py:491 | rejoining the parts with a blank line gives back text that has no triple newline |
| Blocks.BlocksRoundTrip | lambda_function.py:491-499 | splitting joined blocks gives back the blocks |
| Blocks.TextBlocks | lambda_function.py:491 | every block is stripped, non-empty and has no blank line; the blocks are exactly the stripped non-blank paragraphs, in paragraph order, each taken from its own paragraph |
| Seqs.FilterPicks | lambda_function.py:491 | a filter keeps exactly the entries with the predicate, in their original order |
| Blocks.TextBlocksComplete | lambda_function.py:491 | every non-blank paragraph appears, stripped, among the blocks |
| Blocks.UniqueBlocks | lambda_function.py:492-497 | the kept blocks have pairwise distinct case- and space-insensitive keys and cover every key of the blocks |
| Blocks.NormalizeSplitsIntoBlocks | lambda_function.py:484-499 | splitting the normalised text gives back exactly the kept blocks |
| Blocks.NormalizeEmpty | lambda_function.py:484-499 | no kept lines give empty text |
| Seqs.DedupeBy | lambda_function.py:527-534 | first-occurrence dedupe keeps distinct keys, keeps only input items, loses no key, and keeps the items in the order their keys first occur |
| Seqs.DedupeByFirst | lambda_function.py:527-534 | each kept item is the first input item with its key |
| Seqs.DedupeFromAppend | lambda_function.py:527-534 | deduplicating `a + b` is deduplicating `a` and then `b` against the keys `a` already holds |
| Seqs.DedupeBySnoc | lambda_function.py:527-534 | one more item is appended to the result iff its key has not been seen |
| Sections.Segment | lambda_function.py:514-524 | the sections concatenate back to the lines; every section after the first starts at a header and none holds a header later on |
| Sections.SegmentUnique | lambda_function.py:514-524 | that is the only cut with these properties |
| Sections.KeptSections | lambda_function.py:526-534 | the kept sections have distinct normalised first lines, come from the split, and lose no first line |
| Sections.KeptSectionIsFirst | lambda_function.py:526-534 | each kept section is the first section with its header |
| Sections.IisBeforeFrontendAndDb | lambda_function.py:543-545 | a `details for … last 15m` header is an IIS section even when it would also match the frontend or database tests |
| Sections.UnknownHeaderIsMisc | lambda_function.py:537-551 | a header matching no known prefix is miscellaneous |
| Sections.MembersBy | lambda_function.py:553-556 | a group holds exactly the sections classified into it |
| Sections.PartitionBy | lambda_function.py:553-556 | the five groups together hold as many sections as there are |
| Sections.MembersPartition | lambda_function.py:553-556 | every section lands in the group its header selects, and the group sizes sum to the number of sections |
| Sections.ShownBy | lambda_function.py:563-568 | a group is rendered iff it is in the order and non-empty |
| Sections.ShownByOrdered | lambda_function.py:563-568 | rendering keeps the order of the group list |
| Sections.ShownGroups | lambda_function.py:563-568 | exactly the non-empty groups are rendered, in the fixed order acct, fe, iis, db, misc |
| Sections.SectionNeverDropped | lambda_function.py:549-568 | every section is held by the group its header selects, misc for an unrecognised header, and that group is rendered |
| Sections.AccountFirstMiscLast | lambda_function.py:563-568 | a non-empty account group comes first and a non-empty miscellaneous group comes last |
| Sections.RenderKeepsSections | lambda_function.py:558-570 | every section with no surrounding whitespace occurs in the rendered text |
| Sections.RenderGroupOrder | lambda_function.py:558-570 | the block of a group ranked earlier occurs in the rendered text, the separator follows it directly, and the block of the later group starts after that separator |
| Sections.SectionStageKeepsSections | lambda_function.py:514-570 | every kept section occurs in the text that the section stage produces |
| Sections.SectionStageEmpty | lambda_function.py:514-570 | empty text renders as empty text |
| Rundeck.StartJob | lambda_function.py:370-401 | an HTTP error is a start error carrying status and body; an unparsable body or missing id is a 502 start error; a start carries a non-empty id; only a truthy non-dict body raises |
| Rundeck.StartedWithStringId | lambda_function.py:396-401 | a non-empty string id is returned as the execution id |
| Rundeck.StartedWithNumericId | lambda_function.py:396-400 | a non-zero numeric id is returned in decimal; a zero id is a missing id |
| Rundeck.MissingIdIsStartError | lambda_function.py:397-400 | an empty body or a dict without a truthy id is the "no execution id" start error |
| Rundeck.Tick | lambda_function.py:408-414 | an HTTP error raises with the status message; an unparsable reply raises with the parse error; a parsed non-dict raises; a dict stops with its state iff `completed` is truthy and otherwise keeps polling |
| Rundeck.PollUntilDone | lambda_function.py:403-419 | polling uses between 1 and `MAX_RETRIES` requests; with no retries it returns `{}`; a timeout uses all of them |
| Rundeck.PollStopsAtFirst | lambda_function.py:407-414 | polling ends at the first request that completes or raises, with that outcome |
| Rundeck.PollTimesOutIffAllPending | lambda_function.py:407-417 | polling times out iff every one of the `MAX_RETRIES` requests is still pending |
| Rundeck.Take | lambda_function.py:432 | text within the limit is kept whole, and longer text is exactly its first `limit` characters |
| Rundeck.Items | lambda_function.py:444 | iterating a list yields its items; only None, booleans and numbers cannot be iterated |
| Rundeck.LogOf | lambda_function.py:445 | a falsy entry or one without `log` reads as empty; a string log is read as is; reading raises iff the entry is truthy and not a dict, or its `log` is present and not a string |
| Rundeck.EntryLines | lambda_function.py:444-447 | each entry yields the cleaned form of its log, in order; an exception comes from some entry's log |
| Rundeck.EntryLinesOk | lambda_function.py:444-447 | when every entry's log is readable, no exception is raised |
| Rundeck.OutputLinesOfEntries | lambda_function.py:428-447 | a dict reply with an `entries` list is read entry by entry |
| Rundeck.FetchOutput | lambda_function.py:421-432 | an HTTP error raises with the status message; a non-JSON reply returns its stripped text cut to 8000 characters |
| Rundeck.RawOutputIsPrefix | lambda_function.py:427-432 | the raw fallback is the stripped reply when that fits in 8000 characters, and exactly its first 8000 characters otherwise |
| Rundeck.FetchOutputOfEntries | lambda_function.py:421-576 | the report is the section stage of the block stage of the scanned, cleaned entry lines |
| Rundeck.PipelineEmpty | lambda_function.py:433-576 | no lines give an empty report |
| Rundeck.NoEntriesNoText | lambda_function.py:428-429 | a reply without entries gives an empty report |
| Router.ExtractBody | lambda_function.py:628-638 | a non-dict event is the empty body; a dict without `body` is its own body; a string body is its parse, or the empty body when it does not parse; any other truthy body is itself and a falsy one is the empty body |
| Router.GatewayWrapperTransparent | lambda_function.py:628-638 | an API Gateway wrapper whose `body` string parses to a dict without `body` is routed exactly like that dict |
| Router.StripStr | lambda_function.py:990 | `(v or "").strip()` is empty for falsy values, strips strings, and raises exactly on truthy non-strings |
| Router.TitleOf | lambda_function.py:991 | a missing title is empty; a string title is stripped; any other present title, None included, raises |
| Router.KeyOf | lambda_function.py:1009-1016 | a routing key is empty for an empty field and is always a canonical key |
| Router.Select | lambda_function.py:1018-1077 | a job is selected only for an auto or manual event; an auto job needs the auto gate and runs in diagnosis mode; only other events are ignored |
| Router.RemediationBeforeDiagnosis | lambda_function.py:1053-1058 | a manual key in the remediation map selects the remediation job, whatever the diagnosis map holds |
| Router.ManualKeyResolution | lambda_function.py:1047-1072 | a manual key selects a job iff either map has it; otherwise the reply is the unknown-job reply for that key |
| Router.AutoSelection | lambda_function.py:1018-1045 | an auto event selects the watch's diagnosis job iff the watch key is known and the gate is granted; an unknown or missing watch key gives the skip reply |
| Router.OtherEventsIgnored | lambda_function.py:1075-1077 | any other event type is ignored |
| Router.Prepare | lambda_function.py:1079-1117 | a start needs a job id and a granted duplicate guard and keeps the selection; an auto diagnosis start has no missing option; a preflight stop happens only for auto diagnosis |
| Router.GuardKeyIsSelector | lambda_function.py:1079-1081 | a selected job is guarded under its selector, which, for an incident id without `#`, never shares a row with a note guard of the same incident |
| Router.PreflightMissing | lambda_function.py:1106-1117 | an auto diagnosis stops iff required options are missing and lists exactly those; otherwise it starts with the built options |
| Router.ManualSkipsPreflight | lambda_function.py:1106 | a manual run starts with the built options whatever is missing |
| Router.PollRequest | lambda_function.py:911-919 | reading the continuation raises iff one of the id, execution id, mode or selector is truthy and not a string; otherwise it polls iff the stripped id and execution id are both non-empty, with the stripped values and the mode defaulting to `diagnosis`, and gives the missing-inputs reply when it does not |
| Router.PollMode | lambda_function.py:914 | the mode raises iff it is truthy and not a string; a falsy or blank mode is `diagnosis`; otherwise it is the stripped mode |
| Router.PollRequestOfStrings | lambda_function.py:911-919 | for string fields the continuation polls with the stripped values iff the stripped id and execution id are non-empty |
| Router.ReadEnvelope | lambda_function.py:976-992 | reading the envelope raises on a non-dict body, and the `data` it returns is a dict |
| Router.Dispatch | lambda_function.py:994-1117 | a routed body never yields the 500 reply; an ignored event is neither auto nor manual; a start has an incident id, a job id and a granted guard; an auto start also had the gate and no missing option |
| Router.RouteBody | lambda_function.py:971-1117 | the handler body never yields the 500 reply itself; a start has an incident id, a job id and a granted guard |
| Router.Route | lambda_function.py:955-1246 | the handler raises with no reply iff the event is a truthy number or `true`; otherwise the reply is 500 exactly when an exception escapes the handler body, and is the body's own decision when none does |
| Router.PollEnvelope | lambda_function.py:981-1001 | a continuation event skips the `data.id` validation |
| Router.PollEventSkipsValidation | lambda_function.py:981-1001 | a continuation event goes straight to the poll handler, with no incident check or routing |
| Router.Inline | lambda_function.py:1123-1192 | the inline branch posts `<mode>_posted` with no routing note iff the poll completed with state `succeeded` and the fetch succeeded; otherwise it fails with exactly one of these, checked in this order: the poll error; the error from reading the state; `RUNDECK_EXECUTION_FAILED::<state>` for a readable state other than `succeeded`; the fetch error |
| Router.InlineNeedsSuccess | lambda_function.py:1128-1132 | any other final state fails with a message naming that state |
| Router.PolledRun | lambda_function.py:921-944 | the continuation posts iff the poll completed and the fetch succeeded; otherwise it fails with the poll error or the fetch error and classifies it |
| Router.PolledRunMatchesInline | lambda_function.py:906-944 | when the execution did not end in another state, the continuation and the inline branch give the same routing note and post in the same cases |
| Router.AfterStart | lambda_function.py:1119-1224 | a start error gives `rundeck_start_validation_error` with no routing note; only other exceptions escape; a started job is either accepted for the continuation or run inline |
| Router.StartGuidance | lambda_function.py:1217 | the guidance for a start error is its body, or a non-empty status text when the body is empty |

## Left out

- Configuration (`Config`, the AppConfig override loader, lines 18-215): the maps, flags and required-option list come in as `Router.Settings`. The default option maps are constants in `Options`.
- Logging (`Log`, lines 94-119): it has no effect on results.
- `RootlyClient` (lines 221-349): its HTTP calls, the retry with backoff, and the field look-ups. Notes posted on an incident are side effects. The model keeps only the category of the `ROUTING::` note, in `Router.Finish`.
- `format_for_rootly` and `format_error_for_rootly` (lines 807-833): these only format note text.
- `_new_token` and `set_mirror_ready_token` (lines 835-879): mirror tokens are side effects guarded by leases the model already covers.
- HTTP transport, `time.sleep` between polls, and `time.time()`:
  - replies are `Rundeck.Reply` values, with one per attempt in `PollUntilDone`;
  - exceptions that `requests` itself raises (connection errors, timeouts) are not modelled as inputs: a reply always arrives;
  - the clock is the `now` parameter of `Guard`.
- DynamoDB itself:
  - the store is a map from guard key to row;
  - a `ClientError` other than a failed condition is a `Guard.Fault` input (lines 599, 617);
  - other exceptions from the client library (`BotoCoreError` and the like) are not caught by `acquire_rem_guard` and would end in the 500 reply; they are not modelled;
  - the default window `GUARD_TTL_SECONDS` is the `guardTtl` parameter;
  - TTL expiry of rows is left out;
  - rows are only ever written with a `ts`, so the `attribute_not_exists(#ts)` alternative of the update condition never applies.
- The asynchronous `lambda.invoke` of the continuation: whether a continuation function is configured is the `continuation` flag of `Router.AfterStart`. The code ignores a failed invoke, and so does the model.
- The side effects of the unhandled-exception path (lines 1227-1245): the model keeps only the 500 reply. The logging call at line 956 that raises for a truthy number or `true` event is modelled only by its effect: no reply.
- Router.Route: states the 500 reply and the exception before the `try`, but does not compose the routing decision with `Router.AfterStart`. The handler's guard calls are inputs to the router (`Router.Guards`) rather than calls into `Guard`.
- `json.loads` and `ast.literal_eval`: they are the `parse` parameter of `Router.ExtractBody` and the `unwrap` parameter of `LogScan.CleanLine`. The body of `_try_parse_single_kv_json` is not part of this model.
- Unicode: Python's `\s`, `str.strip`, `str.lower`, `re.IGNORECASE` and `str.isdigit` are modelled for ASCII only. Whitespace is space, tab, LF, CR, VT and FF. Python also counts the separators `\x1c`-`\x1f` and the Unicode spaces as whitespace; the model does not.
- JSON numbers are integers. Floats and their `str()` form are not modelled.
- Json.Repr: the `str()` of a list or dict is modelled with plain single quotes around strings; Python's choice of quote for a string containing `'` and its backslash escapes are not modelled.
- Exception texts: the `Err` strings for exceptions that Python raises itself (AttributeError, JSONDecodeError) are placeholders. The messages the code builds are exact:
  - the start-error bodies;
  - the poll timeout message;
  - `RUNDECK_EXECUTION_FAILED::<state>`;
  - the HTTP error text.
- Keys.NormKeyJoin: covers only separators that hold no letter or digit and labels that each have a key. Where a separator is added or removed, the key changes: `watchid` and `watch_id` are different keys.
- Fields.GetByPath: its contract states only that a generic path never raises. What the walk returns is stated by `Fields.WalkCompose`, `Fields.WalkFromNull`, `Fields.WalkDeadEnds` and `Fields.WalkListByKey`.
- Rundeck.EntryLines: on an exception it states only that some entry's log cannot be read, not which one.

=== FILE: blocks.dfy ===
/** The text-level half of the output normaliser
    (`RundeckClient.fetch_output`, lambda_function.py:484-497): the kept
    lines lose adjacent repeats and are joined, line endings and blank runs
    are normalised, and the text is cut into blocks of which only the first
    of each normalised form survives. */
module Blocks {
  import opened Text
  import Seqs

  // ---------------------------------------------------------------------
  // "\r\n" -> "\n"
  // ---------------------------------------------------------------------

  /** `s.replace("\r\n", "\n")`: occurrences are replaced left to right. */
  function ReplaceCrLf(s: string): (r: string)
    ensures |r| <= |s|
    ensures '\r' !in s ==> r == s
  {
    if |s| >= 2 && s[0] == '\r' && s[1] == '\n' then "\n" + ReplaceCrLf(s[2..])
    else if s == [] then []
    else [s[0]] + ReplaceCrLf(s[1..])
  }

  /** The same text with Windows line endings. */
  function AddCr(s: string): (r: string)
    ensures |r| >= |s|
  {
    if s == [] then []
    else if s[0] == '\n' then "\r\n" + AddCr(s[1..])
    else [s[0]] + AddCr(s[1..])
  }

  /** Replacing the line endings undoes `AddCr` on text without `\r`. */
  lemma {:induction false} ReplaceCrLfUndoesAddCr(s: string)
    requires '\r' !in s
    ensures ReplaceCrLf(AddCr(s)) == s
  {
    if s != [] {
      ReplaceCrLfUndoesAddCr(s[1..]);
      var t := AddCr(s);
      if s[0] == '\n' {
        assert t == "\r\n" + AddCr(s[1..]);
        assert t[2..] == AddCr(s[1..]);
      } else {
        assert t == [s[0]] + AddCr(s[1..]);
        assert t[1..] == AddCr(s[1..]);
      }
    }
  }

  // ---------------------------------------------------------------------
  // re.sub(r'\n[ \t]*\n+', '\n\n', s)
  // ---------------------------------------------------------------------

  predicate IsHSpace(c: char) { c == ' ' || c == '\t' }
  predicate IsNewline(c: char) { c == '\n' }

  /** No three newlines in a row. */
  predicate NoTripleNewline(s: string) {
    forall i :: 0 <= i < |s| - 2 ==> !(s[i] == '\n' && s[i + 1] == '\n' && s[i + 2] == '\n')
  }

  /** The length of the match of `\n[ \t]*\n+` at the start of `s`, or 0
      when there is none. The class `[ \t]` holds no newline, so the greedy
      match never backtracks. */
  function BlankRunLength(s: string): (n: nat)
    ensures n <= |s|
    ensures n > 0 ==> n >= 2 && s[0] == '\n' && s[n - 1] == '\n' && (n == |s| || s[n] != '\n')
  {
    if s == [] || s[0] != '\n' then 0
    else
      var t1 := TrimLeftBy(s[1..], IsHSpace);
      var t2 := TrimLeftBy(t1, IsNewline);
      if |t2| < |t1| then
        assert t1[0] == '\n';
        assert s[|s| - |t1|] == '\n';
        assert t1[|t1| - |t2| - 1] == '\n';
        |s| - |t2|
      else 0
  }

  /** Each blank run that starts at a newline becomes exactly one empty line. */
  function CollapseBlankRuns(s: string): (r: string)
    ensures s != [] ==> r != [] && r[0] == s[0]
    ensures NoTripleNewline(r)
    decreases |s|
  {
    if s == [] then []
    else
      var n := BlankRunLength(s);
      if n > 0 then
        var rest := CollapseBlankRuns(s[n..]);
        NoTripleAfterPair(rest);
        "\n\n" + rest
      else
        var rest := CollapseBlankRuns(s[1..]);
        if s[0] == '\n' && |s| >= 2 then NoRunNoPair(s); NoTripleAfterChar(s[0], rest); [s[0]] + rest
        else NoTripleAfterChar(s[0], rest); [s[0]] + rest
  }

  /** Where no blank run starts at a newline, the next character is not a
      newline. */
  lemma {:induction false} NoRunNoPair(s: string)
    requires |s| >= 2 && s[0] == '\n' && BlankRunLength(s) == 0
    ensures s[1] != '\n'
  {
  }

  lemma {:induction false} NoTripleAfterPair(rest: string)
    requires NoTripleNewline(rest) && (rest == [] || rest[0] != '\n')
    ensures NoTripleNewline("\n\n" + rest)
  {
    var r := "\n\n" + rest;
    forall i | 2 <= i < |r| - 2
      ensures !(r[i] == '\n' && r[i + 1] == '\n' && r[i + 2] == '\n')
    {
      assert r[i] == rest[i - 2] && r[i + 1] == rest[i - 1] && r[i + 2] == rest[i];
    }
  }

  lemma {:induction false} NoTripleAfterChar(c: char, rest: string)
    requires NoTripleNewline(rest) && (c == '\n' ==> rest == [] || rest[0] != '\n')
    ensures NoTripleNewline([c] + rest)
  {
    var r := [c] + rest;
    forall i | 1 <= i < |r| - 2
      ensures !(r[i] == '\n' && r[i + 1] == '\n' && r[i + 2] == '\n')
    {
      assert r[i] == rest[i - 1] && r[i + 1] == rest[i] && r[i + 2] == rest[i + 1];
    }
  }

  function Newlines(k: nat): string {
    seq(k, _ => '\n')
  }

  /** A newline, some spaces and tabs and one or more newlines become one
      empty line, and the text after the run is processed on its own. */
  lemma {:induction false} BlankRunCollapses(ws: string, k: nat, post: string)
    requires forall i :: 0 <= i < |ws| ==> IsHSpace(ws[i])
    requires k >= 1
    requires post == [] || post[0] != '\n'
    ensures CollapseBlankRuns("\n" + ws + Newlines(k) + post) == "\n\n" + CollapseBlankRuns(post)
  {
    var s := "\n" + ws + Newlines(k) + post;
    BlankRunLengthOf(ws, k, post);
    CollapseAtRun(s);
    assert s[1 + |ws| + k..] == post;
  }

  lemma {:induction false} BlankRunLengthOf(ws: string, k: nat, post: string)
    requires forall i :: 0 <= i < |ws| ==> IsHSpace(ws[i])
    requires k >= 1
    requires post == [] || post[0] != '\n'
    ensures BlankRunLength("\n" + ws + Newlines(k) + post) == 1 + |ws| + k
  {
    var nl := Newlines(k);
    var s := "\n" + ws + nl + post;
    var b := nl + post;
    assert s[1..] == ws + b;
    assert b[0] == '\n';
    TrimLeftByPrefix(ws, b, IsHSpace);
    assert forall i :: 0 <= i < |nl| ==> IsNewline(nl[i]);
    TrimLeftByPrefix(nl, post, IsNewline);
    BlankRunLengthUnfold(s, b, post);
  }

  lemma {:induction false} BlankRunLengthUnfold(s: string, t1: string, t2: string)
    requires s != [] && s[0] == '\n'
    requires TrimLeftBy(s[1..], IsHSpace) == t1 && TrimLeftBy(t1, IsNewline) == t2
    requires |t2| < |t1|
    ensures BlankRunLength(s) == |s| - |t2|
  {
  }

  lemma {:induction false} CollapseAtRun(s: string)
    requires BlankRunLength(s) > 0
    ensures CollapseBlankRuns(s) == "\n\n" + CollapseBlankRuns(s[BlankRunLength(s)..])
  {
  }

  /** Text in which no blank run starts anywhere is left as it is. */
  lemma {:induction false} CollapseBlankRunsFixed(s: string)
    requires forall i :: 0 <= i < |s| ==> BlankRunLength(s[i..]) == 0
    ensures CollapseBlankRuns(s) == s
    decreases |s|
  {
    if s != [] {
      assert BlankRunLength(s[0..]) == 0 && s[0..] == s;
      forall i | 0 <= i < |s[1..]|
        ensures BlankRunLength(s[1..][i..]) == 0
      {
        assert s[1..][i..] == s[i + 1..];
      }
      CollapseBlankRunsFixed(s[1..]);
    }
  }

  // ---------------------------------------------------------------------
  // re.split(r'\n\n+', s)
  // ---------------------------------------------------------------------

  /** No two newlines in a row. */
  predicate NoDoubleNewline(s: string) {
    forall i :: 0 <= i < |s| - 1 ==> !(s[i] == '\n' && s[i + 1] == '\n')
  }

  /** `re.split(r'\n\n+', s)`: the pieces between runs of two or more
      newlines, empty pieces included. */
  function SplitParas(s: string): (parts: seq<string>)
    ensures |parts| >= 1
    ensures forall i :: 0 <= i < |parts| ==> NoDoubleNewline(parts[i])
    ensures parts[0] == [] || (s != [] && parts[0][0] == s[0])
    decreases |s|
  {
    if s == [] then [[]]
    else if |s| >= 2 && s[0] == '\n' && s[1] == '\n' then
      [[]] + SplitParas(TrimLeftBy(s, IsNewline))
    else
      var rest := SplitParas(s[1..]);
      NoDoubleCons(s[0], rest[0]);
      [[s[0]] + rest[0]] + rest[1..]
  }

  lemma {:induction false} NoDoubleCons(c: char, p: string)
    requires NoDoubleNewline(p) && (c == '\n' ==> p == [] || p[0] != '\n')
    ensures NoDoubleNewline([c] + p)
  {
    var r := [c] + p;
    forall i | 1 <= i < |r| - 1
      ensures !(r[i] == '\n' && r[i + 1] == '\n')
    {
      assert r[i] == p[i - 1] && r[i + 1] == p[i];
    }
  }

  /** Joining after prepending a character to the first piece is prepending
      it to the joined text. */
  lemma {:induction false} JoinCons(c: char, p: string, ps: seq<string>, sep: string)
    ensures Join([[c] + p] + ps, sep) == [c] + Join([p] + ps, sep)
  {
    if ps != [] {
      assert ([[c] + p] + ps)[1..] == ps && ([p] + ps)[1..] == ps;
    }
  }

  /** Splitting text with no run of three newlines and joining the pieces
      with an empty line gives the text back. */
  lemma {:induction false} JoinSplitParas(s: string)
    requires NoTripleNewline(s)
    ensures Join(SplitParas(s), "\n\n") == s
    decreases |s|
  {
    if s == [] {
    } else if |s| >= 2 && s[0] == '\n' && s[1] == '\n' {
      NoTripleSuffix(s, 2);
      JoinSplitParas(s[2..]);
      JoinSplitParasPair(s);
    } else {
      NoTripleSuffix(s, 1);
      JoinSplitParas(s[1..]);
      JoinSplitParasChar(s);
    }
  }

  lemma {:induction false} JoinSplitParasPair(s: string)
    requires NoTripleNewline(s) && |s| >= 2 && s[0] == '\n' && s[1] == '\n'
    requires Join(SplitParas(s[2..]), "\n\n") == s[2..]
    ensures Join(SplitParas(s), "\n\n") == s
  {
    SplitParasPair(s);
    JoinEmptyHead(SplitParas(s[2..]), "\n\n");
  }

  lemma {:induction false} SplitParasPair(s: string)
    requires NoTripleNewline(s) && |s| >= 2 && s[0] == '\n' && s[1] == '\n'
    ensures SplitParas(s) == [[]] + SplitParas(s[2..])
  {
    var t := s[2..];
    assert s == "\n\n" + t;
    assert t == [] || t[0] != '\n';
    TrimLeftByPrefix("\n\n", t, IsNewline);
  }

  lemma {:induction false} JoinEmptyHead(rest: seq<string>, sep: string)
    requires rest != []
    ensures Join([[]] + rest, sep) == sep + Join(rest, sep)
  {
    assert ([[]] + rest)[1..] == rest;
  }

  lemma {:induction false} JoinSplitParasChar(s: string)
    requires s != [] && !(|s| >= 2 && s[0] == '\n' && s[1] == '\n')
    requires Join(SplitParas(s[1..]), "\n\n") == s[1..]
    ensures Join(SplitParas(s), "\n\n") == s
  {
    var rest := SplitParas(s[1..]);
    assert SplitParas(s) == [[s[0]] + rest[0]] + rest[1..];
    JoinCons(s[0], rest[0], rest[1..], "\n\n");
    assert [rest[0]] + rest[1..] == rest;
  }

  lemma {:induction false} NoTripleSuffix(s: string, k: nat)
    requires NoTripleNewline(s) && k <= |s|
    ensures NoTripleNewline(s[k..])
  {
    var t := s[k..];
    forall i | 0 <= i < |t| - 2
      ensures !(t[i] == '\n' && t[i + 1] == '\n' && t[i + 2] == '\n')
    {
      assert t[i] == s[i + k] && t[i + 1] == s[i + k + 1] && t[i + 2] == s[i + k + 2];
    }
  }

  // ---------------------------------------------------------------------
  // Blocks
  // ---------------------------------------------------------------------

  /** A block as the normaliser keeps it: stripped, non-empty, and free of
      empty lines. */
  predicate IsBlock(b: string) {
    b != [] && !IsSpace(b[0]) && !IsSpace(b[|b| - 1]) && NoDoubleNewline(b)
  }

  predicate NonEmpty(s: string) { s != [] }

  /** A stripped piece without empty lines is a block, when it is not empty. */
  lemma {:induction false} StripBlock(p: string)
    requires NoDoubleNewline(p) && Strip(p) != []
    ensures IsBlock(Strip(p))
  {
    var t := TrimLeft(p);
    var r := Strip(p);
    var a := |p| - |t|;
    assert t == p[a..] && r == t[..|r|];
    assert r[0] == t[0];
    forall i | 0 <= i < |r| - 1
      ensures !(r[i] == '\n' && r[i + 1] == '\n')
    {
      assert r[i] == p[a + i] && r[i + 1] == p[a + i + 1];
    }
  }

  /** The indices of the paragraphs of `t` that are not blank, in order. */
  function ParaIndices(t: string): seq<nat> {
    Seqs.KeptFrom(Seqs.Map(SplitParas(t), Strip), NonEmpty, 0)
  }

  /** `[b.strip() for b in re.split(r'\n\n+', t) if b.strip()]`: the
      blocks are the stripped paragraphs that are not blank, one for each
      and in paragraph order. */
  function TextBlocks(t: string): (bs: seq<string>)
    ensures forall i :: 0 <= i < |bs| ==> IsBlock(bs[i])
    ensures var parts, js := SplitParas(t), ParaIndices(t);
      && |js| == |bs|
      && (forall i :: 0 <= i < |bs| ==> js[i] < |parts| && !IsBlank(parts[js[i]]) && bs[i] == Strip(parts[js[i]]))
      && (forall i, k :: 0 <= i < k < |bs| ==> js[i] < js[k])
  {
    var parts := SplitParas(t);
    var stripped := Seqs.Map(parts, Strip);
    var bs := Seqs.Filter(stripped, NonEmpty);
    var js := ParaIndices(t);
    Seqs.FilterPicks(stripped, NonEmpty, 0);
    assert stripped[0..] == stripped;
    forall i | 0 <= i < |bs|
      ensures !IsBlank(parts[js[i]]) && bs[i] == Strip(parts[js[i]])
    {
      StripEmptyIffBlank(parts[js[i]]);
    }
    forall i | 0 <= i < |bs|
      ensures IsBlock(bs[i])
    {
      StripBlock(parts[js[i]]);
    }
    bs
  }

  /** Every paragraph that is not blank gives its stripped form as a block. */
  lemma {:induction false} TextBlocksComplete(t: string, j: nat)
    requires j < |SplitParas(t)| && !IsBlank(SplitParas(t)[j])
    ensures Strip(SplitParas(t)[j]) in TextBlocks(t)
  {
    var parts := SplitParas(t);
    var stripped := Seqs.Map(parts, Strip);
    StripEmptyIffBlank(parts[j]);
    assert NonEmpty(stripped[j]);
  }

  /** `re.sub(r'\s+', ' ', b.lower().strip())`: the form two blocks are
      compared in. */
  function BlockKey(b: string): string {
    CollapseSpaces(Strip(Lower(b)))
  }

  /** The blocks of `t`, keeping only the first of each normalised form. */
  function UniqueBlocks(t: string): (r: seq<string>)
    ensures forall i :: 0 <= i < |r| ==> IsBlock(r[i]) && r[i] in TextBlocks(t)
    ensures Seqs.DistinctKeys(r, BlockKey)
    ensures Seqs.KeySet(r, BlockKey) == Seqs.KeySet(TextBlocks(t), BlockKey)
  {
    Seqs.DedupeBy(TextBlocks(t), BlockKey)
  }

  /** The kept lines without adjacent repeats, joined, with Windows line
      endings replaced and the ends stripped. */
  function JoinedText(keep: seq<string>): string {
    Strip(ReplaceCrLf(Join(Seqs.DedupeAdjacent(keep), "\n")))
  }

  /** The first half of the normaliser's text stage: its blocks. */
  function NormalBlocks(keep: seq<string>): seq<string> {
    UniqueBlocks(CollapseBlankRuns(JoinedText(keep)))
  }

  /** `"\n\n".join(uniq)` */
  function Normalize(keep: seq<string>): string {
    Join(NormalBlocks(keep), "\n\n")
  }

  /** Joined text begins with the first piece. */
  lemma {:induction false} JoinPrefix(bs: seq<string>, sep: string)
    requires bs != []
    ensures |bs[0]| <= |Join(bs, sep)| && Join(bs, sep)[..|bs[0]|] == bs[0]
  {
    if |bs| > 1 {
      assert Join(bs, sep) == bs[0] + (sep + Join(bs[1..], sep));
    }
  }

  /** A block followed by an empty line and text that does not begin with a
      newline splits off as the first piece. */
  lemma {:induction false} SplitParasAfterBlock(b: string, rest: string)
    requires NoDoubleNewline(b) && (b == [] || b[|b| - 1] != '\n')
    requires rest == [] || rest[0] != '\n'
    ensures SplitParas(b + "\n\n" + rest) == [b] + SplitParas(rest)
    decreases |b|
  {
    var s := b + "\n\n" + rest;
    if b == [] {
      assert s == "\n\n" + rest;
      TrimLeftByPrefix("\n\n", rest, IsNewline);
    } else {
      var b' := b[1..];
      assert s[1..] == b' + "\n\n" + rest;
      assert NoDoubleNewline(b') by {
        forall i | 0 <= i < |b'| - 1
          ensures !(b'[i] == '\n' && b'[i + 1] == '\n')
        {
          assert b'[i] == b[i + 1] && b'[i + 1] == b[i + 2];
        }
      }
      SplitParasAfterBlock(b', rest);
      var tail := SplitParas(s[1..]);
      assert tail == [b'] + SplitParas(rest);
      assert tail[0] == b' && tail[1..] == SplitParas(rest);
      if b[0] == '\n' {
        assert b' != [] && b'[0] == b[1];
        assert s[1] == b'[0];
      }
      SplitParasCons(s, b');
      assert [b[0]] + b' == b;
    }
  }

  lemma {:induction false} SplitParasCons(s: string, b': string)
    requires s != [] && !(|s| >= 2 && s[0] == '\n' && s[1] == '\n')
    requires SplitParas(s[1..])[0] == b'
    ensures SplitParas(s) == [[s[0]] + b'] + SplitParas(s[1..])[1..]
  {
  }

  /** Blocks joined with empty lines split back into the same blocks. */
  lemma {:induction false} BlocksRoundTrip(bs: seq<string>)
    requires bs != []
    requires forall i :: 0 <= i < |bs| ==> IsBlock(bs[i])
    ensures SplitParas(Join(bs, "\n\n")) == bs
    decreases |bs|
  {
    if |bs| == 1 {
      SplitParasSingle(bs[0]);
    } else {
      var rest := Join(bs[1..], "\n\n");
      JoinPrefix(bs[1..], "\n\n");
      assert rest[0] == bs[1][0];
      assert Join(bs, "\n\n") == bs[0] + "\n\n" + rest;
      SplitParasAfterBlock(bs[0], rest);
      BlocksRoundTrip(bs[1..]);
      assert [bs[0]] + bs[1..] == bs;
    }
  }

  /** A piece without empty lines is its own only piece. */
  lemma {:induction false} SplitParasSingle(b: string)
    requires NoDoubleNewline(b)
    ensures SplitParas(b) == [b]
    decreases |b|
  {
    if b != [] {
      var b' := b[1..];
      assert NoDoubleNewline(b') by {
        forall i | 0 <= i < |b'| - 1
          ensures !(b'[i] == '\n' && b'[i + 1] == '\n')
        {
          assert b'[i] == b[i + 1] && b'[i + 1] == b[i + 2];
        }
      }
      SplitParasSingle(b');
      assert [b[0]] + b' == b;
    }
  }

  /** The normalised text splits back into exactly its blocks: no block was
      merged with another or cut in two by the final join. */
  lemma {:induction false} NormalizeSplitsIntoBlocks(keep: seq<string>)
    requires NormalBlocks(keep) != []
    ensures SplitParas(Normalize(keep)) == NormalBlocks(keep)
  {
    BlocksRoundTrip(NormalBlocks(keep));
  }

  /** Nothing kept gives no text. */
  lemma {:induction false} NormalizeEmpty()
    ensures Normalize([]) == ""
  {
    assert Seqs.DedupeAdjacent([]) == [];
    assert JoinedText([]) == "";
    assert CollapseBlankRuns("") == "";
    assert SplitParas("") == [""];
    assert Seqs.Map([""], Strip) == [""];
    assert Seqs.Filter([""], NonEmpty) == [];
    assert TextBlocks("") == [];
    assert NormalBlocks([]) == [];
  }
}

=== FILE: dicts.dfy ===
/** Python dictionaries as insertion-ordered sequences of key/value pairs.

    The order matters to the bridge in two places: iterating the normalised
    custom fields (the first matching key wins) and merging option maps
    with `{**a, **b}` (a later entry overrides an earlier one, keeping the
    earlier position). */
module Dicts {
  import opened Wrappers
  import Seqs

  type Dict<V> = seq<(string, V)>

  function Keys<V>(d: Dict<V>): set<string> {
    set i | 0 <= i < |d| :: d[i].0
  }

  /** The keys in dict order, as `list(d)` gives them. */
  function KeySeq<V>(d: Dict<V>): (r: seq<string>)
    ensures |r| == |d|
    ensures forall i :: 0 <= i < |d| ==> r[i] == d[i].0
  {
    if d == [] then [] else [d[0].0] + KeySeq(d[1..])
  }

  lemma {:induction false} KeysAsKeySet<V>(d: Dict<V>)
    ensures Keys(d) == Seqs.KeySet(KeySeq(d), Seqs.Id)
  {
    var ks := KeySeq(d);
    forall k | k in Seqs.KeySet(ks, Seqs.Id)
      ensures k in Keys(d)
    {
      var i :| 0 <= i < |ks| && Seqs.Id(ks[i]) == k;
      assert d[i].0 == k;
    }
    forall k | k in Keys(d)
      ensures k in Seqs.KeySet(ks, Seqs.Id)
    {
      var i :| 0 <= i < |d| && d[i].0 == k;
      assert Seqs.Id(ks[i]) == k;
    }
  }

  lemma {:induction false} KeysEmpty<V>()
    ensures Keys<V>([]) == {}
  {
  }

  lemma {:induction false} KeysCons<V>(p: (string, V), d: Dict<V>)
    ensures Keys([p] + d) == {p.0} + Keys(d)
  {
    var e := [p] + d;
    forall k | k in Keys(e)
      ensures k in {p.0} + Keys(d)
    {
      var i :| 0 <= i < |e| && e[i].0 == k;
      if i > 0 {
        assert d[i - 1].0 == k;
      }
    }
    forall k | k in {p.0} + Keys(d)
      ensures k in Keys(e)
    {
      if k == p.0 {
        assert e[0].0 == k;
      } else {
        var i :| 0 <= i < |d| && d[i].0 == k;
        assert e[i + 1].0 == k;
      }
    }
  }

  /** The names `f` gives to the pairs of `d` that satisfy `keep`. */
  function Image<V>(d: Dict<V>, keep: (string, V) -> bool, f: (string, V) -> string): set<string> {
    set i | 0 <= i < |d| && keep(d[i].0, d[i].1) :: f(d[i].0, d[i].1)
  }

  lemma {:induction false} ImageCons<V>(d: Dict<V>, keep: (string, V) -> bool, f: (string, V) -> string)
    requires d != []
    ensures Image(d, keep, f) ==
      (if keep(d[0].0, d[0].1) then {f(d[0].0, d[0].1)} else {}) + Image(d[1..], keep, f)
  {
    var rest := Image(d[1..], keep, f);
    forall k | k in Image(d, keep, f)
      ensures k in (if keep(d[0].0, d[0].1) then {f(d[0].0, d[0].1)} else {}) + rest
    {
      var i :| 0 <= i < |d| && keep(d[i].0, d[i].1) && f(d[i].0, d[i].1) == k;
      if i > 0 {
        assert d[1..][i - 1] == d[i];
      }
    }
    forall k | k in rest
      ensures k in Image(d, keep, f)
    {
      var i :| 0 <= i < |d[1..]| && keep(d[1..][i].0, d[1..][i].1) && f(d[1..][i].0, d[1..][i].1) == k;
      assert d[1..][i] == d[i + 1];
    }
  }

  /** No key occurs twice, as in every Python dict. */
  predicate Unique<V>(d: Dict<V>) {
    forall i, j :: 0 <= i < j < |d| ==> d[i].0 != d[j].0
  }

  /** Position of the first occurrence of `k`, or `|d|` when there is none. */
  function IndexOf<V>(d: Dict<V>, k: string): (i: nat)
    ensures i <= |d|
    ensures i < |d| ==> d[i].0 == k
    ensures forall j :: 0 <= j < i ==> d[j].0 != k
  {
    if d == [] then 0
    else if d[0].0 == k then 0
    else 1 + IndexOf(d[1..], k)
  }

  /** `d.get(k)`: the value paired with the first occurrence of `k`. */
  function Get<V>(d: Dict<V>, k: string): (r: Option<V>)
    ensures r.None? <==> k !in Keys(d)
    ensures r.Some? ==> IndexOf(d, k) < |d| && d[IndexOf(d, k)] == (k, r.value)
  {
    if d == [] then None
    else
      KeysCons(d[0], d[1..]);
      assert [d[0]] + d[1..] == d;
      if d[0].0 == k then Some(d[0].1) else Get(d[1..], k)
  }

  /** `d[k] = v`: replaces the value in place when `k` is present, appends
      the pair otherwise. */
  function Put<V>(d: Dict<V>, k: string, v: V): (r: Dict<V>)
    ensures Keys(r) == Keys(d) + {k}
    ensures Get(r, k) == Some(v)
    ensures forall k' :: k' != k ==> Get(r, k') == Get(d, k')
    ensures k !in Keys(d) ==> r == d + [(k, v)]
    ensures forall p :: p in r ==> p in d || p == (k, v)
  {
    if d == [] then
      KeysCons((k, v), []);
      assert [(k, v)] + [] == [(k, v)];
      [(k, v)]
    else
      KeysCons(d[0], d[1..]);
      assert [d[0]] + d[1..] == d;
      if d[0].0 == k then
        KeysCons((k, v), d[1..]);
        [(k, v)] + d[1..]
      else
        var rest := Put(d[1..], k, v);
        KeysCons(d[0], rest);
        [d[0]] + rest
  }

  /** Assignment keeps the key order: a present key stays where it is, a
      new one goes last. */
  lemma {:induction false} PutOrder<V>(d: Dict<V>, k: string, v: V)
    ensures KeySeq(Put(d, k, v)) == KeySeq(d) + (if k in Keys(d) then [] else [k])
    decreases |d|
  {
    if k !in Keys(d) {
      KeySeqSnoc(d, (k, v));
    } else {
      assert KeySeq(Put(d, k, v)) == KeySeq(d) by {
        PutKeepsOrder(d, k, v);
      }
      assert KeySeq(d) + [] == KeySeq(d);
    }
  }

  /** Assigning a present key keeps the key sequence. */
  lemma {:induction false} PutKeepsOrder<V>(d: Dict<V>, k: string, v: V)
    requires k in Keys(d)
    ensures KeySeq(Put(d, k, v)) == KeySeq(d)
    decreases |d|
  {
    var r := Put(d, k, v);
    var t := d[1..];
    assert [d[0]] + t == d;
    KeysCons(d[0], t);
    KeySeqCons(d[0], t);
    if d[0].0 == k {
      assert r == [(k, v)] + t;
      KeySeqCons((k, v), t);
    } else {
      assert k in Keys(t);
      PutKeepsOrder(t, k, v);
      assert r == [d[0]] + Put(t, k, v);
      KeySeqCons(d[0], Put(t, k, v));
    }
  }

  lemma {:induction false} KeySeqCons<V>(p: (string, V), d: Dict<V>)
    ensures KeySeq([p] + d) == [p.0] + KeySeq(d)
  {
    assert ([p] + d)[1..] == d;
  }

  lemma {:induction false} KeySeqSnoc<V>(d: Dict<V>, p: (string, V))
    ensures KeySeq(d + [p]) == KeySeq(d) + [p.0]
  {
    var x, y := KeySeq(d + [p]), KeySeq(d) + [p.0];
    forall i | 0 <= i < |x|
      ensures x[i] == y[i]
    {
      if i < |d| {
        assert (d + [p])[i] == d[i];
      }
    }
  }

  /** The first key of a dict does not occur again in the rest of it. */
  lemma {:induction false} UniqueHead<V>(d: Dict<V>)
    requires Unique(d) && d != []
    ensures d[0].0 !in Keys(d[1..])
    ensures Unique(d[1..])
  {
    forall j | 0 <= j < |d[1..]|
      ensures d[1..][j].0 != d[0].0
    {
      assert d[1..][j] == d[j + 1];
    }
  }

  /** A pair whose key is new, put in front of a dict with distinct keys,
      keeps the keys distinct. */
  lemma {:induction false} UniqueCons<V>(p: (string, V), d: Dict<V>)
    requires Unique(d) && p.0 !in Keys(d)
    ensures Unique([p] + d)
  {
    var e := [p] + d;
    forall i, j | 0 <= i < j < |e|
      ensures e[i].0 != e[j].0
    {
      assert e[j] == d[j - 1];
      if i > 0 {
        assert e[i] == d[i - 1];
      }
    }
  }

  /** Assignment keeps the keys of a dict distinct. */
  lemma {:induction false} PutUnique<V>(d: Dict<V>, k: string, v: V)
    ensures Unique(d) ==> Unique(Put(d, k, v))
  {
    if Unique(d) && d != [] {
      UniqueHead(d);
      if d[0].0 == k {
        UniqueCons((k, v), d[1..]);
      } else {
        PutUnique(d[1..], k, v);
        UniqueCons(d[0], Put(d[1..], k, v));
      }
    }
  }

  /** Assigns every pair of `entries`, in order, on top of `acc`. */
  function PutAll<V>(acc: Dict<V>, entries: Dict<V>): (r: Dict<V>)
    ensures Keys(r) == Keys(acc) + Keys(entries)
    ensures forall k :: k !in Keys(entries) ==> Get(r, k) == Get(acc, k)
    decreases |entries|
  {
    if entries == [] then acc
    else
      KeysCons(entries[0], entries[1..]);
      assert [entries[0]] + entries[1..] == entries;
      PutAll(Put(acc, entries[0].0, entries[0].1), entries[1..])
  }

  lemma {:induction false} AppendAssoc<V>(a: Dict<V>, b: Dict<V>, c: Dict<V>)
    ensures (a + b) + c == a + (b + c)
  {
  }

  /** Assigning two runs of pairs is assigning their concatenation. */
  lemma {:induction false} PutAllAppend<V>(acc: Dict<V>, a: Dict<V>, b: Dict<V>)
    ensures PutAll(PutAll(acc, a), b) == PutAll(acc, a + b)
    decreases |a|
  {
    if a == [] {
      assert a + b == b;
    } else {
      assert (a + b)[0] == a[0] && (a + b)[1..] == a[1..] + b;
      PutAllAppend(Put(acc, a[0].0, a[0].1), a[1..], b);
    }
  }

  /** The keys of `acc` keep their places, and the new keys of `entries`
      follow in the order they first occur there. */
  lemma {:induction false} PutAllOrder<V>(acc: Dict<V>, entries: Dict<V>)
    ensures KeySeq(PutAll(acc, entries)) == KeySeq(acc) + Seqs.DedupeFrom(KeySeq(entries), Seqs.Id, Keys(acc))
    decreases |entries|
  {
    if entries == [] {
      assert KeySeq(entries) == [];
    } else {
      var acc' := Put(acc, entries[0].0, entries[0].1);
      PutAllOrder(acc', entries[1..]);
      PutAllStep(acc, entries, PutAll(acc, entries));
    }
  }

  /** The key-order step of `PutAll`: one assignment, then the rest. */
  lemma {:induction false} PutAllStep<V>(acc: Dict<V>, entries: Dict<V>, r: Dict<V>)
    requires entries != []
    requires var acc' := Put(acc, entries[0].0, entries[0].1);
      KeySeq(r) == KeySeq(acc') + Seqs.DedupeFrom(KeySeq(entries[1..]), Seqs.Id, Keys(acc'))
    ensures KeySeq(r) == KeySeq(acc) + Seqs.DedupeFrom(KeySeq(entries), Seqs.Id, Keys(acc))
  {
    var k := entries[0].0;
    var seen := Keys(acc);
    var acc' := Put(acc, k, entries[0].1);
    var d := Seqs.DedupeFrom(KeySeq(entries[1..]), Seqs.Id, seen + {k});
    var full := Seqs.DedupeFrom(KeySeq(entries), Seqs.Id, seen);
    assert full == if k in seen then d else [k] + d by {
      assert KeySeq(entries) == [k] + KeySeq(entries[1..]);
      assert Seqs.Id(k) == k;
      Seqs.DedupeFromCons(k, KeySeq(entries[1..]), Seqs.Id, seen);
      assert k in seen ==> seen + {k} == seen;
    }
    assert KeySeq(acc') == KeySeq(acc) + (if k in seen then [] else [k]) by {
      PutOrder(acc, k, entries[0].1);
    }
    assert Keys(acc') == seen + {k};
    Seqs.Shift(KeySeq(acc), KeySeq(acc'), k, k in seen, d, full, KeySeq(r));
  }

  /** The names `f` gives to the pairs of `d`. */
  function Names<V>(d: Dict<V>, f: (string, V) -> string): set<string> {
    set i | 0 <= i < |d| :: f(d[i].0, d[i].1)
  }

  lemma {:induction false} NamesCons<V>(d: Dict<V>, f: (string, V) -> string)
    requires d != []
    ensures Names(d, f) == {f(d[0].0, d[0].1)} + Names(d[1..], f)
  {
    var rest := Names(d[1..], f);
    forall k | k in Names(d, f)
      ensures k in {f(d[0].0, d[0].1)} + rest
    {
      var i :| 0 <= i < |d| && f(d[i].0, d[i].1) == k;
      if i > 0 {
        assert d[1..][i - 1] == d[i];
      }
    }
    forall k | k in rest
      ensures k in Names(d, f)
    {
      var i :| 0 <= i < |d[1..]| && f(d[1..][i].0, d[1..][i].1) == k;
      assert d[1..][i] == d[i + 1];
    }
  }

  /** Position of the first pair that `f` names `k`, or `|d|`. */
  function FirstNamed<V>(d: Dict<V>, f: (string, V) -> string, k: string): (i: nat)
    ensures i <= |d|
    ensures i < |d| ==> f(d[i].0, d[i].1) == k
    ensures forall j :: 0 <= j < i ==> f(d[j].0, d[j].1) != k
    ensures i < |d| <==> k in Names(d, f)
  {
    if d == [] then 0
    else
      NamesCons(d, f);
      if f(d[0].0, d[0].1) == k then 0 else 1 + FirstNamed(d[1..], f, k)
  }

  lemma {:induction false} FirstNamedCons<V>(d: Dict<V>, f: (string, V) -> string)
    requires d != []
    ensures forall k :: k != f(d[0].0, d[0].1) ==> FirstNamed(d, f, k) == 1 + FirstNamed(d[1..], f, k)
  {
  }

  /** Assigns the value of each pair of `entries` under the name `f` gives
      it, unless that name is already present: nothing present is ever
      overwritten. */
  function PutNew<V>(acc: Dict<V>, entries: Dict<V>, f: (string, V) -> string): (r: Dict<V>)
    ensures forall k :: k in Keys(acc) ==> Get(r, k) == Get(acc, k)
    ensures Keys(r) == Keys(acc) + Names(entries, f)
    ensures forall k :: k in Names(entries, f) && k !in Keys(acc) ==>
      Get(r, k) == Some(entries[FirstNamed(entries, f, k)].1)
    decreases |entries|
  {
    if entries == [] then acc
    else
      var key := f(entries[0].0, entries[0].1);
      var acc' := if key in Keys(acc) then acc else Put(acc, key, entries[0].1);
      NamesCons(entries, f);
      FirstNamedCons(entries, f);
      PutNew(acc', entries[1..], f)
  }

  /** `{**a, **b}` */
  function Merge<V>(a: Dict<V>, b: Dict<V>): Dict<V> {
    PutAll(PutAll([], a), b)
  }

  /** Assigning the pairs of a dict with distinct keys leaves each key with
      the value the dict gives it. */
  lemma {:induction false} PutAllOverrides<V>(acc: Dict<V>, entries: Dict<V>, k: string)
    requires Unique(entries)
    requires k in Keys(entries)
    ensures Get(PutAll(acc, entries), k) == Get(entries, k)
    decreases |entries|
  {
    KeysCons(entries[0], entries[1..]);
    assert [entries[0]] + entries[1..] == entries;
    var acc' := Put(acc, entries[0].0, entries[0].1);
    assert Unique(entries[1..]);
    if k == entries[0].0 {
      UniqueHead(entries);
    } else {
      PutAllOverrides(acc', entries[1..], k);
    }
  }

  lemma {:induction false} MergeOrder<V>(a: Dict<V>, b: Dict<V>)
    ensures KeySeq(Merge(a, b)) == Seqs.DedupeBy(KeySeq(a) + KeySeq(b), Seqs.Id)
  {
    var m := PutAll([], a);
    FreshOrder(a);
    PutAllOrder(m, b);
    DedupeKeysAppend(a, b);
  }

  /** Assigning a dict's pairs into an empty dict keeps its keys in
      first-occurrence order. */
  lemma {:induction false} FreshOrder<V>(a: Dict<V>)
    ensures KeySeq(PutAll([], a)) == Seqs.DedupeFrom(KeySeq(a), Seqs.Id, {})
    ensures Keys(PutAll([], a)) == Keys(a)
  {
    KeysEmpty<V>();
    PutAllOrder([], a);
    assert KeySeq<V>([]) == [];
  }

  /** First-occurrence order of the keys of `a` followed by those of `b`. */
  lemma {:induction false} DedupeKeysAppend<V>(a: Dict<V>, b: Dict<V>)
    ensures Seqs.DedupeBy(KeySeq(a) + KeySeq(b), Seqs.Id) ==
      Seqs.DedupeFrom(KeySeq(a), Seqs.Id, {}) + Seqs.DedupeFrom(KeySeq(b), Seqs.Id, Keys(a))
  {
    KeysAsKeySet(a);
    Seqs.DedupeFromAppend(KeySeq(a), KeySeq(b), Seqs.Id, {});
    assert {} + Seqs.KeySet(KeySeq(a), Seqs.Id) == Keys(a);
  }

  /** `{**a, **b}` of two dicts: `b` wins on shared keys, `a` supplies the
      rest, and the keys come in first-occurrence order across `a` then `b`
      (a shared key keeps its place in `a`). */
  lemma {:induction false} MergeLookup<V>(a: Dict<V>, b: Dict<V>, k: string)
    requires Unique(a) && Unique(b)
    ensures Keys(Merge(a, b)) == Keys(a) + Keys(b)
    ensures Get(Merge(a, b), k) == if k in Keys(b) then Get(b, k) else Get(a, k)
    ensures KeySeq(Merge(a, b)) == Seqs.DedupeBy(KeySeq(a) + KeySeq(b), Seqs.Id)
  {
    MergeOrder(a, b);
    if k in Keys(b) {
      PutAllOverrides(PutAll([], a), b, k);
    } else if k in Keys(a) {
      PutAllOverrides([], a, k);
    }
  }
}

=== FILE: failure.dfy ===
/** Failure classification (`classify_failure`, lambda_function.py:752-766):
    an ordered, first-match substring classifier over the lower-cased error
    text. */
module Failure {
  import opened Text

  datatype FailureCategory =
    | ConfigurationError
    | MissingInput
    | DependencyTimeout
    | IamError
    | RundeckApiError
    | UnknownFailure

  /** The category's name as posted in the `ROUTING::` note. */
  function Name(c: FailureCategory): string {
    match c
    case ConfigurationError => "CONFIGURATION_ERROR"
    case MissingInput => "MISSING_INPUT"
    case DependencyTimeout => "DEPENDENCY_TIMEOUT"
    case IamError => "IAM_ERROR"
    case RundeckApiError => "RUNDECK_API_ERROR"
    case UnknownFailure => "UNKNOWN_FAILURE"
  }

  /** Position of a category in the order the checks are made. */
  function Rank(c: FailureCategory): nat {
    match c
    case ConfigurationError => 0
    case MissingInput => 1
    case DependencyTimeout => 2
    case IamError => 3
    case RundeckApiError => 4
    case UnknownFailure => 5
  }

  /** The phrases that identify each category. */
  function Patterns(c: FailureCategory): seq<string> {
    match c
    case ConfigurationError => ["invalid aws account id"]
    case MissingInput => ["missing required", "required option"]
    case DependencyTimeout => ["read timed out", "connection timed out"]
    case IamError => ["access denied", "not authorized"]
    case RundeckApiError => ["rundeck start error"]
    case UnknownFailure => []
  }

  /** Some phrase of category `c` occurs in the lower-cased text `t`. */
  predicate Matches(t: string, c: FailureCategory) {
    exists p | p in Patterns(c) :: Contains(t, p)
  }

  /** The phrases of each category, spelled out. */
  lemma {:induction false} MatchesCases(t: string)
    ensures Matches(t, ConfigurationError) <==> Contains(t, "invalid aws account id")
    ensures Matches(t, MissingInput) <==> Contains(t, "missing required") || Contains(t, "required option")
    ensures Matches(t, DependencyTimeout) <==> Contains(t, "read timed out") || Contains(t, "connection timed out")
    ensures Matches(t, IamError) <==> Contains(t, "access denied") || Contains(t, "not authorized")
    ensures Matches(t, RundeckApiError) <==> Contains(t, "rundeck start error")
    ensures !Matches(t, UnknownFailure)
  {
    assert "invalid aws account id" in Patterns(ConfigurationError);
    assert "missing required" in Patterns(MissingInput) && "required option" in Patterns(MissingInput);
    assert "read timed out" in Patterns(DependencyTimeout) && "connection timed out" in Patterns(DependencyTimeout);
    assert "access denied" in Patterns(IamError) && "not authorized" in Patterns(IamError);
    assert "rundeck start error" in Patterns(RundeckApiError);
  }

  /** `classify_failure(text)` */
  function ClassifyFailure(text: string): (c: FailureCategory)
    ensures c != UnknownFailure ==> Matches(Lower(text), c)
    ensures c == UnknownFailure ==> forall d: FailureCategory :: !Matches(Lower(text), d)
  {
    var t := Lower(text);
    MatchesCases(t);
    if Contains(t, "invalid aws account id") then ConfigurationError
    else if Contains(t, "missing required") || Contains(t, "required option") then MissingInput
    else if Contains(t, "read timed out") || Contains(t, "connection timed out") then DependencyTimeout
    else if Contains(t, "access denied") || Contains(t, "not authorized") then IamError
    else if Contains(t, "rundeck start error") then RundeckApiError
    else UnknownFailure
  }

  /** No category checked before the chosen one matches the text. */
  lemma {:induction false} NoEarlierMatch(text: string, d: FailureCategory)
    requires Rank(d) < Rank(ClassifyFailure(text))
    ensures !Matches(Lower(text), d)
  {
    MatchesCases(Lower(text));
  }

  /** The classifier picks the first category, in check order, whose phrases
      occur in the text: a matching category is never passed over, and the
      default applies only when nothing matches. */
  lemma {:induction false} ClassifyIsFirstMatch(text: string, c: FailureCategory)
    requires Matches(Lower(text), c)
    requires forall d: FailureCategory :: Rank(d) < Rank(c) ==> !Matches(Lower(text), d)
    ensures ClassifyFailure(text) == c
  {
    var r := ClassifyFailure(text);
    if Rank(c) < Rank(r) {
      NoEarlierMatch(text, c);
    }
  }

  /** Text with both an IAM phrase and the job runner's start-error phrase
      is an IAM error, because IAM is checked first. */
  lemma {:induction false} IamBeforeRundeck(text: string)
    requires Contains(Lower(text), "access denied") && Contains(Lower(text), "rundeck start error")
    requires !Matches(Lower(text), ConfigurationError) && !Matches(Lower(text), MissingInput)
    requires !Matches(Lower(text), DependencyTimeout)
    ensures ClassifyFailure(text) == IamError
  {
    assert "access denied" in Patterns(IamError);
    ClassifyIsFirstMatch(text, IamError);
  }
}

=== FILE: fields.dfy ===
/** The field resolver: flattening the incident's custom fields and
    reading values out of the payload by dotted path
    (`normalize_custom_fields`, `_cf_value_from_root`, `_get_by_path`,
    lambda_function.py:649-717). */
module Fields {
  import opened Wrappers
  import opened Text
  import opened Json
  import opened Keys
  import Dicts
  import Seqs

  /** The normalised custom fields: slug to text, in insertion order. */
  type CustomFields = Dicts.Dict<string>

  predicate NoBlankValues(d: CustomFields) {
    forall i :: 0 <= i < |d| ==> !IsBlank(d[i].1)
  }

  // ---------------------------------------------------------------------
  // normalize_custom_fields
  // ---------------------------------------------------------------------

  /** The option fields consulted, in priority order, for a record's value. */
  const OptionValueKeys: seq<string> := ["value", "slug", "name", "label", "text"]

  /** Position of the first key whose value in `opt` is truthy, or `|keys|`. */
  function FirstTruthyAt(opt: seq<(string, J)>, keys: seq<string>): (i: nat)
    ensures i <= |keys|
    ensures i < |keys| ==> Truthy(Member(opt, keys[i]))
    ensures forall j :: 0 <= j < i ==> !Truthy(Member(opt, keys[j]))
  {
    if keys == [] then 0
    else if Truthy(Member(opt, keys[0])) then 0
    else 1 + FirstTruthyAt(opt, keys[1..])
  }

  /** `meta.get("slug") or meta.get("name")` with
      `meta = field.get("custom_field") or {}`, when `meta` is a dict. */
  function SlugSource(field: seq<(string, J)>): J {
    var meta := Member(field, "custom_field");
    var m := if meta.JObj? then meta.fields else [];
    if Truthy(Member(m, "slug")) then Member(m, "slug") else Member(m, "name")
  }

  /** A truthy `custom_field` that is not a dict has no `get`. */
  predicate MetaRaises(field: seq<(string, J)>) {
    var meta := Member(field, "custom_field");
    Truthy(meta) && !meta.JObj?
  }

  /** A record's slug: `(meta.get("slug") or meta.get("name") or "").strip()`.
      It raises when `custom_field` is a truthy non-dict, or when the chosen
      slug is truthy but not a string; otherwise it is the chosen slug
      stripped, or empty. */
  function RecordSlug(field: seq<(string, J)>): (r: Result<string>)
    ensures r.Err? <==> MetaRaises(field) || (Truthy(SlugSource(field)) && !SlugSource(field).JStr?)
    ensures r.Ok? ==> r.value == if SlugSource(field).JStr? then Strip(SlugSource(field).s) else []
  {
    var meta := Member(field, "custom_field");
    if Truthy(meta) && !meta.JObj? then Err("AttributeError: custom_field is not a dict")
    else
      var m := if meta.JObj? then meta.fields else [];
      var chosen :=
        if Truthy(Member(m, "slug")) then Member(m, "slug")
        else if Truthy(Member(m, "name")) then Member(m, "name")
        else JStr("");
      if chosen.JStr? then Ok(Strip(chosen.s))
      else Err("AttributeError: custom field slug is not a string")
  }

  /** The first selected option, `sel[0] or {}`, when `selected_options` is a
      non-empty list. */
  function FirstOption(field: seq<(string, J)>): Option<J> {
    var sel := Member(field, "selected_options");
    if sel.JArr? && sel.items != [] then
      Some(if Truthy(sel.items[0]) then sel.items[0] else JObj([]))
    else None
  }

  /** A record's raw value (`JNull` for None): the first truthy option field
      in the order of `OptionValueKeys`, else the record's own `value`. */
  function RecordValue(field: seq<(string, J)>): (r: Result<J>)
    ensures r.Err? <==> FirstOption(field).Some? && !FirstOption(field).value.JObj?
  {
    match FirstOption(field)
    case None => Ok(Member(field, "value"))
    case Some(opt) =>
      if !opt.JObj? then Err("AttributeError: selected option is not a dict")
      else
        var i := FirstTruthyAt(opt.fields, OptionValueKeys);
        if i < |OptionValueKeys| then Ok(Member(opt.fields, OptionValueKeys[i]))
        else Ok(Member(field, "value"))
  }

  /** The value of a record comes from the highest-priority truthy field of its
      first selected option; the record's own `value` is used only when no
      option field is truthy. */
  lemma {:induction false} RecordValuePriority(field: seq<(string, J)>, opt: seq<(string, J)>, i: nat)
    requires FirstOption(field) == Some(JObj(opt))
    requires i < |OptionValueKeys| && Truthy(Member(opt, OptionValueKeys[i]))
    requires forall j :: 0 <= j < i ==> !Truthy(Member(opt, OptionValueKeys[j]))
    ensures RecordValue(field) == Ok(Member(opt, OptionValueKeys[i]))
    ensures Truthy(RecordValue(field).value)
  {
  }

  /** The record's own `value` is read only when there is no selected option,
      or when the first one is a dict with no truthy option field. */
  lemma {:induction false} RecordValueFallback(field: seq<(string, J)>)
    requires FirstOption(field).None? || FirstOption(field).value.JObj?
    requires FirstOption(field).Some? ==>
      forall j :: 0 <= j < |OptionValueKeys| ==> !Truthy(Member(FirstOption(field).value.fields, OptionValueKeys[j]))
    ensures RecordValue(field) == Ok(Member(field, "value"))
  {
  }

  /** A value is kept when it is not None and does not print as blank. */
  predicate Kept(v: J) {
    v != JNull && !IsBlank(Str(v))
  }

  /** Assigning a non-blank text keeps both invariants of the normalised
      fields. */
  lemma {:induction false} PutKeepsInvariants(acc: CustomFields, k: string, text: string)
    ensures NoBlankValues(acc) && !IsBlank(text) ==> NoBlankValues(Dicts.Put(acc, k, text))
    ensures Dicts.Unique(acc) ==> Dicts.Unique(Dicts.Put(acc, k, text))
  {
    Dicts.PutUnique(acc, k, text);
    var r := Dicts.Put(acc, k, text);
    if NoBlankValues(acc) && !IsBlank(text) {
      forall i | 0 <= i < |r|
        ensures !IsBlank(r[i].1)
      {
        assert r[i] in r;
      }
    }
  }

  /** A kept value is not blank once stripped. */
  lemma {:induction false} StrippedKept(v: J)
    requires Kept(v)
    ensures !IsBlank(Strip(Str(v)))
  {
    StripNotBlank(Str(v));
  }

  /** The pairs the mapping comprehension produces, in input order: each
      kept value printed with `str`. */
  function KeptPairs(fs: seq<(string, J)>): (r: CustomFields)
    ensures Dicts.Keys(r) <= Dicts.Keys(fs)
  {
    if fs == [] then []
    else
      Dicts.KeysCons(fs[0], fs[1..]);
      assert [fs[0]] + fs[1..] == fs;
      var rest := KeptPairs(fs[1..]);
      if Kept(fs[0].1) then
        Dicts.KeysCons((fs[0].0, Str(fs[0].1)), rest);
        [(fs[0].0, Str(fs[0].1))] + rest
      else rest
  }

  /** Mapping form: `{str(k): str(v) for k, v in raw.items() if …}`. It
      assigns the kept pairs in input order; for a dict (distinct keys)
      built into an empty result, that is exactly the kept pairs. */
  function FromMapping(fs: seq<(string, J)>, acc: CustomFields): (r: CustomFields)
    ensures NoBlankValues(acc) ==> NoBlankValues(r)
    ensures Dicts.Unique(acc) ==> Dicts.Unique(r)
    ensures r == Dicts.PutAll(acc, KeptPairs(fs))
    ensures Dicts.Unique(fs) && Dicts.Keys(acc) !! Dicts.Keys(fs) ==> r == acc + KeptPairs(fs)
    decreases |fs|
  {
    if fs == [] then
      assert acc + [] == acc;
      acc
    else
      var v := fs[0].1;
      var rest := KeptPairs(fs[1..]);
      if Kept(v) then
        var p := (fs[0].0, Str(v));
        PutKeepsInvariants(acc, p.0, p.1);
        var acc' := Dicts.Put(acc, p.0, p.1);
        assert ([p] + rest)[0] == p && ([p] + rest)[1..] == rest;
        var r := FromMapping(fs[1..], acc');
        MappingStep(fs, acc, r);
        r
      else
        var r := FromMapping(fs[1..], acc);
        MappingStep(fs, acc, r);
        r
  }

  /** The in-order step of the mapping form: with distinct keys, a kept
      pair is appended at the end. */
  lemma {:induction false} MappingStep(fs: seq<(string, J)>, acc: CustomFields, r: CustomFields)
    requires fs != []
    requires var acc' := if Kept(fs[0].1) then Dicts.Put(acc, fs[0].0, Str(fs[0].1)) else acc;
      Dicts.Unique(fs[1..]) && Dicts.Keys(acc') !! Dicts.Keys(fs[1..]) ==> r == acc' + KeptPairs(fs[1..])
    ensures Dicts.Unique(fs) && Dicts.Keys(acc) !! Dicts.Keys(fs) ==> r == acc + KeptPairs(fs)
  {
    if Dicts.Unique(fs) && Dicts.Keys(acc) !! Dicts.Keys(fs) {
      var k := fs[0].0;
      var tail := fs[1..];
      var rest := KeptPairs(tail);
      assert Dicts.Unique(tail) && k !in Dicts.Keys(tail) by {
        Dicts.UniqueHead(fs);
      }
      assert Dicts.Keys(fs) == {k} + Dicts.Keys(tail) by {
        Dicts.KeysCons(fs[0], tail);
        assert [fs[0]] + tail == fs;
      }
      if Kept(fs[0].1) {
        var p := (k, Str(fs[0].1));
        var acc' := Dicts.Put(acc, k, p.1);
        assert acc' == acc + [p] && Dicts.Keys(acc') == Dicts.Keys(acc) + {k};
        assert Dicts.Keys(acc') !! Dicts.Keys(tail);
        assert KeptPairs(fs) == [p] + rest;
        Dicts.AppendAssoc(acc, [p], rest);
      } else {
        assert KeptPairs(fs) == rest;
      }
    }
  }

  /** What one record contributes: it raises, is skipped (`None`), or stores
      its stripped value under its slug. */
  function RecordEntry(item: J): (r: Result<Option<(string, string)>>)
    ensures r.Ok? && r.value.Some? ==> r.value.value.0 != [] && !IsBlank(r.value.value.1)
  {
    if !item.JObj? then Ok(None)
    else
      var slug :- RecordSlug(item.fields);
      if slug == [] then Ok(None)
      else
        var v :- RecordValue(item.fields);
        if Kept(v) then
          StrippedKept(v);
          Ok(Some((slug, Strip(Str(v)))))
        else Ok(None)
  }

  /** One record of the list form. Records that are not dicts, or whose slug
      is empty, are skipped; a kept value is stored stripped. */
  function RecordStep(acc: CustomFields, item: J): (r: Result<CustomFields>)
    ensures r.Ok? && NoBlankValues(acc) ==> NoBlankValues(r.value)
    ensures r.Ok? && Dicts.Unique(acc) ==> Dicts.Unique(r.value)
    ensures r.Err? <==> RecordEntry(item).Err?
    ensures r.Ok? ==> r.value == Dicts.PutAll(acc, Stored(RecordEntry(item).value))
  {
    var e :- RecordEntry(item);
    match e
    case None => Ok(acc)
    case Some(p) =>
      PutKeepsInvariants(acc, p.0, p.1);
      assert [p][0] == p && [p][1..] == [];
      Ok(Dicts.Put(acc, p.0, p.1))
  }

  /** The pairs a record's entry stores. */
  function Stored(e: Option<(string, string)>): CustomFields {
    if e.Some? then [e.value] else []
  }

  /** The pairs the list form stores, record by record (a raising record
      stores nothing). */
  function StoredPairs(items: seq<J>): CustomFields {
    if items == [] then []
    else
      var e := RecordEntry(items[0]);
      (if e.Ok? then Stored(e.value) else []) + StoredPairs(items[1..])
  }

  /** List form: the records folded in order; the first failure raises.
      Otherwise the stored pairs are assigned in record order, so a later
      record overrides an earlier one in place. */
  function FromRecords(items: seq<J>, acc: CustomFields): (r: Result<CustomFields>)
    ensures r.Ok? && NoBlankValues(acc) ==> NoBlankValues(r.value)
    ensures r.Ok? && Dicts.Unique(acc) ==> Dicts.Unique(r.value)
    ensures r.Ok? <==> forall i :: 0 <= i < |items| ==> RecordEntry(items[i]).Ok?
    ensures r.Ok? ==> r.value == Dicts.PutAll(acc, StoredPairs(items))
    decreases |items|
  {
    if items == [] then Ok(acc)
    else
      var r := match RecordStep(acc, items[0])
        case Err(e) => Err(e)
        case Ok(acc') => FromRecords(items[1..], acc');
      RecordsStep(items, acc, r);
      r
  }

  /** The step of the list form: the first record's pairs, then the rest. */
  lemma {:induction false} RecordsStep(items: seq<J>, acc: CustomFields, r: Result<CustomFields>)
    requires items != []
    requires RecordStep(acc, items[0]).Err? ==> r.Err?
    requires RecordStep(acc, items[0]).Ok? ==> var acc' := RecordStep(acc, items[0]).value;
      && (r.Ok? <==> forall i :: 0 <= i < |items[1..]| ==> RecordEntry(items[1..][i]).Ok?)
      && (r.Ok? ==> r.value == Dicts.PutAll(acc', StoredPairs(items[1..])))
    ensures r.Ok? <==> forall i :: 0 <= i < |items| ==> RecordEntry(items[i]).Ok?
    ensures r.Ok? ==> r.value == Dicts.PutAll(acc, StoredPairs(items))
  {
    var e := RecordEntry(items[0]);
    if e.Ok? {
      var p := Stored(e.value);
      var rest := StoredPairs(items[1..]);
      assert StoredPairs(items) == p + rest;
      Dicts.PutAllAppend(acc, p, rest);
      assert forall i :: 0 < i < |items| ==> items[i] == items[1..][i - 1];
    }
  }

  /** The slugs of the list form come in the order they are first stored. */
  lemma {:induction false} FromRecordsOrder(items: seq<J>)
    requires FromRecords(items, []).Ok?
    ensures Dicts.KeySeq(FromRecords(items, []).value) == Seqs.DedupeBy(Dicts.KeySeq(StoredPairs(items)), Seqs.Id)
  {
    Dicts.KeysEmpty<string>();
    Dicts.PutAllOrder([], StoredPairs(items));
    assert Dicts.KeySeq<string>([]) == [];
  }

  /** `normalize_custom_fields(raw)`: a flat slug-to-text dict with no blank
      value. The mapping form never raises. */
  function NormalizeCustomFields(raw: J): (r: Result<CustomFields>)
    ensures r.Ok? ==> NoBlankValues(r.value) && Dicts.Unique(r.value)
    ensures raw.JObj? ==> r.Ok?
    ensures !raw.JObj? && !raw.JArr? ==> r == Ok([])
  {
    if !Truthy(raw) then Ok([])
    else match raw
      case JObj(fs) => Ok(FromMapping(fs, []))
      case JArr(items) => FromRecords(items, [])
      case _ => Ok([])
  }

  /** In mapping form a key survives exactly when its value is kept, and then
      maps to `str(value)`. */
  lemma {:induction false} FromMappingLookup(fs: seq<(string, J)>, acc: CustomFields, k: string)
    requires Dicts.Unique(fs)
    ensures Dicts.Get(FromMapping(fs, acc), k) ==
      if HasMember(fs, k) && Kept(Member(fs, k)) then Some(Str(Member(fs, k))) else Dicts.Get(acc, k)
    decreases |fs|
  {
    if fs != [] {
      Dicts.KeysCons(fs[0], fs[1..]);
      assert [fs[0]] + fs[1..] == fs;
      Dicts.UniqueHead(fs);
      var v := fs[0].1;
      var acc' := if Kept(v) then Dicts.Put(acc, fs[0].0, Str(v)) else acc;
      FromMappingLookup(fs[1..], acc', k);
      if k != fs[0].0 {
        assert Member(fs, k) == Member(fs[1..], k);
      }
    }
  }

  /** Folding one more record after a list equals folding the list and then
      that record. */
  lemma {:induction false} FromRecordsSnoc(items: seq<J>, x: J, acc: CustomFields)
    ensures FromRecords(items + [x], acc) ==
      match FromRecords(items, acc)
      case Err(e) => Err(e)
      case Ok(d) => RecordStep(d, x)
    decreases |items|
  {
    if items == [] {
      assert [x][1..] == [];
    } else {
      assert (items + [x])[1..] == items[1..] + [x];
      match RecordStep(acc, items[0])
      case Err(_) =>
      case Ok(acc') => FromRecordsSnoc(items[1..], x, acc');
    }
  }

  /** A record without a slug (or name) leaves the normalised fields as they
      were. */
  lemma {:induction false} RecordWithoutSlugSkipped(items: seq<J>, x: J)
    requires x.JObj? && RecordSlug(x.fields) == Ok([])
    ensures FromRecords(items + [x], []) == FromRecords(items, [])
  {
    FromRecordsSnoc(items, x, []);
  }

  /** A later record overrides an earlier one with the same slug: after it,
      the slug maps to that record's stripped value. */
  lemma {:induction false} LaterRecordWins(items: seq<J>, x: J, slug: string, v: J)
    requires x.JObj? && RecordSlug(x.fields) == Ok(slug) && slug != []
    requires RecordValue(x.fields) == Ok(v) && Kept(v)
    requires FromRecords(items, []).Ok?
    ensures FromRecords(items + [x], []).Ok?
    ensures Dicts.Get(FromRecords(items + [x], []).value, slug) == Some(Strip(Str(v)))
  {
    FromRecordsSnoc(items, x, []);
  }

  // ---------------------------------------------------------------------
  // _cf_value_from_root
  // ---------------------------------------------------------------------

  /** Position of the first custom field whose key `norm` maps to `want`. */
  function FirstKeyMatchAt(cf: CustomFields, want: string, norm: string -> string): (i: nat)
    ensures i <= |cf|
    ensures i < |cf| ==> norm(cf[i].0) == want
    ensures forall j :: 0 <= j < i ==> norm(cf[j].0) != want
  {
    if cf == [] then 0
    else if norm(cf[0].0) == want then 0
    else 1 + FirstKeyMatchAt(cf[1..], want, norm)
  }

  /** A first match found by other means is the one the search finds. */
  lemma {:induction false} FirstKeyMatchAtIs(cf: CustomFields, want: string, norm: string -> string, i: nat)
    requires i < |cf| && norm(cf[i].0) == want
    requires forall j :: 0 <= j < i ==> norm(cf[j].0) != want
    ensures FirstKeyMatchAt(cf, want, norm) == i
  {
    var f := FirstKeyMatchAt(cf, want, norm);
    assert f <= i;
  }

  /** The custom fields of a payload: `normalize_custom_fields(((obj or {}).get("data") or {}).get("custom_fields"))` */
  function PayloadCustomFields(obj: J): Result<CustomFields> {
    var data :- GetOr(obj, "data");
    var raw :- GetOr(data, "custom_fields");
    NormalizeCustomFields(raw)
  }

  /** The key `slug_like` asks for: `_norm_key(slug_like.replace("-", "_"))`. */
  function Wanted(slugLike: string): string {
    NormKey(ReplaceChar(slugLike, '-', '_'))
  }

  /** Entry `i` is the first whose key normalises to `want`. */
  predicate FirstMatchAt(cf: CustomFields, want: string, i: int) {
    0 <= i < |cf| && NormKey(cf[i].0) == want &&
    forall j :: 0 <= j < i ==> NormKey(cf[j].0) != want
  }

  /** `v` is the value of the first entry whose key normalises to `want`. */
  predicate FirstMatch(cf: CustomFields, want: string, v: string) {
    exists i | 0 <= i < |cf| :: FirstMatchAt(cf, want, i) && cf[i].1 == v
  }

  /** The value of the first custom field whose key normalises to the wanted
      key; None for an empty `slug_like` or when no key matches. */
  function LookupSlug(cf: CustomFields, slugLike: string): (r: Option<string>)
    ensures r.Some? ==> slugLike != [] && FirstMatch(cf, Wanted(slugLike), r.value)
    ensures r.None? ==> slugLike == [] || forall i :: 0 <= i < |cf| ==> NormKey(cf[i].0) != Wanted(slugLike)
  {
    if slugLike == [] then None
    else
      var want := Wanted(slugLike);
      var i := FirstKeyMatchAt(cf, want, NormKey);
      if i < |cf| then
        assert FirstMatchAt(cf, want, i);
        Some(cf[i].1)
      else None
  }

  /** `_cf_value_from_root(obj, slug_like)`: the custom fields are normalised
      first, so a malformed payload raises even for an empty `slug_like`. */
  function CfValueFromRoot(obj: J, slugLike: string): (r: Result<Option<string>>)
    ensures r.Err? <==> PayloadCustomFields(obj).Err?
    ensures forall v :: r == Ok(Some(v)) <==>
      PayloadCustomFields(obj).Ok? && slugLike != [] && FirstMatch(PayloadCustomFields(obj).value, Wanted(slugLike), v)
    ensures r == Ok(None) <==> (PayloadCustomFields(obj).Ok? &&
      (slugLike == [] || forall i :: 0 <= i < |PayloadCustomFields(obj).value| ==>
         NormKey(PayloadCustomFields(obj).value[i].0) != Wanted(slugLike)))
  {
    var cf :- PayloadCustomFields(obj);
    FirstMatchUnique(cf, slugLike);
    Ok(LookupSlug(cf, slugLike))
  }

  /** Only one value is the first match, and it is the one looked up. */
  lemma {:induction false} FirstMatchUnique(cf: CustomFields, slugLike: string)
    ensures forall v :: slugLike != [] && FirstMatch(cf, Wanted(slugLike), v) ==> LookupSlug(cf, slugLike) == Some(v)
  {
    forall v | slugLike != [] && FirstMatch(cf, Wanted(slugLike), v)
      ensures LookupSlug(cf, slugLike) == Some(v)
    {
      var want := Wanted(slugLike);
      var i :| 0 <= i < |cf| && FirstMatchAt(cf, want, i) && cf[i].1 == v;
      FirstKeyMatchAtIs(cf, want, NormKey, i);
    }
  }

  // ---------------------------------------------------------------------
  // _get_by_path
  // ---------------------------------------------------------------------

  /** `[item.get(key) for item in items if isinstance(item, dict) and key in item]` */
  function Hits(items: seq<J>, key: string): (r: seq<J>)
    ensures |r| <= |items|
  {
    if items == [] then []
    else
      var rest := Hits(items[1..], key);
      if items[0].JObj? && HasMember(items[0].fields, key) then [Member(items[0].fields, key)] + rest
      else rest
  }

  /** The generic traversal of `_get_by_path`: through dicts by key, through
      lists by index or by collecting a key from their dict elements. It never
      raises; every dead end reads as None. */
  function Walk(cur: J, parts: seq<string>): J
    decreases |parts|
  {
    if parts == [] then cur
    else
      match cur
      case JObj(fs) => Walk(Member(fs, parts[0]), parts[1..])
      case JArr(items) =>
        if IsDigits(parts[0]) then
          var i := DigitsValue(parts[0]);
          Walk(if i < |items| then items[i] else JNull, parts[1..])
        else
          var hits := Hits(items, parts[0]);
          if hits == [] then JNull
          else Walk(if |hits| == 1 then hits[0] else JArr(hits), parts[1..])
      case _ => JNull
  }

  /** The paths that bypass traversal and read a custom field. */
  predicate IsCustomFieldPath(parts: seq<string>) {
    |parts| >= 3 && parts[0] == "data" && parts[1] == "custom_fields"
  }

  /** `_get_by_path(obj, path)`; `JNull` stands for None. Only the
      custom-field shortcut can raise, and only while normalising the custom
      fields. */
  function GetByPath(obj: J, path: string): (r: Result<J>)
    ensures !IsCustomFieldPath(Split(path, '.')) ==> r.Ok?
  {
    if path == [] then Ok(JNull)
    else
      var parts := Split(path, '.');
      if IsCustomFieldPath(parts) then
        var v :- CfValueFromRoot(obj, Join(parts[2..], "."));
        Ok(if v.Some? then JStr(v.value) else JNull)
      else Ok(Walk(obj, parts))
  }

  /** Walking a concatenated path is walking the first part, then the rest
      from where it stopped. */
  lemma {:induction false} WalkCompose(cur: J, a: seq<string>, b: seq<string>)
    ensures Walk(cur, a + b) == Walk(Walk(cur, a), b)
    decreases |a|
  {
    if a == [] {
      assert a + b == b;
    } else {
      assert (a + b)[0] == a[0] && (a + b)[1..] == a[1..] + b;
      match cur
      case JObj(fs) => WalkCompose(Member(fs, a[0]), a[1..], b);
      case JArr(items) =>
        if IsDigits(a[0]) {
          var i := DigitsValue(a[0]);
          WalkCompose(if i < |items| then items[i] else JNull, a[1..], b);
        } else {
          var hits := Hits(items, a[0]);
          if hits == [] {
            WalkFromNull(b);
          } else {
            WalkCompose(if |hits| == 1 then hits[0] else JArr(hits), a[1..], b);
          }
        }
      case _ => WalkFromNull(b);
    }
  }

  /** Nothing can be reached from None. */
  lemma {:induction false} WalkFromNull(b: seq<string>)
    ensures Walk(JNull, b) == JNull
  {
  }

  /** The dead ends of the traversal all read as None: a missing key, a value
      that is neither dict nor list, an index past the end, and a key that no
      element of a list carries. */
  lemma {:induction false} WalkDeadEnds(cur: J, part: string, rest: seq<string>)
    ensures cur.JObj? && !HasMember(cur.fields, part) ==> Walk(cur, [part] + rest) == JNull
    ensures !cur.JObj? && !cur.JArr? ==> Walk(cur, [part] + rest) == JNull
    ensures cur.JArr? && IsDigits(part) && DigitsValue(part) >= |cur.items| ==> Walk(cur, [part] + rest) == JNull
    ensures cur.JArr? && !IsDigits(part) && Hits(cur.items, part) == [] ==> Walk(cur, [part] + rest) == JNull
  {
    assert ([part] + rest)[1..] == rest;
    WalkFromNull(rest);
  }

  /** A key segment over a list yields the lone hit, or the list of all hits
      when there are several. */
  lemma {:induction false} WalkListByKey(items: seq<J>, part: string)
    requires !IsDigits(part)
    ensures |Hits(items, part)| == 1 ==> Walk(JArr(items), [part]) == Hits(items, part)[0]
    ensures |Hits(items, part)| > 1 ==> Walk(JArr(items), [part]) == JArr(Hits(items, part))
  {
  }

  /** `data.custom_fields.<slug>` reads the custom field named like `slug`,
      even when `slug` itself contains dots. */
  lemma {:induction false} CustomFieldPathReadsField(obj: J, slug: string)
    ensures GetByPath(obj, "data.custom_fields." + slug) ==
      match CfValueFromRoot(obj, slug)
      case Err(e) => Err(e)
      case Ok(v) => Ok(if v.Some? then JStr(v.value) else JNull)
  {
    var parts := Split("data.custom_fields." + slug, '.');
    CustomFieldParts(slug);
    assert parts[2..] == Split(slug, '.');
    JoinSplit(slug, '.');
  }

  /** How a custom-field path splits into its pieces. */
  lemma {:induction false} CustomFieldParts(slug: string)
    ensures Split("data.custom_fields." + slug, '.') == ["data", "custom_fields"] + Split(slug, '.')
  {
    var path := "data.custom_fields." + slug;
    assert path == "data" + ['.'] + ("custom_fields" + ['.'] + slug);
    SplitAfterPiece("data", '.', "custom_fields" + ['.'] + slug);
    SplitAfterPiece("custom_fields", '.', slug);
  }
}

=== FILE: guard.dfy ===
/** The idempotency guard (`DDB.acquire_rem_guard`,
    lambda_function.py:585-622) and the once-only note key built on it
    (`post_incident_event_once`, lambda_function.py:884-891).

    The table is a map from guard key to row. A call first tries to create
    the row. If the row exists, it tries to refresh the row once its window
    has elapsed. Any other error the table service reports (a `ClientError`
    with another code) yields the configured fail-open answer and writes
    nothing. Which call gets such a reply is an input (`Fault`), because
    nothing in the code decides it. Errors raised by the client library
    itself before any reply are not caught by the guard and are not part of
    this model.

    The default window (`GUARD_TTL_SECONDS`, 5 unless configured) is a
    parameter, `guardTtl`, like the other settings read at start-up. */
module Guard {
  import opened Wrappers
  import opened Text

  /** A guard row: the time of the last grant and its expiry time. */
  datatype Row = Row(ts: int, expiry: int)

  type Store = map<string, Row>

  /** Where the table replies with an error other than a failed condition. */
  datatype Fault = NoFault | PutFault | UpdateFault

  datatype Acquisition = Acquisition(granted: bool, store: Store)

  /** `f"rem_guard#{incident_id}#{job_key or 'nokey'}"` */
  function GuardPk(incident: string, jobKey: string): string {
    "rem_guard#" + incident + "#" + (if jobKey == [] then "nokey" else jobKey)
  }

  /** The window: the given TTL, or the default guard TTL when none is given. */
  function Window(ttl: Option<int>, guardTtl: int): int {
    if ttl.Some? then ttl.value else guardTtl
  }

  /** `acquire_rem_guard(incident_id, job_key, ttl_seconds)` at time `now`. */
  function AcquireRemGuard(store: Store, incident: string, jobKey: string, ttl: Option<int>, guardTtl: int,
                           now: int, fault: Fault, failOpen: bool): (a: Acquisition)
    ensures var pk := GuardPk(incident, jobKey);
      forall k :: k != pk ==> (k in a.store <==> k in store) && (k in store ==> a.store[k] == store[k])
    ensures fault == PutFault ==> a == Acquisition(failOpen, store)
    ensures fault == NoFault ==> GuardPk(incident, jobKey) in a.store
    ensures a.granted && fault == NoFault ==>
      a.store == store[GuardPk(incident, jobKey) := Row(now, now + Window(ttl, guardTtl))]
    ensures a.store != store ==>
      a.granted && a.store == store[GuardPk(incident, jobKey) := Row(now, now + Window(ttl, guardTtl))]
  {
    var w := Window(ttl, guardTtl);
    var pk := GuardPk(incident, jobKey);
    var row := Row(now, now + w);
    if fault == PutFault then Acquisition(failOpen, store)
    else if pk !in store then Acquisition(true, store[pk := row])
    else if fault == UpdateFault then Acquisition(failOpen, store)
    else if store[pk].ts < now - w then Acquisition(true, store[pk := row])
    else Acquisition(false, store)
  }

  /** A key seen for the first time is granted and stamped with `now`. */
  lemma {:induction false} AbsentKeyGranted(store: Store, incident: string, jobKey: string, ttl: Option<int>, guardTtl: int, now: int, failOpen: bool)
    requires GuardPk(incident, jobKey) !in store
    ensures var a := AcquireRemGuard(store, incident, jobKey, ttl, guardTtl, now, NoFault, failOpen);
      a.granted && a.store[GuardPk(incident, jobKey)] == Row(now, now + Window(ttl, guardTtl))
  {
  }

  /** A key already present is granted exactly when its stamp is older than
      `now - ttl`; a refused call leaves the table as it was. */
  lemma {:induction false} PresentKeyGrantedIffElapsed(store: Store, incident: string, jobKey: string, ttl: Option<int>, guardTtl: int, now: int, failOpen: bool)
    requires GuardPk(incident, jobKey) in store
    ensures var a := AcquireRemGuard(store, incident, jobKey, ttl, guardTtl, now, NoFault, failOpen);
      && (a.granted <==> store[GuardPk(incident, jobKey)].ts < now - Window(ttl, guardTtl))
      && (!a.granted ==> a.store == store)
  {
  }

  /** Any table error other than a failed condition answers with the
      fail-open flag and writes nothing. */
  lemma {:induction false} FaultFailsOpen(store: Store, incident: string, jobKey: string, ttl: Option<int>, guardTtl: int, now: int, fault: Fault, failOpen: bool)
    requires fault != NoFault
    requires fault == UpdateFault ==> GuardPk(incident, jobKey) in store
    ensures AcquireRemGuard(store, incident, jobKey, ttl, guardTtl, now, fault, failOpen) == Acquisition(failOpen, store)
  {
  }

  /** Two calls at the same instant: the first is granted, the second is
      suppressed (for a non-negative window). */
  lemma {:induction false} SameInstantTwice(store: Store, incident: string, jobKey: string, ttl: Option<int>, guardTtl: int, now: int, failOpen: bool)
    requires Window(ttl, guardTtl) >= 0
    requires GuardPk(incident, jobKey) in store ==> store[GuardPk(incident, jobKey)].ts < now - Window(ttl, guardTtl)
    ensures var a := AcquireRemGuard(store, incident, jobKey, ttl, guardTtl, now, NoFault, failOpen);
      var b := AcquireRemGuard(a.store, incident, jobKey, ttl, guardTtl, now, NoFault, failOpen);
      a.granted && !b.granted && b.store == a.store
  {
  }

  /** A call exactly `ttl` seconds after the last grant is still suppressed. */
  lemma {:induction false} BoundaryStillSuppressed(store: Store, incident: string, jobKey: string, ttl: Option<int>, guardTtl: int, failOpen: bool)
    requires GuardPk(incident, jobKey) in store
    ensures var now := store[GuardPk(incident, jobKey)].ts + Window(ttl, guardTtl);
      !AcquireRemGuard(store, incident, jobKey, ttl, guardTtl, now, NoFault, failOpen).granted
  {
  }

  /** The grants of a run of fault-free calls for one key. */
  function Replay(store: Store, incident: string, jobKey: string, ttl: Option<int>, guardTtl: int, nows: seq<int>): (grants: seq<bool>)
    ensures |grants| == |nows|
    decreases |nows|
  {
    if nows == [] then []
    else
      var a := AcquireRemGuard(store, incident, jobKey, ttl, guardTtl, nows[0], NoFault, false);
      [a.granted] + Replay(a.store, incident, jobKey, ttl, guardTtl, nows[1..])
  }

  /** Every grant in a run comes more than `ttl` after the stamp the key had
      when the run began. */
  lemma {:induction false} GrantsAfterStamp(store: Store, incident: string, jobKey: string, ttl: Option<int>, guardTtl: int, nows: seq<int>)
    requires Window(ttl, guardTtl) >= 0
    requires GuardPk(incident, jobKey) in store
    ensures var grants := Replay(store, incident, jobKey, ttl, guardTtl, nows);
      forall j :: 0 <= j < |nows| && grants[j] ==> nows[j] > store[GuardPk(incident, jobKey)].ts + Window(ttl, guardTtl)
    decreases |nows|
  {
    if nows != [] {
      var pk := GuardPk(incident, jobKey);
      var a := AcquireRemGuard(store, incident, jobKey, ttl, guardTtl, nows[0], NoFault, false);
      GrantsAfterStamp(a.store, incident, jobKey, ttl, guardTtl, nows[1..]);
      var grants := Replay(store, incident, jobKey, ttl, guardTtl, nows);
      var rest := Replay(a.store, incident, jobKey, ttl, guardTtl, nows[1..]);
      assert a.store[pk].ts >= store[pk].ts;
      forall j | 0 < j < |nows| && grants[j]
        ensures nows[j] > store[pk].ts + Window(ttl, guardTtl)
      {
        assert grants[j] == rest[j - 1] && nows[j] == nows[1..][j - 1];
      }
    }
  }

  /** The guard is a lease: in any run of fault-free calls for one key, two
      grants are always more than `ttl` seconds apart, whatever order the
      clock readings come in. */
  lemma {:induction false} GrantsSpaced(store: Store, incident: string, jobKey: string, ttl: Option<int>, guardTtl: int, nows: seq<int>)
    requires Window(ttl, guardTtl) >= 0
    ensures var grants := Replay(store, incident, jobKey, ttl, guardTtl, nows);
      forall i, j :: 0 <= i < j < |nows| && grants[i] && grants[j] ==> nows[j] - nows[i] > Window(ttl, guardTtl)
    decreases |nows|
  {
    if nows != [] {
      var pk := GuardPk(incident, jobKey);
      var a := AcquireRemGuard(store, incident, jobKey, ttl, guardTtl, nows[0], NoFault, false);
      var grants := Replay(store, incident, jobKey, ttl, guardTtl, nows);
      var rest := Replay(a.store, incident, jobKey, ttl, guardTtl, nows[1..]);
      GrantsSpaced(a.store, incident, jobKey, ttl, guardTtl, nows[1..]);
      GrantsAfterStamp(a.store, incident, jobKey, ttl, guardTtl, nows[1..]);
      forall i, j | 0 <= i < j < |nows| && grants[i] && grants[j]
        ensures nows[j] - nows[i] > Window(ttl, guardTtl)
      {
        assert grants[j] == rest[j - 1] && nows[j] == nows[1..][j - 1];
        if i > 0 {
          assert grants[i] == rest[i - 1] && nows[i] == nows[1..][i - 1];
        } else {
          assert a.store[pk].ts == nows[0];
        }
      }
    }
  }

  /** The guard key of a once-only note: `f"note:{guard_key}"`. */
  function NoteKey(guardKey: string): string {
    "note:" + guardKey
  }

  /** `post_incident_event_once`: the note is posted exactly when the guard
      on its note key is granted. */
  function PostOnce(store: Store, incident: string, guardKey: string, ttl: Option<int>, guardTtl: int,
                    now: int, fault: Fault, failOpen: bool): (a: Acquisition)
    ensures var pk := GuardPk(incident, NoteKey(guardKey));
      forall k :: k != pk ==> (k in a.store <==> k in store) && (k in store ==> a.store[k] == store[k])
  {
    AcquireRemGuard(store, incident, NoteKey(guardKey), ttl, guardTtl, now, fault, failOpen)
  }

  /** For incident ids without `#`, guard keys of different incidents or of
      different job keys never collide (an empty job key stands for `nokey`). */
  lemma {:induction false} GuardPkInjective(i1: string, k1: string, i2: string, k2: string)
    requires '#' !in i1 && '#' !in i2
    requires GuardPk(i1, k1) == GuardPk(i2, k2)
    ensures i1 == i2
    ensures (if k1 == [] then "nokey" else k1) == (if k2 == [] then "nokey" else k2)
  {
    var t1 := if k1 == [] then "nokey" else k1;
    var t2 := if k2 == [] then "nokey" else k2;
    assert GuardPk(i1, k1)[10..] == i1 + ['#'] + t1;
    assert GuardPk(i2, k2)[10..] == i2 + ['#'] + t2;
    SeparatorUnique(i1, t1, i2, t2, '#');
  }

  /** A note's guard never shares a row with a job or mirror guard of the
      same incident, so posting a note cannot suppress a job run. */
  lemma {:induction false} NoteKeysSeparate(incident: string, guardKey: string, jobKey: string)
    requires '#' !in incident
    requires jobKey != [] && (|jobKey| < 5 || jobKey[..5] != "note:")
    ensures GuardPk(incident, NoteKey(guardKey)) != GuardPk(incident, jobKey)
  {
    if GuardPk(incident, NoteKey(guardKey)) == GuardPk(incident, jobKey) {
      GuardPkInjective(incident, NoteKey(guardKey), incident, jobKey);
    }
  }
}

=== FILE: json.dfy ===
/** The incident payload as a JSON-like tree, with Python's truthiness,
    `dict.get`, `(v or {}).get(k)` and `str(v)`.

    A `JObj` is a parsed JSON object: its keys are distinct, and lookups read
    the first pair with the key. `JNull` is Python's `None`; `dict.get` on a
    missing key also yields `JNull`, exactly as Python conflates the two. */
module Json {
  import opened Wrappers
  import opened Text
  import Dicts

  datatype J =
    | JNull
    | JBool(b: bool)
    | JNum(n: int)
    | JStr(s: string)
    | JArr(items: seq<J>)
    | JObj(fields: seq<(string, J)>)

  /** Python's `bool(v)` */
  predicate Truthy(v: J) {
    match v
    case JNull => false
    case JBool(b) => b
    case JNum(n) => n != 0
    case JStr(s) => s != []
    case JArr(items) => items != []
    case JObj(fields) => fields != []
  }

  /** `obj.get(key)` on a dict */
  function Member(fields: seq<(string, J)>, key: string): J {
    match Dicts.Get(fields, key)
    case Some(v) => v
    case None => JNull
  }

  /** `key in obj` on a dict */
  predicate HasMember(fields: seq<(string, J)>, key: string) {
    key in Dicts.Keys(fields)
  }

  /** `(v or {}).get(key)`: a falsy value reads as the empty dict, a truthy
      value that is not a dict has no `get` and raises. */
  function GetOr(v: J, key: string): (r: Result<J>)
    ensures r.Err? <==> Truthy(v) && !v.JObj?
    ensures v.JObj? ==> r == Ok(Member(v.fields, key))
    ensures !Truthy(v) ==> r == Ok(JNull)
  {
    if !Truthy(v) then Ok(JNull)
    else if v.JObj? then Ok(Member(v.fields, key))
    else Err("AttributeError: '" + key + "' looked up on a non-dict value")
  }

  /** `v.get(key)` on a value that must be a dict: anything else has no
      `get` and raises. */
  function DictGet(v: J, key: string): (r: Result<J>)
    ensures r.Err? <==> !v.JObj?
    ensures v.JObj? ==> r == Ok(Member(v.fields, key))
  {
    if v.JObj? then Ok(Member(v.fields, key))
    else Err("AttributeError: '" + key + "' looked up on a non-dict value")
  }

  /** Python's `repr(v)`; string escapes inside containers are not modelled. */
  function Repr(v: J): (r: string)
    ensures r != [] && !IsSpace(r[0])
  {
    match v
    case JNull => "None"
    case JBool(b) => if b then "True" else "False"
    case JNum(n) => IntToString(n)
    case JStr(s) => "'" + s + "'"
    case JArr(items) =>
      "[" + Join(seq(|items|, i requires 0 <= i < |items| => Repr(items[i])), ", ") + "]"
    case JObj(fields) =>
      "{" + Join(seq(|fields|, i requires 0 <= i < |fields| => "'" + fields[i].0 + "': " + Repr(fields[i].1)), ", ") + "}"
  }

  /** Python's `str(v)`: a string is itself, anything else is its repr.
      Only a string can print as blank text. */
  function Str(v: J): (r: string)
    ensures v.JStr? ==> r == v.s
    ensures !v.JStr? ==> !IsBlank(r)
  {
    if v.JStr? then v.s else Repr(v)
  }

  /** Every truthy value prints as non-empty text. */
  lemma {:induction false} TruthyStrNonEmpty(v: J)
    requires Truthy(v)
    ensures Str(v) != []
  {
  }
}

=== FILE: keys.dfy ===
/** The two key rewrites of the bridge.

    `NormKey` (`_norm_key`, lambda_function.py:645-646) turns a free-form
    label such as a watch id, a job selection or a custom-field slug into a
    lookup key: lower-case letters, digits and single inner underscores.

    `Sanitize` (`_sanitize`, lambda_function.py:641-642) turns an option
    name into one the job runner accepts. */
module Keys {
  import opened Text

  predicate IsKeyChar(c: char) {
    IsLowerLetter(c) || IsDigit(c)
  }

  predicate NotKeyChar(c: char) {
    !IsKeyChar(c)
  }

  predicate IsUnderscore(c: char) {
    c == '_'
  }

  /** `k` has `_` at positions `i` and `i + 1`. */
  predicate DoubledAt(k: string, i: nat)
    requires i + 1 < |k|
  {
    k[i] == '_' && k[i + 1] == '_'
  }

  /** Only `[a-z0-9_]`, no doubled `_`. */
  predicate KeyBody(k: string) {
    && (forall i :: 0 <= i < |k| ==> IsKeyChar(k[i]) || k[i] == '_')
    && (forall i :: 0 <= i < |k| - 1 ==> !DoubledAt(k, i))
  }

  /** What `NormKey` produces: a key body with no `_` at either end. */
  predicate Canonical(k: string) {
    KeyBody(k) && (k == [] || (k[0] != '_' && k[|k| - 1] != '_'))
  }

  /** `re.sub(r'[^a-z0-9]+', '_', s)`: each maximal run of characters outside
      `[a-z0-9]` becomes a single `_`. */
  function Squash(s: string): string
    decreases |s|
  {
    if s == [] then []
    else if IsKeyChar(s[0]) then [s[0]] + Squash(s[1..])
    else "_" + Squash(TrimLeftBy(s[1..], NotKeyChar))
  }

  /** Squashing leaves only key characters and single `_`, and starts with
      `_` only where the label starts with a non-key character. */
  lemma {:induction false} SquashKeyBody(s: string)
    ensures KeyBody(Squash(s))
    ensures Squash(s) != [] && Squash(s)[0] == '_' ==> s != [] && !IsKeyChar(s[0])
    decreases |s|
  {
    if s != [] {
      if IsKeyChar(s[0]) {
        SquashKeyBody(s[1..]);
        KeyBodyCons(s[0], Squash(s[1..]));
      } else {
        var t := TrimLeftBy(s[1..], NotKeyChar);
        SquashKeyBody(t);
        KeyBodyCons('_', Squash(t));
      }
    }
  }

  /** A key character, or a `_` not followed by another, in front of a key
      body is a key body. */
  lemma {:induction false} KeyBodyCons(c: char, rest: string)
    requires KeyBody(rest) && (IsKeyChar(c) || c == '_')
    requires c == '_' ==> rest == [] || rest[0] != '_'
    ensures KeyBody([c] + rest)
  {
    var t := [c] + rest;
    forall i | 0 <= i < |t| - 1
      ensures !DoubledAt(t, i)
    {
      if i > 0 {
        assert !DoubledAt(rest, i - 1);
        assert t[i] == rest[i - 1] && t[i + 1] == rest[i];
      }
    }
  }

  /** A slice of a key body is a key body. */
  lemma {:induction false} KeyBodySlice(k: string, a: nat, b: nat)
    requires KeyBody(k) && a <= b <= |k|
    ensures KeyBody(k[a..b])
  {
    var t := k[a..b];
    forall i | 0 <= i < |t| - 1
      ensures !DoubledAt(t, i)
    {
      assert !DoubledAt(k, a + i);
      assert t[i] == k[a + i] && t[i + 1] == k[a + i + 1];
    }
  }

  /** Stripping `_` from both ends of a key body leaves a canonical key. */
  lemma {:induction false} TrimUnderscores(k: string)
    ensures KeyBody(k) ==> Canonical(TrimBy(k, IsUnderscore))
  {
    if KeyBody(k) {
      var a, r := TrimBySlice(k, IsUnderscore);
      TrimByEnds(k, IsUnderscore);
      CanonicalSlice(k, r, a);
    }
  }

  /** A slice of a key body that neither starts nor ends with `_` is canonical. */
  lemma {:induction false} CanonicalSlice(k: string, r: string, a: nat)
    requires KeyBody(k) && a + |r| <= |k| && r == k[a..a + |r|]
    requires r == [] || (!IsUnderscore(r[0]) && !IsUnderscore(r[|r| - 1]))
    ensures Canonical(r)
  {
    KeyBodySlice(k, a, a + |r|);
  }

  /** `_norm_key(s)`: `re.sub(r'[^a-z0-9]+', '_', s.strip().lower()).strip('_')`.
      The key keeps exactly the letters and digits of the lower-cased
      label, in order, and a canonical key is its own key. */
  function NormKey(s: string): (r: string)
    ensures Canonical(r)
    ensures KeyChars(r) == KeyChars(Lower(s))
    ensures Canonical(s) ==> r == s
  {
    var sq := Squash(Lower(Strip(s)));
    SquashKeyBody(Lower(Strip(s)));
    TrimUnderscores(sq);
    NormKeyChars(s);
    CanonicalFixed(s);
    TrimBy(sq, IsUnderscore)
  }

  /** The letters and digits of `s`, in order. */
  function KeyChars(s: string): (r: string)
    ensures forall i :: 0 <= i < |r| ==> IsKeyChar(r[i])
  {
    if s == [] then [] else (if IsKeyChar(s[0]) then [s[0]] else []) + KeyChars(s[1..])
  }

  lemma {:induction false} KeyCharsAppend(a: string, b: string)
    ensures KeyChars(a + b) == KeyChars(a) + KeyChars(b)
    decreases |a|
  {
    if a == [] {
      assert a + b == b;
    } else {
      assert (a + b)[0] == a[0] && (a + b)[1..] == a[1..] + b;
      KeyCharsAppend(a[1..], b);
    }
  }

  lemma {:induction false} KeyCharsNone(s: string)
    requires Only(s, NotKeyChar)
    ensures KeyChars(s) == []
    decreases |s|
  {
    if s != [] {
      assert Only(s[1..], NotKeyChar) by {
        forall i | 0 <= i < |s[1..]| ensures NotKeyChar(s[1..][i]) {
          assert s[1..][i] == s[i + 1];
        }
      }
      KeyCharsNone(s[1..]);
    }
  }

  /** Trimming characters that are neither letters nor digits keeps the
      key characters. */
  lemma {:induction false} KeyCharsTrimmed(t: string, r: string, drop: char -> bool)
    requires TrimmedFrom(t, r, drop)
    requires forall c :: drop(c) ==> NotKeyChar(c)
    ensures KeyChars(r) == KeyChars(t)
  {
    var a: nat :| a + |r| <= |t| && r == t[a..a + |r|] && Only(t[..a], drop) && Only(t[a + |r|..], drop);
    var pre, post := t[..a], t[a + |r|..];
    assert t == pre + r + post by {
      SplitAround(t, a, r);
    }
    OnlyNotKeyChar(pre, drop);
    OnlyNotKeyChar(post, drop);
    KeyCharsNone(pre);
    KeyCharsNone(post);
    KeyCharsAppend(pre + r, post);
    KeyCharsAppend(pre, r);
  }

  /** Characters that are dropped are not key characters. */
  lemma {:induction false} OnlyNotKeyChar(x: string, drop: char -> bool)
    requires Only(x, drop)
    requires forall c :: drop(c) ==> NotKeyChar(c)
    ensures Only(x, NotKeyChar)
  {
    forall i | 0 <= i < |x|
      ensures NotKeyChar(x[i])
    {
      assert drop(x[i]);
    }
  }

  /** `Squash` keeps the key characters, since `_` is not one. */
  lemma {:induction false} SquashKeyChars(s: string)
    ensures KeyChars(Squash(s)) == KeyChars(s)
    decreases |s|
  {
    if s != [] {
      if IsKeyChar(s[0]) {
        SquashKeyChars(s[1..]);
        var t := [s[0]] + Squash(s[1..]);
        assert t[0] == s[0] && t[1..] == Squash(s[1..]);
      } else {
        var rest := TrimLeftBy(s[1..], NotKeyChar);
        SquashKeyChars(rest);
        var t := "_" + Squash(rest);
        assert t[0] == '_' && t[1..] == Squash(rest);
        var pre := s[1..][..|s[1..]| - |rest|];
        assert s[1..] == pre + rest;
        assert Only(pre, NotKeyChar);
        KeyCharsNone(pre);
        KeyCharsAppend(pre, rest);
      }
    }
  }

  /** Lower-casing commutes with slicing. */
  lemma {:induction false} LowerSlice(t: string, a: nat, b: nat)
    requires a <= b <= |t|
    ensures Lower(t[a..b]) == Lower(t)[a..b]
  {
    var x, y := Lower(t[a..b]), Lower(t)[a..b];
    forall i | 0 <= i < |x| ensures x[i] == y[i] {
      assert t[a..b][i] == t[a + i];
    }
  }

  /** White space is left as it is by lower-casing. */
  lemma {:induction false} LowerKeepsSpace(x: string)
    requires Only(x, IsSpace)
    ensures Only(Lower(x), IsSpace)
  {
    var y := Lower(x);
    forall i | 0 <= i < |y| ensures IsSpace(y[i]) {
      assert y[i] == LowerChar(x[i]);
    }
  }

  /** Lower-casing commutes with stripping white space. */
  lemma {:induction false} LowerTrimmed(t: string, r: string, a: nat)
    requires a + |r| <= |t| && r == t[a..a + |r|]
    requires Only(t[..a], IsSpace) && Only(t[a + |r|..], IsSpace)
    ensures TrimmedFrom(Lower(t), Lower(r), IsSpace)
  {
    var lt := Lower(t);
    var b := a + |r|;
    assert Lower(r) == lt[a..b] by {
      LowerSlice(t, a, b);
    }
    assert Only(lt[..a], IsSpace) by {
      LowerSlice(t, 0, a);
      assert t[0..a] == t[..a] && lt[0..a] == lt[..a];
      LowerKeepsSpace(t[..a]);
    }
    assert Only(lt[b..], IsSpace) by {
      LowerSlice(t, b, |t|);
      assert t[b..|t|] == t[b..] && lt[b..|t|] == lt[b..];
      LowerKeepsSpace(t[b..]);
    }
    TrimmedAt(lt, Lower(r), IsSpace, a);
  }

  /** Stripping `_` keeps the key characters. */
  lemma {:induction false} TrimUnderscoresKeyChars(x: string)
    ensures KeyChars(TrimBy(x, IsUnderscore)) == KeyChars(x)
  {
    TrimByTrimmed(x, IsUnderscore);
    KeyCharsTrimmed(x, TrimBy(x, IsUnderscore), IsUnderscore);
  }

  /** Stripping white space before lower-casing keeps the key characters. */
  lemma {:induction false} StripLowerKeyChars(s: string)
    ensures KeyChars(Lower(Strip(s))) == KeyChars(Lower(s))
  {
    StripLowerTrimmed(s);
    KeyCharsTrimmed(Lower(s), Lower(Strip(s)), IsSpace);
  }

  lemma {:induction false} StripLowerTrimmed(s: string)
    ensures TrimmedFrom(Lower(s), Lower(Strip(s)), IsSpace)
  {
    var a, r := TrimByCut(s, IsSpace);
    LowerTrimmed(s, r, a);
  }

  /** The steps of `_norm_key` keep the key characters of the lower-cased
      label. */
  lemma {:induction false} NormKeyChars(s: string)
    ensures KeyChars(TrimBy(Squash(Lower(Strip(s))), IsUnderscore)) == KeyChars(Lower(s))
  {
    TrimUnderscoresKeyChars(Squash(Lower(Strip(s))));
    SquashKeyChars(Lower(Strip(s)));
    StripLowerKeyChars(s);
  }

  /** The steps of `_norm_key` leave a canonical key as it is. */
  lemma {:induction false} CanonicalFixed(k: string)
    ensures Canonical(k) ==> TrimBy(Squash(Lower(Strip(k))), IsUnderscore) == k
  {
    if Canonical(k) {
      CanonicalPlain(k);
      SquashFixed(k);
      TrimByNoop(k, IsUnderscore);
    }
  }

  /** A canonical key is a fixed point of `Squash`. */
  lemma {:induction false} SquashFixed(k: string)
    requires KeyBody(k)
    ensures Squash(k) == k
    decreases |k|
  {
    if k != [] {
      KeyBodyTail(k);
      SquashFixed(k[1..]);
      assert [k[0]] + k[1..] == k;
      if !IsKeyChar(k[0]) {
        assert TrimLeftBy(k[1..], NotKeyChar) == k[1..];
      }
    }
  }

  /** The tail of a key body is a key body, and a leading `_` is followed
      by a key character when anything follows it. */
  lemma {:induction false} KeyBodyTail(k: string)
    requires KeyBody(k) && k != []
    ensures KeyBody(k[1..])
    ensures IsKeyChar(k[0]) || k[0] == '_'
    ensures k[0] == '_' && |k| > 1 ==> IsKeyChar(k[1..][0])
  {
    KeyBodySlice(k, 1, |k|);
    assert k[1..|k|] == k[1..];
    if |k| > 1 {
      assert !DoubledAt(k, 0);
    }
  }

  /** A canonical key has no white space and no upper-case letter. */
  lemma {:induction false} CanonicalPlain(k: string)
    requires Canonical(k)
    ensures Strip(k) == k && Lower(k) == k
  {
    assert k == [] || (!IsSpace(k[0]) && !IsSpace(k[|k| - 1]));
    TrimByNoop(k, IsSpace);
    LowerNoop(k);
  }

  /** `_norm_key` is idempotent: normalising a normalised key changes nothing. */
  lemma {:induction false} NormKeyIdempotent(s: string)
    ensures NormKey(NormKey(s)) == NormKey(s)
  {
    var k := NormKey(s);
    CanonicalFixed(k);
  }

  /** Squashing works piece by piece when the pieces do not meet inside a
      run of non-key characters. */
  lemma {:induction false} SquashAppend(u: string, v: string)
    requires Meets(u, v)
    ensures Squash(u + v) == Squash(u) + Squash(v)
    decreases |u|
  {
    if u == [] || v == [] {
      SquashAppendEmpty(u, v);
    } else if IsKeyChar(u[0]) {
      MeetsTail(u, u[1..], v);
      SquashAppend(u[1..], v);
      SquashConsKey(u, v);
    } else {
      var u' := TrimLeftBy(u[1..], NotKeyChar);
      if u' != [] {
        TrimLeftAppend(u[1..], v, NotKeyChar);
        assert u' == u[|u| - |u'|..];
        MeetsTail(u, u', v);
        SquashAppend(u', v);
      } else {
        RunThenKey(u, v);
        SquashAppendEmpty(u', v);
        assert u' + v == v;
      }
      SquashConsRun(u, v);
    }
  }

  /** Two pieces that do not meet inside a run of non-key characters. */
  predicate Meets(u: string, v: string) {
    u == [] || v == [] || IsKeyChar(u[|u| - 1]) || IsKeyChar(v[0])
  }

  lemma {:induction false} MeetsTail(u: string, t: string, v: string)
    requires Meets(u, v) && u != [] && |t| < |u| && t == u[|u| - |t|..]
    ensures Meets(t, v)
  {
    if t != [] {
      assert t[|t| - 1] == u[|u| - 1];
    }
  }

  lemma {:induction false} SquashAppendEmpty(u: string, v: string)
    requires u == [] || v == []
    ensures Squash(u + v) == Squash(u) + Squash(v)
  {
    if u == [] {
      assert u + v == v;
    } else {
      assert u + v == u;
    }
  }

  lemma {:induction false} SquashConsKey(u: string, v: string)
    requires u != [] && IsKeyChar(u[0])
    requires Squash(u[1..] + v) == Squash(u[1..]) + Squash(v)
    ensures Squash(u + v) == Squash(u) + Squash(v)
  {
    SquashKeyStep(u, v);
    SquashKeyStep(u, []);
    assert u + [] == u && u[1..] + [] == u[1..];
    Assoc([u[0]], Squash(u[1..]), Squash(v));
  }

  lemma {:induction false} SquashConsRun(u: string, v: string)
    requires u != [] && !IsKeyChar(u[0])
    requires var u' := TrimLeftBy(u[1..], NotKeyChar);
      TrimLeftBy(u[1..] + v, NotKeyChar) == u' + v && Squash(u' + v) == Squash(u') + Squash(v)
    ensures Squash(u + v) == Squash(u) + Squash(v)
  {
    SquashRunStep(u, v);
    SquashRunStep(u, []);
    assert u + [] == u && u[1..] + [] == u[1..];
    Assoc("_", Squash(TrimLeftBy(u[1..], NotKeyChar)), Squash(v));
  }

  /** One step of `Squash` on a label that starts with a key character. */
  lemma {:induction false} SquashKeyStep(u: string, v: string)
    requires u != [] && IsKeyChar(u[0])
    ensures Squash(u + v) == [u[0]] + Squash(u[1..] + v)
  {
    assert (u + v)[0] == u[0] && (u + v)[1..] == u[1..] + v;
  }

  /** One step of `Squash` on a label that starts with a non-key character. */
  lemma {:induction false} SquashRunStep(u: string, v: string)
    requires u != [] && !IsKeyChar(u[0])
    ensures Squash(u + v) == "_" + Squash(TrimLeftBy(u[1..] + v, NotKeyChar))
  {
    assert (u + v)[0] == u[0] && (u + v)[1..] == u[1..] + v;
  }

  lemma {:induction false} Assoc(a: string, b: string, c: string)
    ensures a + (b + c) == (a + b) + c
  {
  }

  /** A label of non-key characters only, before one that starts with a key
      character: the left trim stops at the second piece. */
  lemma {:induction false} RunThenKey(u: string, v: string)
    requires u != [] && v != [] && !IsKeyChar(u[0]) && TrimLeftBy(u[1..], NotKeyChar) == []
    requires Meets(u, v)
    ensures TrimLeftBy(u[1..] + v, NotKeyChar) == v
  {
    var t := u[1..];
    assert Only(t, NotKeyChar);
    assert IsKeyChar(v[0]) by {
      assert |u| == 1 || u[|u| - 1] == t[|t| - 1];
    }
    TrimLeftDropPrefix(t, v, NotKeyChar);
  }

  /** A run of non-key characters squashes to one `_`. */
  lemma {:induction false} SquashRun(m: string)
    requires m != [] && Only(m, NotKeyChar)
    ensures Squash(m) == "_"
  {
    assert Only(m[1..], NotKeyChar) by {
      forall i | 0 <= i < |m[1..]| ensures NotKeyChar(m[1..][i]) {
        assert m[1..][i] == m[i + 1];
      }
    }
    TrimLeftByPrefix(m[1..], [], NotKeyChar);
    assert m[1..] + [] == m[1..];
  }

  /** A key character at the end of the label ends the squashed label. */
  lemma {:induction false} SquashLast(w: string)
    requires w != [] && IsKeyChar(w[|w| - 1])
    ensures Squash(w) != [] && IsKeyChar(Squash(w)[|Squash(w)| - 1])
  {
    var c := w[|w| - 1];
    assert w == w[..|w| - 1] + [c];
    SquashAppend(w[..|w| - 1], [c]);
    assert [c][1..] == [];
  }

  /** Dropping `_` from the front of the squashed label is squashing the
      label without its leading non-key characters. */
  lemma {:induction false} SquashTrimLeft(x: string)
    ensures TrimLeftBy(Squash(x), IsUnderscore) == Squash(TrimLeftBy(x, NotKeyChar))
  {
    var h, w := LeftCut(x);
    if h == [] {
      assert x == w;
    } else {
      RunBeforeKey(h, w);
    }
    KeyFirstKept(w);
  }

  /** A label cut into its leading non-key characters and the rest. */
  lemma {:induction false} LeftCut(x: string) returns (h: string, w: string)
    ensures w == TrimLeftBy(x, NotKeyChar) && x == h + w && Only(h, NotKeyChar)
    ensures w == [] || IsKeyChar(w[0])
  {
    w := TrimLeftBy(x, NotKeyChar);
    h := x[..|x| - |w|];
    OnlyPrefix(x, |x| - |w|, NotKeyChar);
    assert x == h + x[|x| - |w|..];
    assert w != [] ==> !NotKeyChar(w[0]);
  }

  /** The squashed form of a label that starts with a key character does
      not start with `_`. */
  lemma {:induction false} KeyFirstKept(w: string)
    requires w == [] || IsKeyChar(w[0])
    ensures TrimLeftBy(Squash(w), IsUnderscore) == Squash(w)
  {
    if w != [] {
      SquashKeyStep(w, []);
      assert w + [] == w && w[1..] + [] == w[1..];
      TrimLeftByPrefix([], Squash(w), IsUnderscore);
      assert [] + Squash(w) == Squash(w);
    }
  }

  /** Leading non-key characters become one `_`, which the strip drops. */
  lemma {:induction false} RunBeforeKey(h: string, w: string)
    requires h != [] && Only(h, NotKeyChar) && (w == [] || IsKeyChar(w[0]))
    ensures TrimLeftBy(Squash(h + w), IsUnderscore) == TrimLeftBy(Squash(w), IsUnderscore)
  {
    SquashAppend(h, w);
    SquashRun(h);
    assert Only("_", IsUnderscore);
    TrimLeftDropPrefix("_", Squash(w), IsUnderscore);
  }

  /** Dropping `_` from the end of the squashed label is squashing the
      label without its trailing non-key characters. */
  lemma {:induction false} SquashTrimRight(x: string)
    ensures TrimRightBy(Squash(x), IsUnderscore) == Squash(TrimRightBy(x, NotKeyChar))
  {
    var w := TrimRightBy(x, NotKeyChar);
    var q := x[|w|..];
    assert x == w + q;
    assert Only(q, NotKeyChar) by {
      forall i | 0 <= i < |q| ensures NotKeyChar(q[i]) {
        assert q[i] == x[|w| + i];
      }
    }
    if w != [] {
      SquashLast(w);
    }
    if q != [] {
      SquashAppend(w, q);
      SquashRun(q);
      assert Only("_", IsUnderscore);
      TrimRightDropSuffix(Squash(w), "_", IsUnderscore);
    }
  }

  /** The steps after lower-casing, rearranged: squash-then-strip-`_` is
      strip-non-key-characters-then-squash. */
  lemma {:induction false} SquashTrimmed(x: string)
    ensures TrimBy(Squash(x), IsUnderscore) == Squash(TrimBy(x, NotKeyChar))
  {
    SquashTrimLeft(x);
    SquashTrimRight(TrimLeftBy(x, NotKeyChar));
  }

  /** White space is neither a letter nor a digit. */
  lemma {:induction false} SpaceNotKeyChar()
    ensures forall c :: IsSpace(c) ==> NotKeyChar(c)
  {
  }

  /** `_norm_key` in one line: the lower-cased label, with everything but
      letters and digits cut from both ends, and each inner run of other
      characters turned into one `_`. */
  lemma {:induction false} NormKeySquash(s: string)
    ensures NormKey(s) == Squash(TrimBy(Lower(s), NotKeyChar))
  {
    SquashTrimmed(Lower(Strip(s)));
    StripThenTrim(s);
  }

  /** Cutting non-key characters from the ends subsumes stripping white
      space first. */
  lemma {:induction false} StripThenTrim(s: string)
    ensures TrimBy(Lower(Strip(s)), NotKeyChar) == TrimBy(Lower(s), NotKeyChar)
  {
    StripLowerTrimmed(s);
    SpaceNotKeyChar();
    TrimByWithin(Lower(s), Lower(Strip(s)), IsSpace, NotKeyChar);
  }

  /** Lower-casing the label first does not change its key. */
  lemma {:induction false} NormKeyLower(s: string)
    ensures NormKey(Lower(s)) == NormKey(s)
  {
    NormKeySquash(s);
    NormKeySquash(Lower(s));
    LowerIdempotent(s);
  }

  /** A separator: at least one character, and none of them a letter or a
      digit. */
  predicate IsSeparator(sep: string) {
    sep != [] && forall i :: 0 <= i < |sep| ==> !IsUpperLetter(sep[i]) && NotKeyChar(sep[i])
  }

  /** Two labels with a key each, joined by any separator, give the two keys
      joined by exactly one `_`. */
  lemma {:induction false} NormKeyJoin(a: string, sep: string, b: string)
    requires IsSeparator(sep)
    requires NormKey(a) != [] && NormKey(b) != []
    ensures NormKey(a + sep + b) == NormKey(a) + "_" + NormKey(b)
  {
    NormKeySquash(a);
    NormKeySquash(b);
    NormKeySquash(a + sep + b);
    SquashJoin(a, sep, b);
  }

  /** `NormKeyJoin` on the rearranged steps of `NormKey`. */
  lemma {:induction false} SquashJoin(a: string, sep: string, b: string)
    requires IsSeparator(sep)
    requires Squash(TrimBy(Lower(a), NotKeyChar)) != [] && Squash(TrimBy(Lower(b), NotKeyChar)) != []
    ensures Squash(TrimBy(Lower(a + sep + b), NotKeyChar)) ==
      Squash(TrimBy(Lower(a), NotKeyChar)) + "_" + Squash(TrimBy(Lower(b), NotKeyChar))
  {
    var pa, ka, qa := Pieces(Lower(a));
    var pb, kb, qb := Pieces(Lower(b));
    var mid := qa + sep + pb;
    LowerJoin(a, sep, b);
    OnlyThree(qa, sep, pb, NotKeyChar);
    Regroup(pa, ka, qa, sep, pb, kb, qb);
    MiddleTrim(pa, ka, mid, kb, qb);
    MiddleSquash(ka, mid, kb);
  }

  /** A separator is left as it is by lower-casing. */
  lemma {:induction false} LowerJoin(a: string, sep: string, b: string)
    requires IsSeparator(sep)
    ensures Lower(a + sep + b) == Lower(a) + sep + Lower(b)
    ensures Only(sep, NotKeyChar)
  {
    LowerNoop(sep);
    LowerAppend(a + sep, b);
    LowerAppend(a, sep);
  }

  lemma {:induction false} OnlyThree(x: string, y: string, z: string, drop: char -> bool)
    requires Only(x, drop) && Only(y, drop) && Only(z, drop)
    ensures Only(x + y + z, drop)
  {
    var t := x + y + z;
    forall i | 0 <= i < |t| ensures drop(t[i]) {
      if i < |x| {
        assert t[i] == x[i];
      } else if i < |x| + |y| {
        assert t[i] == y[i - |x|];
      } else {
        assert t[i] == z[i - |x| - |y|];
      }
    }
  }

  lemma {:induction false} Regroup(pa: string, ka: string, qa: string, sep: string, pb: string, kb: string, qb: string)
    ensures (pa + ka + qa) + sep + (pb + kb + qb) == pa + (ka + (qa + sep + pb) + kb) + qb
  {
  }

  /** A label cut into its leading non-key characters, its trimmed middle
      and its trailing non-key characters. */
  lemma {:induction false} Pieces(x: string) returns (p: string, k: string, q: string)
    ensures k == TrimBy(x, NotKeyChar) && x == p + k + q
    ensures Only(p, NotKeyChar) && Only(q, NotKeyChar)
    ensures k == [] || (IsKeyChar(k[0]) && IsKeyChar(k[|k| - 1]))
  {
    var a: nat;
    a, k := TrimByCut(x, NotKeyChar);
    p, q := x[..a], x[a + |k|..];
    SplitAround(x, a, k);
    TrimByEnds(x, NotKeyChar);
  }

  /** Non-key characters around two keys and their separator are cut away. */
  lemma {:induction false} MiddleTrim(pa: string, ka: string, mid: string, kb: string, qb: string)
    requires ka != [] && IsKeyChar(ka[0]) && kb != [] && IsKeyChar(kb[|kb| - 1])
    requires Only(pa, NotKeyChar) && Only(qb, NotKeyChar)
    ensures TrimBy(pa + (ka + mid + kb) + qb, NotKeyChar) == ka + mid + kb
  {
    var m := ka + mid + kb;
    TrimByAround(pa, m, qb, NotKeyChar);
    assert m[0] == ka[0] && m[|m| - 1] == kb[|kb| - 1];
    TrimByNoop(m, NotKeyChar);
  }

  /** The separating run squashes to one `_` between the two keys. */
  lemma {:induction false} MiddleSquash(ka: string, mid: string, kb: string)
    requires ka != [] && IsKeyChar(ka[|ka| - 1]) && kb != [] && IsKeyChar(kb[0])
    requires mid != [] && Only(mid, NotKeyChar)
    ensures Squash(ka + mid + kb) == Squash(ka) + "_" + Squash(kb)
  {
    Assoc(ka, mid, kb);
    assert Meets(ka, mid + kb);
    SquashAppend(ka, mid + kb);
    SquashAppend(mid, kb);
    SquashRun(mid);
  }

  predicate IsSafeChar(c: char) {
    IsLowerLetter(c) || IsUpperLetter(c) || IsDigit(c) || c == '_' || c == '-'
  }

  /** Only `[A-Za-z0-9_-]`, no `_` at either end. */
  predicate SafeKey(k: string) {
    && (forall i :: 0 <= i < |k| ==> IsSafeChar(k[i]))
    && (k == [] || (k[0] != '_' && k[|k| - 1] != '_'))
  }

  /** `re.sub(r'[^a-zA-Z0-9_\-]', '_', s)`: each unsafe character becomes `_`. */
  function SafeChars(s: string): (r: string)
    ensures |r| == |s|
    ensures forall i :: 0 <= i < |s| ==> r[i] == if IsSafeChar(s[i]) then s[i] else '_'
  {
    if s == [] then [] else [if IsSafeChar(s[0]) then s[0] else '_'] + SafeChars(s[1..])
  }

  /** `_sanitize(s)`: the name with unsafe characters replaced, then with
      `_` stripped from both ends. */
  function Sanitize(s: string): (r: string)
    ensures SafeKey(r)
    ensures TrimmedFrom(SafeChars(s), r, IsUnderscore)
  {
    var safe := SafeChars(s);
    var left := TrimLeftBy(safe, IsUnderscore);
    var r := TrimRightBy(left, IsUnderscore);
    SafeSlice(safe, |safe| - |left|, |safe|);
    SafeSlice(left, 0, |r|);
    TrimByTrimmed(safe, IsUnderscore);
    r
  }

  /** A slice of a string of safe characters holds only safe characters. */
  lemma {:induction false} SafeSlice(k: string, a: nat, b: nat)
    requires a <= b <= |k|
    requires forall i :: 0 <= i < |k| ==> IsSafeChar(k[i])
    ensures forall i :: 0 <= i < b - a ==> IsSafeChar(k[a..b][i])
  {
    forall i | 0 <= i < b - a ensures IsSafeChar(k[a..b][i]) {
      assert k[a..b][i] == k[a + i];
    }
  }

  /** `_sanitize` is idempotent. */
  lemma {:induction false} SanitizeIdempotent(s: string)
    ensures Sanitize(Sanitize(s)) == Sanitize(s)
  {
    var k := Sanitize(s);
    assert SafeChars(k) == k;
    TrimByNoop(k, IsUnderscore);
  }
}

=== FILE: logscan.dfy ===
/** The line scan of the job-output normaliser (`RundeckClient.fetch_output`,
    lambda_function.py:433-482): each log entry is cleaned, then a small state
    machine keeps plain lines section by section, resets at the results-table
    marker, and inside a table keeps only the value column of each row.

    The single-key JSON unwrap of a cleaned line (`_try_parse_single_kv_json`)
    rests on Python's JSON and literal parsers and is a parameter `unwrap`. */
module LogScan {
  import opened Wrappers
  import opened Text
  import Seqs

  // ---------------------------------------------------------------------
  // Cleaning one entry
  // ---------------------------------------------------------------------

  /** `hh:mm:ss` followed by white space at the very start of the line. */
  predicate HasTimestamp(s: string) {
    && |s| >= 9
    && IsDigit(s[0]) && IsDigit(s[1]) && s[2] == ':'
    && IsDigit(s[3]) && IsDigit(s[4]) && s[5] == ':'
    && IsDigit(s[6]) && IsDigit(s[7]) && IsSpace(s[8])
  }

  /** `re.sub(r'^\d{2}:\d{2}:\d{2}\s+', '', raw)` */
  function StripTimestamp(s: string): (r: string)
    ensures |r| <= |s| && r == s[|s| - |r|..]
    ensures r != s ==> HasTimestamp(s) && |r| <= |s| - 9 && (r == [] || !IsSpace(r[0]))
    ensures r != s ==> forall i :: 8 <= i < |s| - |r| ==> IsSpace(s[i])
  {
    if HasTimestamp(s) then TrimLeft(s[8..]) else s
  }

  /** The stamp comes off together with all the white space after it, and the
      message is left as it was. */
  lemma {:induction false} TimestampRoundTrip(stamp: string, gap: string, msg: string)
    requires |stamp| == 8 && HasTimestamp(stamp + " ")
    requires gap != [] && forall i :: 0 <= i < |gap| ==> IsSpace(gap[i])
    requires msg == [] || !IsSpace(msg[0])
    ensures StripTimestamp(stamp + gap + msg) == msg
  {
    var s := stamp + gap + msg;
    assert s[8..] == gap + msg;
    TrimLeftByPrefix(gap, msg, IsSpace);
  }

  const Esc: char := '\U{1B}'

  predicate IsParamByte(c: char) { '0' <= c <= '?' }
  predicate IsInterByte(c: char) { ' ' <= c <= '/' }
  predicate IsFinalByte(c: char) { '@' <= c <= '~' }

  /** Length of the escape sequence `\x1B[ params inters final` that starts
      `s`, or 0 when none does. The three byte classes are disjoint, so the
      greedy match never needs to backtrack. */
  function AnsiLength(s: string): (n: nat)
    ensures n <= |s|
    ensures n > 0 ==> n >= 3 && s[0] == Esc && s[1] == '['
  {
    if |s| >= 2 && s[0] == Esc && s[1] == '[' then
      var q := TrimLeftBy(TrimLeftBy(s[2..], IsParamByte), IsInterByte);
      if q != [] && IsFinalByte(q[0]) then |s| - |q| + 1 else 0
    else 0
  }

  /** `ANSI_RE.sub("", s)`: one left-to-right pass removing every escape
      sequence it meets. */
  function StripAnsi(s: string): (r: string)
    ensures |r| <= |s|
    ensures forall i :: 0 <= i < |r| ==> r[i] in s
    ensures Esc !in s ==> r == s
    decreases |s|
  {
    if s == [] then []
    else
      var n := AnsiLength(s);
      if n > 0 then StripAnsi(s[n..])
      else
        var rest := StripAnsi(s[1..]);
        assert forall c :: c in s[1..] ==> c in s;
        [s[0]] + rest
  }

  lemma {:induction false} AnsiLengthAt(s: string, q: string)
    requires |s| >= 2 && s[0] == Esc && s[1] == '['
    requires TrimLeftBy(TrimLeftBy(s[2..], IsParamByte), IsInterByte) == q
    requires q != [] && IsFinalByte(q[0])
    ensures AnsiLength(s) == |s| - |q| + 1
  {
  }

  lemma {:induction false} StripAnsiSkip(s: string)
    requires AnsiLength(s) > 0
    ensures StripAnsi(s) == StripAnsi(s[AnsiLength(s)..])
  {
  }

  lemma {:induction false} AnsiPrefixLength(params: string, inters: string, tail: string)
    requires forall i :: 0 <= i < |params| ==> IsParamByte(params[i])
    requires forall i :: 0 <= i < |inters| ==> IsInterByte(inters[i])
    requires tail != [] && IsFinalByte(tail[0])
    ensures AnsiLength([Esc, '['] + (params + (inters + tail))) == 3 + |params| + |inters|
  {
    var s := [Esc, '['] + (params + (inters + tail));
    assert s[2..] == params + (inters + tail);
    assert inters == [] || !IsParamByte(inters[0]);
    TrimLeftByPrefix(params, inters + tail, IsParamByte);
    TrimLeftByPrefix(inters, tail, IsInterByte);
    AnsiLengthAt(s, tail);
  }

  /** A well-formed escape sequence in front of the text is removed whole. */
  lemma {:induction false} StripAnsiSequence(params: string, inters: string, final: char, rest: string)
    requires forall i :: 0 <= i < |params| ==> IsParamByte(params[i])
    requires forall i :: 0 <= i < |inters| ==> IsInterByte(inters[i])
    requires IsFinalByte(final)
    ensures StripAnsi([Esc, '['] + params + inters + [final] + rest) == StripAnsi(rest)
  {
    var tail := [final] + rest;
    var s := [Esc, '['] + params + inters + [final] + rest;
    assert s == [Esc, '['] + (params + (inters + tail));
    AnsiPrefixLength(params, inters, tail);
    assert s[3 + |params| + |inters|..] == rest;
    StripAnsiSkip(s);
  }

  /** `_clean_line(s)`: colour codes removed and the right end trimmed; a line
      that unwraps as a single-key JSON object is replaced by its value. */
  function CleanLine(s: string, unwrap: string -> Option<string>): (r: string)
    ensures unwrap(TrimRight(StripAnsi(s))).None? ==> r == TrimRight(StripAnsi(s))
    ensures unwrap(TrimRight(StripAnsi(s))).Some? ==> r == unwrap(TrimRight(StripAnsi(s))).value
  {
    var t := TrimRight(StripAnsi(s));
    match unwrap(t)
    case Some(p) => p
    case None => t
  }

  /** A plain line with no escape code and no trailing blank is kept as it
      is when it does not unwrap. */
  lemma {:induction false} CleanPlainLine(s: string, unwrap: string -> Option<string>)
    requires Esc !in s && (s == [] || !IsSpace(s[|s| - 1]))
    requires unwrap(s).None?
    ensures CleanLine(s, unwrap) == s
  {
    assert StripAnsi(s) == s;
  }

  // ---------------------------------------------------------------------
  // Line kinds
  // ---------------------------------------------------------------------

  /** `re.match(r'-{3,}$', line.strip())` */
  predicate IsRule(line: string) {
    var t := Strip(line);
    |t| >= 3 && forall i :: 0 <= i < |t| ==> t[i] == '-'
  }

  const Marker: string := "key value data: results"

  /** The results-table marker: `"key value data: results" in line.lower()`. */
  predicate IsMarker(line: string) {
    Contains(Lower(line), Marker)
  }

  /** A marker line is neither blank nor a rule, so the scan always reaches
      the marker test for it. */
  lemma {:induction false} MarkerLineShape(line: string)
    requires IsMarker(line)
    ensures !IsBlank(line) && !IsRule(line)
  {
    var low := Lower(line);
    var i :| 0 <= i <= |low| && StartsWith(low[i..], Marker);
    assert low[i..][0] == Marker[0];
    assert LowerChar(line[i]) == 'k';
    StripKeeps(line, i);
  }

  /** `t` is a suffix of `s` that holds no two adjacent blanks and is either
      all of `s` or starts with a non-blank right after two blanks. */
  predicate ColumnOf(s: string, t: string) {
    && |t| <= |s| && t == s[|s| - |t|..]
    && (forall i :: 0 <= i < |t| - 1 ==> !(IsSpace(t[i]) && IsSpace(t[i + 1])))
    && (|t| < |s| ==> |s| - |t| >= 2 && IsSpace(s[|s| - |t| - 1]) && IsSpace(s[|s| - |t| - 2]))
    && (|t| < |s| && t != [] ==> !IsSpace(t[0]))
  }

  /** `re.split(r'\s{2,}', line)[-1]`: the text after the last run of two or
      more white-space characters (the whole line when there is none). */
  function LastColumn(s: string): (r: string)
    ensures ColumnOf(s, r)
    decreases |s|
  {
    if |s| >= 2 && IsSpace(s[|s| - 1]) && IsSpace(s[|s| - 2]) then []
    else if s == [] then []
    else
      var init := LastColumn(s[..|s| - 1]);
      ColumnExtend(s, init);
      init + [s[|s| - 1]]
  }

  /** A column of a line without its last character, extended by that
      character, is a column of the line when the line does not end in a
      double blank. */
  lemma {:induction false} ColumnExtend(s: string, init: string)
    requires s != [] && ColumnOf(s[..|s| - 1], init)
    requires !(|s| >= 2 && IsSpace(s[|s| - 1]) && IsSpace(s[|s| - 2]))
    ensures ColumnOf(s, init + [s[|s| - 1]])
  {
    var n := |s|;
    var t := init + [s[n - 1]];
    assert init == s[n - 1 - |init|..n - 1];
    assert t == s[n - |t|..];
    forall i | 0 <= i < |t| - 1 ensures !(IsSpace(t[i]) && IsSpace(t[i + 1])) {
      if i + 1 < |init| {
        assert t[i] == init[i] && t[i + 1] == init[i + 1];
      } else {
        assert t[i] == s[n - 2] && t[i + 1] == s[n - 1];
      }
    }
    if |t| < n && init == [] {
      assert IsSpace(s[..n - 1][n - 2]);
    }
  }

  lemma {:induction false} SuffixAt(s: string, w: string, j: nat)
    requires |w| <= |s| && w == s[|s| - |w|..] && j < |w|
    ensures w[j] == s[|s| - |w| + j]
  {
  }

  /** Of two columns of one line, neither is shorter than the other. */
  lemma {:induction false} ColumnNotShorter(s: string, u: string, w: string)
    requires ColumnOf(s, u) && ColumnOf(s, w)
    ensures |u| >= |w|
  {

  }

  /** The value column is the only column of a line: the only suffix that
      holds no double blank and is either the whole line or starts with a
      non-blank right after a double blank. */
  lemma {:induction false} LastColumnUnique(s: string, t: string)
    requires ColumnOf(s, t)
    ensures LastColumn(s) == t
  {
    var r := LastColumn(s);
    ColumnNotShorter(s, r, t);
    ColumnNotShorter(s, t, r);
  }

  // ---------------------------------------------------------------------
  // The scan
  // ---------------------------------------------------------------------

  /** The loop's variables: lines kept so far, the open section, and whether
      a results table and its value column have been entered. */
  datatype ScanState = ScanState(keep: seq<string>, section: seq<string>, inKv: bool, inValue: bool)

  const Start: ScanState := ScanState([], [], false, false)
  const TableStart: ScanState := ScanState([], [], true, false)

  /** `flush_section()`: a non-empty section is appended with a blank line
      after it. */
  function Flush(keep: seq<string>, section: seq<string>): (r: seq<string>)
    ensures |r| == |keep| + (if section == [] then 0 else |section| + 1)
    ensures r[..|keep|] == keep
    ensures forall i :: 0 <= i < |section| ==> r[|keep| + i] == section[i]
    ensures section != [] ==> r[|r| - 1] == ""
  {
    if section == [] then keep else keep + section + [""]
  }

  /** How the loop body sees a cleaned line, in the order of its tests. */
  datatype LineKind = BlankLine | RuleLine | MarkerLine | KeyCell | ValueCell | TextLine

  function KindOf(line: string): (k: LineKind)
    ensures k == BlankLine <==> IsBlank(line)
    ensures k == RuleLine <==> !IsBlank(line) && IsRule(line)
    ensures k == MarkerLine <==> !IsBlank(line) && !IsRule(line) && IsMarker(line)
    ensures k == KeyCell <==> !IsBlank(line) && !IsRule(line) && !IsMarker(line) && Lower(Strip(line)) == "key"
    ensures k == ValueCell <==> !IsBlank(line) && !IsRule(line) && !IsMarker(line) && Lower(Strip(line)) == "value"
    ensures k == TextLine <==>
      !IsBlank(line) && !IsRule(line) && !IsMarker(line) && Lower(Strip(line)) != "key" && Lower(Strip(line)) != "value"
  {
    if IsBlank(line) then BlankLine
    else if IsRule(line) then RuleLine
    else if IsMarker(line) then MarkerLine
    else if Lower(Strip(line)) == "key" then KeyCell
    else if Lower(Strip(line)) == "value" then ValueCell
    else TextLine
  }

  /** A line paired with its kind. */
  type Classified = (LineKind, string)

  function Classify(lines: seq<string>): (r: seq<Classified>)
    ensures |r| == |lines|
  {
    if lines == [] then [] else [(KindOf(lines[0]), lines[0])] + Classify(lines[1..])
  }

  lemma {:induction false} ClassifyAppend(a: seq<string>, b: seq<string>)
    ensures Classify(a + b) == Classify(a) + Classify(b)
    decreases |a|
  {
    if a == [] {
      assert a + b == b;
    } else {
      assert (a + b)[0] == a[0] && (a + b)[1..] == a[1..] + b;
      ClassifyAppend(a[1..], b);
    }
  }

  lemma {:induction false} ClassifyHonest(lines: seq<string>)
    ensures KindsHonest(Classify(lines))
  {
    if lines != [] {
      ClassifyHonest(lines[1..]);
      var r := Classify(lines);
      assert r == [(KindOf(lines[0]), lines[0])] + Classify(lines[1..]);
      forall i | 0 < i < |r|
        ensures r[i] == Classify(lines[1..])[i - 1]
      {
      }
    }
  }

  /** One cleaned line through the loop body, once its kind is known. A
      header cell outside a table is an ordinary line. */
  function StepKind(st: ScanState, k: LineKind, line: string): (r: ScanState)
  {
    match k
    case BlankLine => st
    case RuleLine => ScanState(Flush(st.keep, st.section), [], false, if st.inKv then false else st.inValue)
    case MarkerLine => ScanState([], [], true, false)
    case KeyCell => if st.inKv then st else st.(section := st.section + [line])
    case ValueCell => if st.inKv then st.(inValue := true) else st.(section := st.section + [line])
    case TextLine =>
      if st.inKv then
        var v := LastColumn(line);
        if st.inValue && !IsBlank(v) then st.(section := st.section + [v]) else st
      else st.(section := st.section + [line])
  }

  /** The loop over classified lines. */
  function Scan(st: ScanState, ks: seq<Classified>): ScanState
    decreases |ks|
  {
    if ks == [] then st else Scan(StepKind(st, ks[0].0, ks[0].1), ks[1..])
  }

  /** The lines the scan keeps, after the final flush. */
  function Collect(lines: seq<string>): seq<string> {
    var st := Scan(Start, Classify(lines));
    Flush(st.keep, st.section)
  }

  /** Scanning two runs of lines in turn is scanning them together. */
  lemma {:induction false} ScanAppend(st: ScanState, a: seq<Classified>, b: seq<Classified>)
    ensures Scan(st, a + b) == Scan(Scan(st, a), b)
    decreases |a|
  {
    if a == [] {
      assert a + b == b;
    } else {
      assert (a + b)[0] == a[0] && (a + b)[1..] == a[1..] + b;
      ScanAppend(StepKind(st, a[0].0, a[0].1), a[1..], b);
    }
  }

  /** Every line classified as something other than blank is non-blank. */
  predicate KindsHonest(ks: seq<Classified>) {
    forall i :: 0 <= i < |ks| && ks[i].0 != BlankLine ==> !IsBlank(ks[i].1)
  }

  /** What the loop keeps between lines: the value column is only open inside
      a table, every collected line is non-blank, and the kept list is empty
      or ends with the blank line of a flush. */
  predicate Inv(st: ScanState) {
    && (st.inValue ==> st.inKv)
    && (forall i :: 0 <= i < |st.section| ==> !IsBlank(st.section[i]))
    && (forall i :: 0 <= i < |st.keep| ==> st.keep[i] == [] || !IsBlank(st.keep[i]))
    && (st.keep == [] || st.keep[|st.keep| - 1] == [])
  }

  lemma {:induction false} FlushInv(st: ScanState)
    requires Inv(st)
    ensures var k := Flush(st.keep, st.section);
      && (forall i :: 0 <= i < |k| ==> k[i] == [] || !IsBlank(k[i]))
      && (k == [] || k[|k| - 1] == [])
  {
    var k := Flush(st.keep, st.section);
    forall i | 0 <= i < |k|
      ensures k[i] == [] || !IsBlank(k[i])
    {
      if i < |st.keep| {
        assert k[i] == st.keep[i];
      } else if i < |st.keep| + |st.section| {
        assert k[i] == st.section[i - |st.keep|];
      }
    }
  }

  lemma {:induction false} AddLineInv(st: ScanState, v: string)
    requires Inv(st) && !IsBlank(v)
    ensures Inv(st.(section := st.section + [v]))
  {
    var sec := st.section + [v];
    forall i | 0 <= i < |sec|
      ensures !IsBlank(sec[i])
    {
      if i < |st.section| {
        assert sec[i] == st.section[i];
      }
    }
  }

  lemma {:induction false} StepKindInv(st: ScanState, k: LineKind, line: string)
    requires Inv(st)
    requires k != BlankLine ==> !IsBlank(line)
    ensures Inv(StepKind(st, k, line))
  {
    match k
    case RuleLine => FlushInv(st);
    case TextLine =>
      var v := LastColumn(line);
      if st.inKv && st.inValue && !IsBlank(v) {
        AddLineInv(st, v);
      } else if !st.inKv {
        AddLineInv(st, line);
      }
    case KeyCell =>
      if !st.inKv {
        AddLineInv(st, line);
      }
    case ValueCell =>
      if !st.inKv {
        AddLineInv(st, line);
      }
    case _ =>
  }

  lemma {:induction false} ScanInv(st: ScanState, ks: seq<Classified>)
    requires Inv(st) && KindsHonest(ks)
    ensures Inv(Scan(st, ks))
    decreases |ks|
  {
    if ks != [] {
      StepKindInv(st, ks[0].0, ks[0].1);
      assert KindsHonest(ks[1..]) by {
        forall i | 0 <= i < |ks[1..]| && ks[1..][i].0 != BlankLine
          ensures !IsBlank(ks[1..][i].1)
        {
          assert ks[1..][i] == ks[i + 1];
        }
      }
      ScanInv(StepKind(st, ks[0].0, ks[0].1), ks[1..]);
    }
  }

  /** Every kept line is non-blank, apart from the blank line that closes
      each section, and the list ends with such a line when it is not empty. */
  lemma {:induction false} CollectShape(lines: seq<string>)
    ensures var r := Collect(lines);
      && (forall i :: 0 <= i < |r| ==> r[i] == [] || !IsBlank(r[i]))
      && (r == [] || r[|r| - 1] == [])
  {
    ClassifyHonest(lines);
    ScanInv(Start, Classify(lines));
    FlushInv(Scan(Start, Classify(lines)));
  }

  /** After a results-table marker line nothing collected earlier survives:
      the scan goes on exactly as if the log had started at the marker. */
  lemma {:induction false} MarkerDiscardsPrefix(before: seq<string>, m: string, after: seq<string>)
    requires IsMarker(m)
    ensures Collect(before + [m] + after) == Collect([m] + after)
  {
    MarkerLineShape(m);
    var mk: Classified := (MarkerLine, m);
    var ca := Classify(after);
    ClassifyAppend(before, [m] + after);
    assert before + [m] + after == before + ([m] + after);
    assert ([m] + after)[0] == m && ([m] + after)[1..] == after;
    assert Classify([m] + after) == [mk] + ca;
    ScanAppend(Start, Classify(before), [mk] + ca);
    ScanCons(Scan(Start, Classify(before)), mk, ca);
    ScanCons(Start, mk, ca);
  }

  lemma {:induction false} ScanCons(st: ScanState, k: Classified, rest: seq<Classified>)
    ensures Scan(st, [k] + rest) == Scan(StepKind(st, k.0, k.1), rest)
  {
    assert ([k] + rest)[0] == k && ([k] + rest)[1..] == rest;
  }

  /** A table row: a line that is neither blank, a rule, the marker, nor one
      of the two header cells. */
  predicate TableRow(line: string) {
    KindOf(line) == TextLine
  }

  /** The non-blank value columns of some rows, in order. */
  function ValueColumns(rows: seq<string>): (r: seq<string>)
  {
    if rows == [] then [] else Cell(rows[0]) + ValueColumns(rows[1..])
  }

  /** What one row contributes: its last column, unless that is blank. */
  function Cell(row: string): seq<string> {
    var v := LastColumn(row);
    if IsBlank(v) then [] else [v]
  }

  /** Inside a table, rows before the `value` header cell are dropped. */
  lemma {:induction false} RowsBeforeValueDropped(st: ScanState, ks: seq<Classified>)
    requires st.inKv && !st.inValue
    requires forall i :: 0 <= i < |ks| ==> ks[i].0 == KeyCell || ks[i].0 == TextLine
    ensures Scan(st, ks) == st
    decreases |ks|
  {
    if ks != [] {
      RowsBeforeValueDropped(st, ks[1..]);
    }
  }

  /** The cells of classified rows, in order. */
  function CellsOf(ks: seq<Classified>): seq<string> {
    if ks == [] then [] else Cell(ks[0].1) + CellsOf(ks[1..])
  }

  /** After the `value` header cell, each row adds its last column to the
      section, and only when that column is not blank. */
  lemma {:induction false} RowsAfterValueKeepColumn(st: ScanState, ks: seq<Classified>)
    requires st.inKv && st.inValue
    requires forall i :: 0 <= i < |ks| ==> ks[i].0 == TextLine
    ensures Scan(st, ks) == st.(section := st.section + CellsOf(ks))
    decreases |ks|
  {
    if ks != [] {
      var c := Cell(ks[0].1);
      var st' := st.(section := st.section + c);
      assert Scan(st, ks) == Scan(StepKind(st, ks[0].0, ks[0].1), ks[1..]);
      StepTextRow(st, ks[0].1);
      RowsAfterValueKeepColumn(st', ks[1..]);
      AppendAssoc(st.section, c, CellsOf(ks[1..]));
    } else {
      assert st.section + [] == st.section;
    }
  }

  /** The cells of the classified rows are the rows' value columns. */
  lemma {:induction false} CellsOfClassify(rows: seq<string>)
    ensures CellsOf(Classify(rows)) == ValueColumns(rows)
    decreases |rows|
  {
    if rows != [] {
      ClassifyCons(rows);
      var ks := Classify(rows);
      assert ks[1..] == Classify(rows[1..]);
      CellsOfClassify(rows[1..]);
    }
  }

  /** Table rows are classified as plain text. */
  lemma {:induction false} ClassifyRows(rows: seq<string>)
    requires forall i :: 0 <= i < |rows| ==> TableRow(rows[i])
    ensures forall i :: 0 <= i < |rows| ==> Classify(rows)[i].0 == TextLine
    decreases |rows|
  {
    if rows != [] {
      ClassifyCons(rows);
      ClassifyRows(rows[1..]);
      forall i | 0 < i < |rows|
        ensures Classify(rows)[i].0 == TextLine
      {
        assert Classify(rows)[i] == Classify(rows[1..])[i - 1];
        assert TableRow(rows[1..][i - 1]);
      }
      assert TableRow(rows[0]);
    }
  }

  lemma {:induction false} AppendAssoc(a: seq<string>, b: seq<string>, c: seq<string>)
    ensures a + b + c == a + (b + c)
  {
  }

  lemma {:induction false} ClassifyCons(rows: seq<string>)
    requires rows != []
    ensures Classify(rows) == [(KindOf(rows[0]), rows[0])] + Classify(rows[1..])
  {
  }

  lemma {:induction false} StepTextRow(st: ScanState, row: string)
    requires st.inKv && st.inValue
    ensures StepKind(st, TextLine, row) == st.(section := st.section + Cell(row))
  {
  }

  /** A line that holds the marker keeps at least the marker's length once
      stripped, whatever blanks surround it: the phrase's first and last
      characters are 22 apart and neither is blank. So a line whose stripped
      text is shorter than the phrase is never the marker. */
  lemma {:induction false} MarkerNeedsLength(line: string)
    ensures IsMarker(line) ==> |Strip(line)| >= |Marker|
  {
    if IsMarker(line) {
      var low := Lower(line);
      var i :| 0 <= i <= |low| && StartsWith(low[i..], Marker);
      assert i + 22 < |line| && !IsSpace(line[i]) && !IsSpace(line[i + 22]) by {
        assert low[i..][..|Marker|][0] == 'k' && low[i..][..|Marker|][22] == 's';
        assert LowerChar(line[i]) == 'k' && LowerChar(line[i + 22]) == 's';
      }
      SpanInStrip(line, i, i + 22);
    }
  }

  /** Two non-blank characters `d` apart leave at least `d + 1` characters
      after `strip()`. */
  lemma {:induction false} SpanInStrip(line: string, i: nat, j: nat)
    requires i <= j < |line| && !IsSpace(line[i]) && !IsSpace(line[j])
    ensures |Strip(line)| > j - i
  {
    StripKeeps(line, i);
    StripKeeps(line, j);
  }

  /** A header cell (`key` or `value` with any case and surrounding blanks)
      is never blank, a rule or the marker, so the scan sees it as a header
      cell. */
  lemma {:induction false} HeaderCell(cell: string, name: string)
    requires name == "key" || name == "value"
    requires Lower(Strip(cell)) == name
    ensures !IsBlank(cell) && !IsRule(cell) && !IsMarker(cell)
    ensures KindOf(cell) == if name == "key" then KeyCell else ValueCell
  {
    StripEmptyIffBlank(cell);
    assert LowerChar(Strip(cell)[0]) == name[0];
    MarkerNeedsLength(cell);
  }

  /** A whole table: whatever came before, the marker, the two header cells
      and some rows leave exactly the rows' non-blank value columns. */
  lemma {:induction false} TableKeepsValueColumn(before: seq<string>, marker: string, key: string, value: string, rows: seq<string>)
    requires IsMarker(marker)
    requires Lower(Strip(key)) == "key" && Lower(Strip(value)) == "value"
    requires forall i :: 0 <= i < |rows| ==> TableRow(rows[i])
    ensures Collect(before + [marker, key, value] + rows) == ValueColumns(rows) + (if ValueColumns(rows) == [] then [] else [""])
  {
    TableState(before, marker, key, value, rows);
    CollectInTable(before + [marker, key, value] + rows, ValueColumns(rows));
  }

  /** A scan that ends inside a table with nothing kept yields the open
      section and its closing blank line. */
  lemma {:induction false} CollectInTable(lines: seq<string>, section: seq<string>)
    requires Scan(Start, Classify(lines)) == ScanState([], section, true, true)
    ensures Collect(lines) == section + (if section == [] then [] else [""])
  {
    FlushEmpty(section);
  }

  /** The scan ends inside the table's value column, holding the columns. */
  lemma {:induction false} TableState(before: seq<string>, marker: string, key: string, value: string, rows: seq<string>)
    requires IsMarker(marker)
    requires Lower(Strip(key)) == "key" && Lower(Strip(value)) == "value"
    requires forall i :: 0 <= i < |rows| ==> TableRow(rows[i])
    ensures Scan(Start, Classify(before + [marker, key, value] + rows)) == ScanState([], ValueColumns(rows), true, true)
  {
    ClassifyTable(before, marker, key, value, rows);
    ClassifyRows(rows);
    ScanTable(Classify(before), marker, key, value, Classify(rows));
    CellsOfClassify(rows);
  }

  lemma {:induction false} FlushEmpty(section: seq<string>)
    ensures Flush([], section) == section + (if section == [] then [] else [""])
  {
    assert [] + section == section;
  }

  lemma {:induction false} ClassifyTable(before: seq<string>, marker: string, key: string, value: string, rows: seq<string>)
    requires IsMarker(marker)
    requires Lower(Strip(key)) == "key" && Lower(Strip(value)) == "value"
    ensures Classify(before + [marker, key, value] + rows) ==
      Classify(before) + [(MarkerLine, marker), (KeyCell, key), (ValueCell, value)] + Classify(rows)
  {
    HeaderCell(key, "key");
    HeaderCell(value, "value");
    MarkerLineShape(marker);
    ClassifyHead(marker, key, value);
    ClassifyAppend(before, [marker, key, value]);
    ClassifyAppend(before + [marker, key, value], rows);
  }

  lemma {:induction false} ScanTable(pre: seq<Classified>, marker: string, key: string, value: string, ks: seq<Classified>)
    requires forall i :: 0 <= i < |ks| ==> ks[i].0 == TextLine
    ensures var head: seq<Classified> := [(MarkerLine, marker), (KeyCell, key), (ValueCell, value)];
      Scan(Start, pre + head + ks) == ScanState([], CellsOf(ks), true, true)
  {
    var head: seq<Classified> := [(MarkerLine, marker), (KeyCell, key), (ValueCell, value)];
    ScanAppend(Start, pre + head, ks);
    ScanAppend(Start, pre, head);
    TableHead(Scan(Start, pre), marker, key, value);
    RowsAfterValueKeepColumn(TableStart.(inValue := true), ks);
  }

  lemma {:induction false} TableHead(st: ScanState, marker: string, key: string, value: string)
    ensures Scan(st, [(MarkerLine, marker), (KeyCell, key), (ValueCell, value)]) == TableStart.(inValue := true)
  {
    var ks: seq<Classified> := [(MarkerLine, marker), (KeyCell, key), (ValueCell, value)];
    assert ks == [ks[0]] + ([ks[1]] + [ks[2]]);
    ScanCons(st, ks[0], [ks[1]] + [ks[2]]);
    ScanCons(TableStart, ks[1], [ks[2]]);
    ScanCons(TableStart, ks[2], []);
    assert [ks[2]] + [] == [ks[2]];
  }

  lemma {:induction false} ClassifyHead(a: string, b: string, c: string)
    ensures Classify([a, b, c]) == [(KindOf(a), a), (KindOf(b), b), (KindOf(c), c)]
  {
    assert [c][1..] == [];
    assert Classify([c]) == [(KindOf(c), c)];
    assert [b, c][1..] == [c];
    assert Classify([b, c]) == [(KindOf(b), b)] + Classify([c]);
    assert [a, b, c][1..] == [b, c];
    assert Classify([a, b, c]) == [(KindOf(a), a)] + Classify([b, c]);
  }

  /** A table with a one-line `Key  Value` header: after the marker, rows
      of text with no header cell of their own keep nothing, since the scan
      never enters the value column. Everything before the marker is gone
      too. */
  lemma {:induction false} TableWithoutValueCell(before: seq<string>, marker: string, rows: seq<string>)
    requires IsMarker(marker) && AllTableRows(rows)
    ensures Collect(before + [marker] + rows) == []
  {
    MarkerDiscardsPrefix(before, marker, rows);
    MarkerLineShape(marker);
    ClassifyCons([marker] + rows);
    assert ([marker] + rows)[0] == marker && ([marker] + rows)[1..] == rows;
    ScanCons(Start, (MarkerLine, marker), Classify(rows));
    ClassifyRows(rows);
    RowsBeforeValueDropped(TableStart, Classify(rows));
  }

  /** Short trimmed text that does not start with `-` is an ordinary line,
      and a table row unless it could spell `key` or `value`. */
  lemma {:induction false} ShortText(s: string)
    requires s != [] && Trimmed(s) && s[0] != '-' && |s| < |Marker|
    ensures PlainLine(s)
    ensures |s| != 3 && |s| != 5 ==> TableRow(s)
  {
    TrimByNoop(s, IsSpace);
    assert Strip(s) == s;
    NotContainsLonger(Lower(s), Marker);
  }

  /** The example of a table whose header is the single line `Key  Value`:
      the rows `foo  1` and `bar  2` leave nothing at all. */
  lemma {:induction false} OneLineHeaderKeepsNothing(marker: string, header: string, row1: string, row2: string)
    requires marker == Marker && header == "Key  Value"
    requires row1 == "foo  1" && row2 == "bar  2"
    ensures Collect([marker, header, row1, row2]) == []
  {
    MarkerItself(marker);
    HeaderExampleRows(header, row1, row2);
    MarkerThenThreeRows(marker, header, row1, row2);
  }

  lemma {:induction false} MarkerThenThreeRows(marker: string, a: string, b: string, c: string)
    requires IsMarker(marker) && AllTableRows([a, b, c])
    ensures Collect([marker, a, b, c]) == []
  {
    TableWithoutValueCell([], marker, [a, b, c]);
    MarkerFirst(marker, a, b, c);
  }

  lemma {:induction false} MarkerFirst<T>(m: T, a: T, b: T, c: T)
    ensures [] + [m] + [a, b, c] == [m, a, b, c]
  {
  }

  /** The marker phrase on a line of its own is a marker line. */
  lemma {:induction false} MarkerItself(m: string)
    requires m == Marker
    ensures IsMarker(m)
  {
    forall i | 0 <= i < |m| ensures !IsUpperLetter(m[i]) {}
    LowerNoop(m);
    SelfContains(m);
  }

  lemma {:induction false} HeaderExampleRows(header: string, row1: string, row2: string)
    requires header == "Key  Value" && row1 == "foo  1" && row2 == "bar  2"
    ensures AllTableRows([header, row1, row2])
  {
    ExampleRow(header);
    ExampleRow(row1);
    ExampleRow(row2);
    ThreeRows(header, row1, row2);
  }

  /** Each line of the example table is a row. Kept apart from
      HeaderExampleRows because unfolding the three literals in one proof
      costs the solver more than all three calls to this lemma. */
  lemma {:induction false} ExampleRow(s: string)
    requires s == "Key  Value" || s == "foo  1" || s == "bar  2"
    ensures TableRow(s)
  {
    ShortText(s);
  }

  lemma {:induction false} ThreeRows(a: string, b: string, c: string)
    requires TableRow(a) && TableRow(b) && TableRow(c)
    ensures AllTableRows([a, b, c])
  {
    Seqs.HoldsOnThree(TableRow, a, b, c);
  }

  /** A line the scan keeps as it is outside a table. */
  predicate PlainLine(line: string) {
    !IsBlank(line) && !IsRule(line) && !IsMarker(line)
  }

  predicate AllTableRows(rows: seq<string>) {
    forall i :: 0 <= i < |rows| ==> TableRow(rows[i])
  }

  predicate AllPlain(lines: seq<string>) {
    forall i :: 0 <= i < |lines| ==> PlainLine(lines[i])
  }

  /** Outside a table, a run of ordinary lines joins the open section. */
  lemma {:induction false} PlainRunKept(st: ScanState, lines: seq<string>)
    requires !st.inKv && AllPlain(lines)
    ensures Scan(st, Classify(lines)) == st.(section := st.section + lines)
    decreases |lines|
  {
    if lines == [] {
      assert st.section + lines == st.section;
    } else {
      var st' := PlainStep(st, lines);
      PlainRunKept(st', lines[1..]);
      RunJoin(st, lines);
    }
  }

  lemma {:induction false} RunJoin(st: ScanState, lines: seq<string>)
    requires lines != []
    ensures var st' := st.(section := st.section + [lines[0]]);
      st'.(section := st'.section + lines[1..]) == st.(section := st.section + lines)
  {
    AppendAssoc(st.section, [lines[0]], lines[1..]);
    assert [lines[0]] + lines[1..] == lines;
  }

  /** The first line of a run of ordinary lines joins the open section. */
  lemma {:induction false} PlainStep(st: ScanState, lines: seq<string>) returns (st': ScanState)
    requires !st.inKv && lines != [] && AllPlain(lines)
    ensures st' == st.(section := st.section + [lines[0]]) && !st'.inKv
    ensures Scan(st, Classify(lines)) == Scan(st', Classify(lines[1..]))
    ensures AllPlain(lines[1..])
  {
    st' := st.(section := st.section + [lines[0]]);
    ClassifyCons(lines);
    ScanCons(st, (KindOf(lines[0]), lines[0]), Classify(lines[1..]));
    PlainLineKept(st, lines[0]);
    forall i | 0 <= i < |lines[1..]| ensures PlainLine(lines[1..][i]) {
      assert lines[1..][i] == lines[i + 1];
    }
  }

  /** A rule between two runs of ordinary lines, with an empty line on each
      side of it, only closes a section: scanned, the lines come back as two
      sections each closed by one empty line, and the rule is gone. */
  lemma {:induction false} RuleBetweenRunsDropped(a: seq<string>, rule: string, b: seq<string>)
    requires IsRule(rule)
    requires a != [] && AllPlain(a)
    requires b != [] && AllPlain(b)
    ensures Collect(a + ["", rule, ""] + b) == a + [""] + b + [""]
  {
    assert !IsBlank(rule) by {
      StripEmptyIffBlank(rule);
    }
    ScanAroundRule(a, rule, b);
    CollectOf(a + ["", rule, ""] + b, ScanState(a + [""], b, false, false));
  }

  lemma {:induction false} CollectOf(lines: seq<string>, st: ScanState)
    requires Scan(Start, Classify(lines)) == st
    ensures Collect(lines) == Flush(st.keep, st.section)
  {
  }

  lemma {:induction false} ScanAroundRule(a: seq<string>, rule: string, b: seq<string>)
    requires !IsBlank(rule) && IsRule(rule)
    requires a != [] && AllPlain(a) && AllPlain(b)
    ensures Scan(Start, Classify(a + ["", rule, ""] + b)) == ScanState(a + [""], b, false, false)
  {
    var kmid: seq<Classified> := [(BlankLine, ""), (RuleLine, rule), (BlankLine, "")];
    ClassifyAroundRule(a, rule, b);
    ScanToRule(a, rule);
    ScanAppend(Start, Classify(a) + kmid, Classify(b));
    PlainRunKept(ScanState(a + [""], [], false, false), b);
    assert [] + b == b;
  }

  lemma {:induction false} ClassifyAroundRule(a: seq<string>, rule: string, b: seq<string>)
    requires !IsBlank(rule) && IsRule(rule)
    ensures Classify(a + ["", rule, ""] + b) == Classify(a) + [(BlankLine, ""), (RuleLine, rule), (BlankLine, "")] + Classify(b)
  {
    ClassifyAppend(a, ["", rule, ""]);
    ClassifyAppend(a + ["", rule, ""], b);
    ClassifyHead("", rule, "");
  }

  lemma {:induction false} ScanToRule(a: seq<string>, rule: string)
    requires !IsBlank(rule) && IsRule(rule)
    requires a != [] && AllPlain(a)
    ensures Scan(Start, Classify(a) + [(BlankLine, ""), (RuleLine, rule), (BlankLine, "")]) == ScanState(a + [""], [], false, false)
  {
    ScanAppend(Start, Classify(a), [(BlankLine, ""), (RuleLine, rule), (BlankLine, "")]);
    PlainRunKept(Start, a);
    assert Start.section + a == a;
    RuleStep(ScanState([], a, false, false), rule);
  }

  /** The separator's three lines close the open section and nothing else. */
  lemma {:induction false} RuleStep(st: ScanState, rule: string)
    requires !st.inKv && !st.inValue && st.keep == [] && st.section != []
    requires !IsBlank(rule) && IsRule(rule)
    ensures Scan(st, [(BlankLine, ""), (RuleLine, rule), (BlankLine, "")]) == ScanState(st.section + [""], [], false, false)
  {
    var ks: seq<Classified> := [(BlankLine, ""), (RuleLine, rule), (BlankLine, "")];
    assert ks == [ks[0]] + ([ks[1]] + [ks[2]]);
    var st1 := ScanState(st.section + [""], [], false, false);
    ScanCons(st, ks[0], [ks[1]] + [ks[2]]);
    ScanCons(st, ks[1], [ks[2]]);
    ScanCons(st1, ks[2], []);
    assert [] + st.section + [""] == st.section + [""];
  }

  /** The example of a report's two groups scanned again: the rule line
      between them is dropped. */
  lemma {:induction false} RescanDropsRuleLine(l1: string, l2: string, rule: string, l3: string)
    requires l1 == "Cloud Region:" && l2 == "us-east" && l3 == "misc stuff"
    requires rule == "-----------------------"
    ensures Collect([l1, l2, "", rule, "", l3]) == [l1, l2, "", l3, ""]
  {
    RescanExampleLines(l1, l2, l3);
    DashesAreRule(rule);
    RuleBetweenLines(l1, l2, rule, l3);
  }

  lemma {:induction false} RuleBetweenLines(l1: string, l2: string, rule: string, l3: string)
    requires IsRule(rule) && AllPlain([l1, l2]) && AllPlain([l3])
    ensures Collect([l1, l2, "", rule, "", l3]) == [l1, l2, "", l3, ""]
  {
    RuleBetweenRunsDropped([l1, l2], rule, [l3]);
    AroundRule(l1, l2, "", rule, l3);
  }

  lemma {:induction false} AroundRule<T>(a: T, b: T, e: T, r: T, c: T)
    ensures [a, b] + [e, r, e] + [c] == [a, b, e, r, e, c]
    ensures [a, b] + [e] + [c] + [e] == [a, b, e, c, e]
  {
  }

  lemma {:induction false} RescanExampleLines(l1: string, l2: string, l3: string)
    requires l1 == "Cloud Region:" && l2 == "us-east" && l3 == "misc stuff"
    ensures AllPlain([l1, l2]) && AllPlain([l3])
  {
    RegionLinePlain(l1);
    RegionValuePlain(l2);
    MiscLinePlain(l3);
    TwoPlain(l1, l2);
  }

  lemma {:induction false} RegionLinePlain(s: string)
    requires s == "Cloud Region:"
    ensures PlainLine(s)
  {
    ShortText(s);
  }

  lemma {:induction false} RegionValuePlain(s: string)
    requires s == "us-east"
    ensures PlainLine(s)
  {
    ShortText(s);
  }

  lemma {:induction false} MiscLinePlain(s: string)
    requires s == "misc stuff"
    ensures PlainLine(s)
  {
    ShortText(s);
  }

  lemma {:induction false} TwoPlain(a: string, b: string)
    requires PlainLine(a) && PlainLine(b)
    ensures AllPlain([a, b])
  {
    Seqs.HoldsOnTwo(PlainLine, a, b);
  }

  /** Twenty-three dashes, the report's group separator, make a rule line. */
  lemma {:induction false} DashesAreRule(rule: string)
    requires rule == "-----------------------"
    ensures IsRule(rule) && !IsBlank(rule)
  {
    TrimByNoop(rule, IsSpace);
    assert Strip(rule) == rule;
    StripEmptyIffBlank(rule);
  }

  /** Outside a table, every non-blank line that is not a rule or the marker
      joins the open section as it is. */
  lemma {:induction false} PlainLineKept(st: ScanState, line: string)
    requires !st.inKv
    requires !IsBlank(line) && !IsRule(line) && !IsMarker(line)
    ensures StepKind(st, KindOf(line), line) == st.(section := st.section + [line])
  {
  }

  /** A rule closes the open section and leaves any table. */
  lemma {:induction false} RuleFlushes(st: ScanState, line: string)
    requires Inv(st)
    requires !IsBlank(line) && IsRule(line)
    ensures StepKind(st, KindOf(line), line) == ScanState(Flush(st.keep, st.section), [], false, false)
  {
  }
}

=== FILE: options.dfy ===
/** Building the job options from the incident payload
    (`build_rundeck_options`, lambda_function.py:768-804) and the auto
    diagnosis preflight over them (lambda_function.py:1106-1108). */
module Options {
  import opened Wrappers
  import opened Text
  import opened Json
  import opened Keys
  import opened Fields
  import Dicts

  /** A path map: payload path to option name, in insertion order. */
  type PathMap = Dicts.Dict<string>

  /** Job options: option name to text. */
  type JobOptions = Dicts.Dict<string>

  const RemediationDefaultOptionMap: PathMap :=
    [("data.custom_fields.environment_orn", "env_orn"), ("data.custom_fields.asset", "asset")]

  const DiagnosisDefaultOptionMap: PathMap :=
    [("data.custom_fields.environment_orn", "env_orn")]

  /** The defaults for a mode: the diagnosis set only for mode `diagnosis`. */
  function BaseMap(mode: string): PathMap {
    if mode == "diagnosis" then DiagnosisDefaultOptionMap else RemediationDefaultOptionMap
  }

  /** `{**base_map, **RUNDECK_OPTION_MAP}` */
  function EffectiveMap(mode: string, overrides: PathMap): PathMap {
    Dicts.Merge(BaseMap(mode), overrides)
  }

  /** Path `src` resolves to a value that is not None. */
  predicate Resolves(body: J, src: string) {
    GetByPath(body, src).Ok? && GetByPath(body, src).value != JNull
  }

  /** Every path of `entries` can be resolved without raising. */
  predicate AllResolvable(body: J, entries: PathMap) {
    forall i :: 0 <= i < |entries| ==> GetByPath(body, entries[i].0).Ok?
  }

  predicate AllSafe(d: JobOptions) {
    forall k :: k in Dicts.Keys(d) ==> SafeKey(k)
  }

  /** The option names that entries with a resolving path produce. */
  function Produced(body: J, entries: PathMap): set<string> {
    Dicts.Image(entries, (src, dest) => Resolves(body, src), DestName)
  }

  /** The option name of a path-map entry: `_sanitize(dest)`. */
  function DestName(src: string, dest: string): string {
    Sanitize(dest)
  }

  /** One entry of the mapping loop: `options[_sanitize(dest)] = str(val)`
      when the path resolves; a path that raises aborts the build. */
  function MapStep(body: J, acc: JobOptions, e: (string, string)): (r: Result<JobOptions>)
    ensures r.Ok? <==> GetByPath(body, e.0).Ok?
    ensures r.Ok? && AllSafe(acc) ==> AllSafe(r.value)
    ensures r.Ok? ==> Dicts.Keys(r.value) == Dicts.Keys(acc) + (if Resolves(body, e.0) then {Sanitize(e.1)} else {})
  {
    var v :- GetByPath(body, e.0);
    if v != JNull then Ok(Dicts.Put(acc, Sanitize(e.1), Str(v))) else Ok(acc)
  }

  /** The mapping loop over the entries of the effective path map. */
  function MapOptions(body: J, entries: PathMap, acc: JobOptions): (r: Result<JobOptions>)
    ensures r.Ok? <==> AllResolvable(body, entries)
    ensures r.Ok? && AllSafe(acc) ==> AllSafe(r.value)
    decreases |entries|
  {
    if entries == [] then Ok(acc)
    else
      var acc' :- MapStep(body, acc, entries[0]);
      assert AllResolvable(body, entries) <==> AllResolvable(body, entries[1..]) by {
        assert forall i :: 0 <= i < |entries[1..]| ==> entries[1..][i] == entries[i + 1];
      }
      MapOptions(body, entries[1..], acc')
  }

  /** Only paths that resolve to something produce options, and each of them
      produces its sanitised option name. */
  lemma {:induction false} MapOptionsKeys(body: J, entries: PathMap, acc: JobOptions)
    requires AllResolvable(body, entries)
    ensures Dicts.Keys(MapOptions(body, entries, acc).value) == Dicts.Keys(acc) + Produced(body, entries)
    decreases |entries|
  {
    if entries != [] {
      var e := entries[0];
      var acc' := MapStep(body, acc, e).value;
      MapOptionsKeys(body, entries[1..], acc');
      Dicts.ImageCons(entries, (src, dest) => Resolves(body, src), DestName);
    }
  }

  /** Appending an entry to the path map runs one more step at the end: the
      later entry overrides what an earlier one wrote under the same name. */
  lemma {:induction false} MapOptionsSnoc(body: J, entries: PathMap, e: (string, string), acc: JobOptions)
    ensures MapOptions(body, entries + [e], acc) ==
      match MapOptions(body, entries, acc)
      case Err(m) => Err(m)
      case Ok(d) => MapStep(body, d, e)
    decreases |entries|
  {
    if entries == [] {
      assert ([] + [e])[1..] == [];
    } else {
      assert (entries + [e])[0] == entries[0];
      assert (entries + [e])[1..] == entries[1..] + [e];
      match MapStep(body, acc, entries[0])
      case Err(_) =>
      case Ok(acc') => MapOptionsSnoc(body, entries[1..], e, acc');
    }
  }

  /** The last entry of the path map, when it resolves, sets its option to
      the printed value. */
  lemma {:induction false} LastEntryWins(body: J, entries: PathMap, e: (string, string), acc: JobOptions)
    requires AllResolvable(body, entries) && Resolves(body, e.0)
    ensures MapOptions(body, entries + [e], acc).Ok?
    ensures Dicts.Get(MapOptions(body, entries + [e], acc).value, Sanitize(e.1)) == Some(Str(GetByPath(body, e.0).value))
  {
    MapOptionsSnoc(body, entries, e, acc);
  }

  /** The pass-through name of a custom field: `f"cf_{_sanitize(slug)}"`. */
  function CfKey(slug: string): string {
    "cf_" + Sanitize(slug)
  }

  /** The pass-through name of a custom-field pair. */
  function CfName(slug: string, value: string): string {
    CfKey(slug)
  }

  /** The pass-through names of all custom fields. */
  function CfKeys(cf: CustomFields): set<string> {
    Dicts.Names(cf, CfName)
  }

  /** The pass-through loop: each custom field is copied under its `cf_`
      name unless an option of that name is already present. */
  function PassThrough(cf: CustomFields, acc: JobOptions): (r: JobOptions)
    ensures forall k :: k in Dicts.Keys(acc) ==> Dicts.Get(r, k) == Dicts.Get(acc, k)
    ensures Dicts.Keys(r) == Dicts.Keys(acc) + CfKeys(cf)
    ensures forall k :: k in CfKeys(cf) && k !in Dicts.Keys(acc) ==>
      Dicts.Get(r, k) == Some(cf[Dicts.FirstNamed(cf, CfName, k)].1)
  {
    Dicts.PutNew(acc, cf, CfName)
  }

  /** A custom field whose `cf_` name is not yet an option, and which no
      earlier field shares that name with, is copied under that name with
      its own value. */
  lemma {:induction false} PassThroughValue(cf: CustomFields, acc: JobOptions, i: nat)
    requires i < |cf|
    requires CfKey(cf[i].0) !in Dicts.Keys(acc)
    requires forall j :: 0 <= j < i ==> CfKey(cf[j].0) != CfKey(cf[i].0)
    ensures Dicts.Get(PassThrough(cf, acc), CfKey(cf[i].0)) == Some(cf[i].1)
  {
    var k := CfKey(cf[i].0);
    assert CfName(cf[i].0, cf[i].1) == k;
    assert k in CfKeys(cf);
    assert Dicts.FirstNamed(cf, CfName, k) == i;
  }

  /** A name the option builder can produce: a sanitised name, or `cf_`
      followed by one. */
  predicate OptionName(k: string) {
    SafeKey(k) || (StartsWith(k, "cf_") && SafeKey(k[3..]))
  }

  lemma {:induction false} CfKeyIsOptionName(slug: string)
    ensures OptionName(CfKey(slug))
  {
    var k := CfKey(slug);
    assert k[..3] == "cf_" && k[3..] == Sanitize(slug);
  }

  lemma {:induction false} CfKeysAreOptionNames(cf: CustomFields)
    ensures forall k :: k in CfKeys(cf) ==> OptionName(k)
  {
    forall k | k in CfKeys(cf)
      ensures OptionName(k)
    {
      var i :| 0 <= i < |cf| && CfName(cf[i].0, cf[i].1) == k;
      CfKeyIsOptionName(cf[i].0);
    }
  }

  /** The custom fields the pass-through copies:
      `normalize_custom_fields((body.get("data") or {}).get("custom_fields"))` */
  function BodyCustomFields(body: J): Result<CustomFields> {
    var data :- DictGet(body, "data");
    var raw :- GetOr(data, "custom_fields");
    NormalizeCustomFields(raw)
  }

  /** The options built from one effective path map. The mapped options are
      never overwritten by the pass-through, and every name is a sanitised
      one. */
  function BuildFrom(body: J, entries: PathMap, passAll: bool): (r: Result<JobOptions>)
    ensures r.Ok? ==> MapOptions(body, entries, []).Ok?
    ensures r.Ok? ==> forall k :: k in Dicts.Keys(r.value) ==> OptionName(k)
    ensures r.Ok? ==> var mapped := MapOptions(body, entries, []).value;
      && Dicts.Keys(mapped) <= Dicts.Keys(r.value)
      && (forall k :: k in Dicts.Keys(mapped) ==> Dicts.Get(r.value, k) == Dicts.Get(mapped, k))
    ensures r.Ok? && passAll ==> BodyCustomFields(body).Ok?
    ensures r.Ok? ==>
      Dicts.Keys(r.value) ==
        Dicts.Keys(MapOptions(body, entries, []).value) +
        (if passAll then CfKeys(BodyCustomFields(body).value) else {})
  {
    var mapped :- MapOptions(body, entries, []);
    if passAll then
      var cf :- BodyCustomFields(body);
      CfKeysAreOptionNames(cf);
      Ok(PassThrough(cf, mapped))
    else Ok(mapped)
  }

  /** `build_rundeck_options(body, mode)` with the override map and the
      pass-all flag as parameters: the options built from the effective
      path map of the mode. */
  function BuildOptions(body: J, mode: string, overrides: PathMap, passAll: bool): Result<JobOptions> {
    BuildFrom(body, EffectiveMap(mode, overrides), passAll)
  }

  /** The options are exactly the names of the resolving paths, plus the
      `cf_` names of the custom fields when pass-all is on. */
  lemma {:induction false} BuildFromKeys(body: J, entries: PathMap, passAll: bool)
    requires BuildFrom(body, entries, passAll).Ok?
    ensures Dicts.Keys(BuildFrom(body, entries, passAll).value) ==
      Produced(body, entries) + (if passAll then CfKeys(BodyCustomFields(body).value) else {})
  {
    MapOptionsKeys(body, entries, []);
  }

  /** With no overrides, the diagnosis options come only from
      `environment_orn`; any other mode also reads `asset`. */
  lemma {:induction false} DefaultMaps(mode: string)
    ensures Dicts.Keys(EffectiveMap(mode, [])) ==
      if mode == "diagnosis" then {"data.custom_fields.environment_orn"}
      else {"data.custom_fields.environment_orn", "data.custom_fields.asset"}
  {
    var b := BaseMap(mode);
    assert EffectiveMap(mode, []) == Dicts.PutAll([], b);
    Dicts.KeysEmpty<string>();
    if mode == "diagnosis" {
      Dicts.KeysCons(b[0], []);
      assert b == [b[0]] + [];
    } else {
      Dicts.KeysCons(b[1], []);
      Dicts.KeysCons(b[0], [b[1]]);
      assert b == [b[0]] + ([b[1]] + []);
    }
  }

  // ---------------------------------------------------------------------
  // Preflight
  // ---------------------------------------------------------------------

  /** `str(options.get(k, "")).strip()` is empty */
  predicate OptionBlank(options: JobOptions, k: string) {
    match Dicts.Get(options, k)
    case None => true
    case Some(v) => IsBlank(v)
  }

  /** `[k for k in required if not str(options.get(k, "")).strip()]` */
  function MissingOptions(required: seq<string>, options: JobOptions): (r: seq<string>)
    ensures |r| <= |required|
    ensures forall k :: k in r <==> k in required && OptionBlank(options, k)
  {
    if required == [] then []
    else
      var rest := MissingOptions(required[1..], options);
      assert forall k :: k in required <==> k == required[0] || k in required[1..];
      if OptionBlank(options, required[0]) then [required[0]] + rest else rest
  }

  /** The missing list keeps the order of the required list: checking two
      lists in turn gives the two missing lists in turn. */
  lemma {:induction false} MissingOptionsAppend(a: seq<string>, b: seq<string>, options: JobOptions)
    ensures MissingOptions(a + b, options) == MissingOptions(a, options) + MissingOptions(b, options)
    decreases |a|
  {
    if a != [] {
      assert (a + b)[0] == a[0];
      assert (a + b)[1..] == a[1..] + b;
      MissingOptionsAppend(a[1..], b, options);
    } else {
      assert a + b == b;
    }
  }
}

=== FILE: router.dfy ===
/** The event router of `lambda_handler` (lambda_function.py:955-1246) and
    `handle_poll_rundeck_event` (lambda_function.py:906-947) as pure
    decisions. The configuration maps and flags are parameters, each
    idempotency guard the handler consults is an input saying whether it was
    granted, and the replies of the job runner come in as the outcomes the
    Rundeck module computes. Notes posted on the incident and mirror tokens
    are side effects and are left out, except for the `ROUTING::` note whose
    category the failure paths compute. */
module Router {
  import opened Wrappers
  import opened Text
  import opened Json
  import Dicts
  import Keys
  import Fields
  import Options
  import Failure
  import Rundeck
  import Guard

  /** The configuration the handler reads. */
  datatype Settings = Settings(
    watchToDiag: Dicts.Dict<string>,
    remediationJobs: Dicts.Dict<string>,
    diagnosisJobs: Dicts.Dict<string>,
    optionOverrides: Options.PathMap,
    passAll: bool,
    required: seq<string>)

  /** Whether the auto-diagnosis gate (`gate:auto:<watch key>`) and the
      duplicate-run guard are granted when the handler asks. */
  datatype Guards = Guards(autoGate: bool, duplicate: bool)

  /** A job picked by routing. */
  datatype Job = Job(jobId: string, mode: string, auto: bool, selector: string, options: Options.JobOptions)

  /** What the handler does with an event. */
  datatype Decision =
    | Respond(status: string)
    | UnknownWatch(watchKey: string)
    | UnknownJob(jobKey: string)
    | Preflight(mode: string, missing: seq<string>)
    | RunPoll(incident: string, execId: string, mode: string, selector: string)
    | Start(incident: string, job: Job)
    | Failed(error: string)

  /** The `status` field of the reply. */
  function Status(d: Decision): string {
    match d
    case Respond(s) => s
    case UnknownWatch(_) => "auto_skip_unknown_watch"
    case UnknownJob(_) => "job_not_found_but_mirrored"
    case Preflight(_, _) => "preflight_validation_error"
    case RunPoll(_, _, _, _) => "poll"
    case Start(_, _) => "start"
    case Failed(_) => "exception"
  }

  /** Only an exception escaping the handler's body answers 500. */
  function StatusCode(d: Decision): int {
    if d.Failed? then 500 else 200
  }

  // ---------------------------------------------------------------------
  // Reading the payload
  // ---------------------------------------------------------------------

  /** `_extract_body(event)`: a string body is parsed (`parse` stands for
      `json.loads`), and one that does not parse is the empty dict. */
  function ExtractBody(event: J, parse: string -> Result<J>): (r: J)
    ensures !event.JObj? ==> r == JObj([])
    ensures event.JObj? && !HasMember(event.fields, "body") ==> r == event
    ensures event.JObj? && HasMember(event.fields, "body") && Member(event.fields, "body").JStr? ==>
      (parse(Member(event.fields, "body").s).Ok? ==> r == parse(Member(event.fields, "body").s).value)
      && (parse(Member(event.fields, "body").s).Err? ==> r == JObj([]))
    ensures event.JObj? && HasMember(event.fields, "body") && !Member(event.fields, "body").JStr? ==>
      (Truthy(Member(event.fields, "body")) ==> r == Member(event.fields, "body"))
      && (!Truthy(Member(event.fields, "body")) ==> r == JObj([]))
  {
    if event.JObj? && HasMember(event.fields, "body") then
      match Member(event.fields, "body")
      case JStr(s) => (match parse(s) case Ok(v) => v case Err(_) => JObj([]))
      case b => if Truthy(b) then b else JObj([])
    else if event.JObj? then event
    else JObj([])
  }

  /** `(v or "").strip()`: only a string (or a falsy value) has `strip`. */
  function StripStr(v: J): (r: Result<string>)
    ensures !Truthy(v) ==> r == Ok("")
    ensures v.JStr? ==> r == Ok(Strip(v.s))
    ensures r.Err? <==> Truthy(v) && !v.JStr?
  {
    if !Truthy(v) then Ok("")
    else if v.JStr? then Ok(Strip(v.s))
    else Err("AttributeError: 'strip' on a non-string value")
  }

  /** `data.get('title', '').strip()`: a title that is present but not a
      string, `None` included, raises. */
  function TitleOf(data: J): (r: Result<string>)
    requires data.JObj?
    ensures !HasMember(data.fields, "title") ==> r == Ok("")
    ensures r.Err? <==> HasMember(data.fields, "title") && !Member(data.fields, "title").JStr?
    ensures Member(data.fields, "title").JStr? ==> r == Ok(Strip(Member(data.fields, "title").s))
  {
    if !HasMember(data.fields, "title") then Ok("")
    else match Member(data.fields, "title")
      case JStr(s) => Ok(Strip(s))
      case _ => Err("AttributeError: 'strip' on a non-string title")
  }

  /** `cf_map.get(k) or ''` */
  function FieldOrEmpty(cf: Fields.CustomFields, k: string): string {
    match Dicts.Get(cf, k)
    case Some(v) => v
    case None => ""
  }

  /** `_norm_key(raw) if raw else ""` */
  function KeyOf(raw: string): (r: string)
    ensures raw == [] ==> r == []
    ensures Keys.Canonical(r)
  {
    if raw == [] then "" else Keys.NormKey(raw)
  }

  /** The normalised watch id. */
  function WatchKey(cf: Fields.CustomFields): string {
    KeyOf(Strip(FieldOrEmpty(cf, "watch_id")))
  }

  /** The normalised manual job key: the remediation field, else the
      diagnosis field. */
  function ManualKey(cf: Fields.CustomFields): string {
    var rem := FieldOrEmpty(cf, "o11_remediation_job");
    KeyOf(Strip(if rem != [] then rem else FieldOrEmpty(cf, "o11_diagnosis_job")))
  }

  // ---------------------------------------------------------------------
  // Choosing the job
  // ---------------------------------------------------------------------

  /** The outcome of the event switch: a job, or a reply. */
  datatype Selection =
    | Selected(jobId: string, mode: string, auto: bool, selector: string)
    | Stopped(d: Decision)

  predicate IsAutoEvent(evType: J) {
    evType == JStr("incident.created") || evType == JStr("auto.diagnosis")
  }

  predicate IsManualEvent(evType: J) {
    evType == JStr("workflow.run")
  }

  /** The event switch of `lambda_handler` (lambda_function.py:1018-1077). */
  function Select(evType: J, watchKey: string, manualKey: string, s: Settings, autoGate: bool): (r: Selection)
    ensures r.Selected? ==> IsAutoEvent(evType) || IsManualEvent(evType)
    ensures r.Selected? && r.auto ==> IsAutoEvent(evType) && autoGate && r.mode == "diagnosis"
    ensures r.Stopped? ==> !r.d.Failed?
    ensures r == Stopped(Respond("ignored_event")) ==> !IsAutoEvent(evType) && !IsManualEvent(evType)
  {
    if IsAutoEvent(evType) then
      if watchKey != [] && watchKey in Dicts.Keys(s.watchToDiag) then
        if !autoGate then Stopped(Respond("auto_already_processed_recently"))
        else Selected(Dicts.Get(s.watchToDiag, watchKey).value, "diagnosis", true, "auto:watch:" + watchKey)
      else Stopped(UnknownWatch(watchKey))
    else if IsManualEvent(evType) then
      if manualKey == [] then Stopped(Respond("ignored_empty_or_missing"))
      else if manualKey in Dicts.Keys(s.remediationJobs) then
        Selected(Dicts.Get(s.remediationJobs, manualKey).value, "remediation", false, "manual:remediation:" + manualKey)
      else if manualKey in Dicts.Keys(s.diagnosisJobs) then
        Selected(Dicts.Get(s.diagnosisJobs, manualKey).value, "diagnosis", false, "manual:diagnosis:" + manualKey)
      else Stopped(UnknownJob(manualKey))
    else Stopped(Respond("ignored_event"))
  }

  /** A manual key is looked up in the remediation map first: a key in
      both maps runs the remediation job. */
  lemma {:induction false} RemediationBeforeDiagnosis(watchKey: string, manualKey: string, s: Settings, autoGate: bool)
    requires manualKey != [] && manualKey in Dicts.Keys(s.remediationJobs)
    ensures Select(JStr("workflow.run"), watchKey, manualKey, s, autoGate) ==
      Selected(Dicts.Get(s.remediationJobs, manualKey).value, "remediation", false, "manual:remediation:" + manualKey)
  {
  }

  /** A manual run picks a job exactly when its key is in one of the two
      maps; otherwise a non-empty key is reported as unknown. */
  lemma {:induction false} ManualKeyResolution(watchKey: string, manualKey: string, s: Settings, autoGate: bool)
    requires manualKey != []
    ensures var r := Select(JStr("workflow.run"), watchKey, manualKey, s, autoGate);
      && (r.Selected? <==> manualKey in Dicts.Keys(s.remediationJobs) || manualKey in Dicts.Keys(s.diagnosisJobs))
      && (r.Stopped? ==> r.d == UnknownJob(manualKey))
  {
  }

  /** Automatic events run the diagnosis job of their watch id, when the
      watch id is known and the gate is granted. */
  lemma {:induction false} AutoSelection(evType: J, watchKey: string, manualKey: string, s: Settings, autoGate: bool)
    requires IsAutoEvent(evType)
    ensures var r := Select(evType, watchKey, manualKey, s, autoGate);
      && (r.Selected? <==> watchKey != [] && watchKey in Dicts.Keys(s.watchToDiag) && autoGate)
      && (r.Selected? ==> r == Selected(Dicts.Get(s.watchToDiag, watchKey).value, "diagnosis", true, "auto:watch:" + watchKey))
      && (watchKey == [] || watchKey !in Dicts.Keys(s.watchToDiag) ==> r == Stopped(UnknownWatch(watchKey)))
  {
  }

  /** Every other event type is ignored. */
  lemma {:induction false} OtherEventsIgnored(evType: J, watchKey: string, manualKey: string, s: Settings, autoGate: bool)
    requires !IsAutoEvent(evType) && !IsManualEvent(evType)
    ensures Select(evType, watchKey, manualKey, s, autoGate) == Stopped(Respond("ignored_event"))
  {
  }

  // ---------------------------------------------------------------------
  // After selection
  // ---------------------------------------------------------------------

  /** `selector or f"{mode}:{manual_key or watch_key or 'unknown'}"`: the
      key of the duplicate-run guard. */
  function GuardKey(selector: string, mode: string, manualKey: string, watchKey: string): (r: string)
    ensures r != []
    ensures selector != [] ==> r == selector
  {
    if selector != [] then selector
    else mode + ":" + (if manualKey != [] then manualKey else if watchKey != [] then watchKey else "unknown")
  }

  /** Every selection carries a non-empty selector (`auto:watch:<key>` or
      `manual:<mode>:<key>`), so the duplicate-run guard key is the selector
      and the fallback key is never built; and that key can never share a
      row with a once-only note's guard. */
  lemma {:induction false} GuardKeyIsSelector(evType: J, watchKey: string, manualKey: string, s: Settings, autoGate: bool,
                                              incident: string, noteKey: string)
    requires '#' !in incident
    ensures var r := Select(evType, watchKey, manualKey, s, autoGate);
      r.Selected? ==>
        && GuardKey(r.selector, r.mode, manualKey, watchKey) == r.selector
        && Guard.GuardPk(incident, Guard.NoteKey(noteKey)) != Guard.GuardPk(incident, r.selector)
  {
    var r := Select(evType, watchKey, manualKey, s, autoGate);
    if r.Selected? {
      assert r.selector[0] == 'a' || r.selector[0] == 'm';
      assert r.selector[..5][0] == r.selector[0];
      Guard.NoteKeysSeparate(incident, noteKey, r.selector);
    }
  }

  /** From a selected job to the start (lambda_function.py:1079-1117): an
      empty job id, a refused duplicate guard, a failed option build or a
      failed preflight each stop the run. */
  function Prepare(body: J, incident: string, sel: Selection, s: Settings, duplicate: bool): (d: Decision)
    requires sel.Selected?
    ensures d.Start? ==> (d.job.jobId != [] && duplicate && d.job.jobId == sel.jobId
                          && d.job.mode == sel.mode && d.job.auto == sel.auto && d.job.selector == sel.selector)
    ensures d.Start? && d.job.auto && d.job.mode == "diagnosis" ==>
      Options.MissingOptions(s.required, d.job.options) == []
    ensures d.Preflight? ==> sel.auto && sel.mode == "diagnosis" && d.missing != []
    ensures !d.Failed? && d != Respond("ignored_event")
  {
    if sel.jobId == [] then Respond("no_job_routed")
    else if !duplicate then Respond("ignored_duplicate")
    else match Options.BuildOptions(body, sel.mode, s.optionOverrides, s.passAll)
      case Err(_) => Respond("options_build_error")
      case Ok(options) =>
        var missing := if sel.auto && sel.mode == "diagnosis" then Options.MissingOptions(s.required, options) else [];
        if missing != [] then Preflight(sel.mode, missing)
        else Start(incident, Job(sel.jobId, sel.mode, sel.auto, sel.selector, options))
  }

  /** The preflight reports exactly the required options that are blank, in
      the order they are required, and the job starts when there are none. */
  lemma {:induction false} PreflightMissing(body: J, incident: string, sel: Selection, s: Settings, options: Options.JobOptions)
    requires sel.Selected? && sel.jobId != [] && sel.auto && sel.mode == "diagnosis"
    requires Options.BuildOptions(body, sel.mode, s.optionOverrides, s.passAll) == Ok(options)
    ensures var d := Prepare(body, incident, sel, s, true);
      && (d.Preflight? <==> Options.MissingOptions(s.required, options) != [])
      && (d.Preflight? ==> d.missing == Options.MissingOptions(s.required, options))
      && (!d.Preflight? ==> d == Start(incident, Job(sel.jobId, sel.mode, true, sel.selector, options)))
  {
  }

  /** A manual run never goes through the preflight. */
  lemma {:induction false} ManualSkipsPreflight(body: J, incident: string, sel: Selection, s: Settings, options: Options.JobOptions)
    requires sel.Selected? && sel.jobId != [] && !sel.auto
    requires Options.BuildOptions(body, sel.mode, s.optionOverrides, s.passAll) == Ok(options)
    ensures Prepare(body, incident, sel, s, true) == Start(incident, Job(sel.jobId, sel.mode, false, sel.selector, options))
  {
  }

  // ---------------------------------------------------------------------
  // The handler
  // ---------------------------------------------------------------------

  /** `(data.get("mode") or "diagnosis").strip() or "diagnosis"`: the mode
      of a continuation, never empty, and `diagnosis` unless a non-blank
      string says otherwise. */
  function PollMode(v: J): (r: Result<string>)
    ensures r.Err? <==> Truthy(v) && !v.JStr?
    ensures r.Ok? ==> r.value != []
    ensures !Truthy(v) ==> r == Ok("diagnosis")
    ensures v.JStr? && Strip(v.s) != [] ==> r == Ok(Strip(v.s))
    ensures v.JStr? && Strip(v.s) == [] ==> r == Ok("diagnosis")
  {
    var mode0 :- if Truthy(v) then StripStr(v) else Ok("diagnosis");
    Ok(if mode0 == [] then "diagnosis" else mode0)
  }

  /** `handle_poll_rundeck_event(body)` up to its poll: the inputs it reads,
      and the reply when one of them is missing. Reading a field raises
      exactly when it holds a truthy non-string. */
  function PollRequest(data: J): (r: Result<Decision>)
    requires data.JObj?
    ensures var id, ex, md, sl :=
        StripStr(Member(data.fields, "id")), StripStr(Member(data.fields, "execution_id")),
        PollMode(Member(data.fields, "mode")), StripStr(Member(data.fields, "selector"));
      && (r.Err? <==> id.Err? || ex.Err? || md.Err? || sl.Err?)
      && (r.Ok? ==> (r.value.RunPoll? <==> id.value != [] && ex.value != []))
      && (r.Ok? && !r.value.RunPoll? ==> r.value == Respond("ignored_poll_missing_inputs"))
      && (r.Ok? && r.value.RunPoll? ==> r.value == RunPoll(id.value, ex.value, md.value, sl.value))
  {
    var incident :- StripStr(Member(data.fields, "id"));
    var execId :- StripStr(Member(data.fields, "execution_id"));
    var mode :- PollMode(Member(data.fields, "mode"));
    var selector :- StripStr(Member(data.fields, "selector"));
    if incident == [] || execId == [] then Ok(Respond("ignored_poll_missing_inputs"))
    else Ok(RunPoll(incident, execId, mode, selector))
  }

  /** A continuation whose four fields are strings polls exactly when the
      stripped incident id and execution id are both non-empty, with the
      stripped values and `diagnosis` for a blank mode. */
  lemma {:induction false} PollRequestOfStrings(fields: seq<(string, J)>, id: string, execId: string, mode: string, selector: string)
    requires Member(fields, "id") == JStr(id) && Member(fields, "execution_id") == JStr(execId)
    requires Member(fields, "mode") == JStr(mode) && Member(fields, "selector") == JStr(selector)
    ensures PollRequest(JObj(fields)) ==
      if Strip(id) == [] || Strip(execId) == [] then Ok(Respond("ignored_poll_missing_inputs"))
      else Ok(RunPoll(Strip(id), Strip(execId), if Strip(mode) == [] then "diagnosis" else Strip(mode), Strip(selector)))
  {
  }

  /** The handler once the envelope is read (lambda_function.py:994-1117):
      the incident id check, the poll hand-off, the event switch and the
      preparation of the job. */
  function Dispatch(body: J, evType: J, incident: string, data: J, watchKey: string, manualKey: string,
                    s: Settings, g: Guards): (r: Result<Decision>)
    requires data.JObj?
    ensures r.Ok? ==> !r.value.Failed?
    ensures r.Ok? && r.value == Respond("ignored_event") ==>
      !IsAutoEvent(evType) && !IsManualEvent(evType)
    ensures r.Ok? && r.value.Start? ==> r.value.incident != [] && r.value.job.jobId != [] && g.duplicate
    ensures r.Ok? && r.value.Start? && r.value.job.auto ==>
      (g.autoGate && r.value.job.mode == "diagnosis" && Options.MissingOptions(s.required, r.value.job.options) == [])
  {
    var isPoll := evType == JStr("poll.rundeck");
    if incident == [] && !isPoll then Ok(Respond("ignored_missing_incident_id"))
    else if isPoll then PollRequest(data)
    else
      var sel := Select(evType, watchKey, manualKey, s, g.autoGate);
      if sel.Stopped? then Ok(sel.d)
      else Ok(Prepare(body, incident, sel, s, g.duplicate))
  }

  /** The envelope: the event type, the `data` dict, the incident id, and the
      custom fields. */
  datatype Envelope = Envelope(evType: J, data: J, incident: string, cf: Fields.CustomFields)

  /** Reading the envelope of a non-empty body (lambda_function.py:980-1000);
      `Err` is an exception, `Ok(None)` the invalid-payload reply. */
  function ReadEnvelope(body: J): (r: Result<Option<Envelope>>)
    ensures r.Ok? && r.value.Some? ==> r.value.value.data.JObj?
    ensures r.Ok? ==> body.JObj?
  {
    var ev :- DictGet(body, "event");
    var evType :- GetOr(ev, "type");
    var isPoll := evType == JStr("poll.rundeck");
    var idAt :- if isPoll then Ok(JStr("")) else Fields.GetByPath(body, "data.id");
    if !isPoll && idAt == JNull then Ok(None)
    else
      var data := if Truthy(Member(body.fields, "data")) then Member(body.fields, "data") else JObj([]);
      var idV :- DictGet(data, "id");
      var incident :- StripStr(idV);
      var _ :- TitleOf(data);
      var cf :- Fields.NormalizeCustomFields(Member(data.fields, "custom_fields"));
      Ok(Some(Envelope(if Truthy(evType) then evType else JStr(""), data, incident, cf)))
  }

  /** The body of the handler's `try` block; `Err` is an exception that
      escapes it. */
  function RouteBody(body: J, s: Settings, g: Guards): (r: Result<Decision>)
    ensures r.Ok? ==> !r.value.Failed?
    ensures r.Ok? && r.value.Start? ==> r.value.incident != [] && r.value.job.jobId != [] && g.duplicate
  {
    if !Truthy(body) then Ok(Respond("ignored_empty_body"))
    else
      var env :- ReadEnvelope(body);
      if env.None? then Ok(Respond("ignored_invalid_payload"))
      else Dispatch(body, env.value.evType, env.value.incident, env.value.data, WatchKey(env.value.cf), ManualKey(env.value.cf), s, g)
  }

  /** The handler's first log line tests `'body' in (event or {})`, outside
      any `try`: for a truthy number or `True` that test raises and no reply
      is made at all. A string or a list answers the test without raising. */
  predicate RaisesBeforeTry(event: J) {
    Truthy(event) && (event.JNum? || event.JBool?)
  }

  /** `lambda_handler(event, context)` up to the start of the job: `Err` is
      an exception that leaves the handler with no reply; an exception that
      escapes the body of the `try` is the 500 reply. */
  function Route(event: J, parse: string -> Result<J>, s: Settings, g: Guards): (r: Result<Decision>)
    ensures r.Err? <==> RaisesBeforeTry(event)
    ensures r.Ok? ==> (StatusCode(r.value) == 500 <==> RouteBody(ExtractBody(event, parse), s, g).Err?)
    ensures r.Ok? && RouteBody(ExtractBody(event, parse), s, g).Ok? ==>
      r.value == RouteBody(ExtractBody(event, parse), s, g).value
  {
    if RaisesBeforeTry(event) then Err("TypeError: argument of type is not iterable")
    else match RouteBody(ExtractBody(event, parse), s, g)
      case Ok(d) => Ok(d)
      case Err(e) => Ok(Failed(e))
  }

  /** An API-gateway wrapper is transparent: an event whose `body` is the
      JSON text of a dict routes exactly as that dict itself would (when the
      dict has no `body` key of its own). */
  lemma {:induction false} GatewayWrapperTransparent(text: string, inner: seq<(string, J)>, parse: string -> Result<J>,
                                                     s: Settings, g: Guards)
    requires parse(text) == Ok(JObj(inner))
    requires !HasMember(inner, "body")
    ensures Route(JObj([("body", JStr(text))]), parse, s, g) == Route(JObj(inner), parse, s, g)
  {
    var wrapper := [("body", JStr(text))];
    assert wrapper[0].0 == "body";
    assert Member(wrapper, "body") == JStr(text);
  }

  /** The envelope of a poll event whose `data` has no id, title or custom
      fields. */
  lemma {:induction false} PollEnvelope(fields: seq<(string, J)>, evFields: seq<(string, J)>, data: seq<(string, J)>)
    requires Member(fields, "event") == JObj(evFields) && Member(evFields, "type") == JStr("poll.rundeck")
    requires Member(fields, "data") == JObj(data)
    requires !HasMember(data, "id") && !HasMember(data, "title") && !HasMember(data, "custom_fields")
    ensures ReadEnvelope(JObj(fields)) == Ok(Some(Envelope(JStr("poll.rundeck"), JObj(data), "", [])))
  {
    assert evFields != [];
    assert Member(data, "custom_fields") == JNull && Member(data, "id") == JNull;
  }

  /** A poll event is not checked for `data.id`: it is handed to the poll
      handler even when the incident id is missing. */
  lemma {:induction false} PollEventSkipsValidation(fields: seq<(string, J)>, evFields: seq<(string, J)>, data: seq<(string, J)>, s: Settings, g: Guards)
    requires Member(fields, "event") == JObj(evFields) && Member(evFields, "type") == JStr("poll.rundeck")
    requires Member(fields, "data") == JObj(data)
    requires !HasMember(data, "id") && !HasMember(data, "title") && !HasMember(data, "custom_fields")
    ensures RouteBody(JObj(fields), s, g) == PollRequest(JObj(data))
  {
    assert fields != [];
    PollEnvelope(fields, evFields, data);
  }

  // ---------------------------------------------------------------------
  // After the start
  // ---------------------------------------------------------------------

  /** How a started job ends: the reply status and the category of the
      `ROUTING::` note posted, if any. */
  datatype Finish = Finish(status: string, routing: Option<Failure.FailureCategory>)

  /** The note posted on an inline or polled failure. */
  function FailedRun(error: string): (f: Finish)
    ensures f.status == "poll_failed_but_mirrored"
    ensures f.routing == Some(Failure.ClassifyFailure(error))
  {
    Finish("poll_failed_but_mirrored", Some(Failure.ClassifyFailure(error)))
  }

  /** The message of a poll that did not complete. */
  function PollError(outcome: Rundeck.PollOutcome, execId: string): string
    requires !outcome.Completed?
  {
    if outcome.TimedOut? then Rundeck.TimeoutMessage(execId) else outcome.error
  }

  /** `(state.get("executionState") or "").lower()` on the completed state. */
  function ExecutionState(state: J): (r: Result<string>)
  {
    var v :- DictGet(state, "executionState");
    if !Truthy(v) then Ok("")
    else if v.JStr? then Ok(Lower(v.s))
    else Err("AttributeError: 'lower' on a non-string state")
  }

  /** The inline branch (no continuation function configured): poll, insist
      on success, fetch, post. Any exception is reported with its failure
      category. */
  function Inline(mode: string, execId: string, poll: Rundeck.PollOutcome, fetched: Result<string>): (f: Finish)
    ensures f.routing.None? <==> poll.Completed? && ExecutionState(poll.state) == Ok("succeeded") && fetched.Ok?
    ensures f.routing.None? ==> f.status == mode + "_posted"
    ensures !poll.Completed? ==> f == FailedRun(PollError(poll, execId))
    ensures poll.Completed? && ExecutionState(poll.state).Err? ==> f == FailedRun(ExecutionState(poll.state).error)
    ensures poll.Completed? && ExecutionState(poll.state).Ok? && ExecutionState(poll.state).value != "succeeded" ==>
      f == FailedRun("RUNDECK_EXECUTION_FAILED::" + ExecutionState(poll.state).value)
    ensures poll.Completed? && ExecutionState(poll.state) == Ok("succeeded") && fetched.Err? ==> f == FailedRun(fetched.error)
  {
    if !poll.Completed? then FailedRun(PollError(poll, execId))
    else match ExecutionState(poll.state)
      case Err(e) => FailedRun(e)
      case Ok(st) =>
        if st != "succeeded" then FailedRun("RUNDECK_EXECUTION_FAILED::" + st)
        else match fetched
          case Err(e) => FailedRun(e)
          case Ok(_) => Finish(mode + "_posted", None)
  }

  /** `handle_poll_rundeck_event` once it polls: unlike the inline branch it
      posts the output whatever state the execution ended in. */
  function PolledRun(execId: string, poll: Rundeck.PollOutcome, fetched: Result<string>): (f: Finish)
    ensures f.status == "poll_posted" <==> poll.Completed? && fetched.Ok?
    ensures f.routing.None? <==> f.status == "poll_posted"
    ensures !poll.Completed? ==> f == FailedRun(PollError(poll, execId))
    ensures poll.Completed? && fetched.Err? ==> f == FailedRun(fetched.error)
  {
    if !poll.Completed? then FailedRun(PollError(poll, execId))
    else match fetched
      case Err(e) => FailedRun(e)
      case Ok(_) => Finish("poll_posted", None)
  }

  /** The continuation and the inline branch agree on every run whose
      execution succeeded or never completed: the same failure note, and a
      post exactly when the inline branch posts. They differ only on a
      completed execution in another state, which the continuation still
      posts. */
  lemma {:induction false} PolledRunMatchesInline(mode: string, execId: string, poll: Rundeck.PollOutcome, fetched: Result<string>)
    requires !poll.Completed? || ExecutionState(poll.state) == Ok("succeeded")
    ensures PolledRun(execId, poll, fetched).routing == Inline(mode, execId, poll, fetched).routing
    ensures PolledRun(execId, poll, fetched).status == "poll_posted" <==>
      Inline(mode, execId, poll, fetched).status == mode + "_posted"
  {
    if poll.Completed? && fetched.Ok? {
      assert Inline(mode, execId, poll, fetched) == Finish(mode + "_posted", None);
    } else {
      assert Inline(mode, execId, poll, fetched).status == "poll_failed_but_mirrored";
      assert mode + "_posted" != "poll_failed_but_mirrored" by {
        PostedNotFailed(mode);
      }
    }
  }

  /** No mode makes the posted status the failure status. */
  lemma {:induction false} PostedNotFailed(mode: string)
    ensures mode + "_posted" != "poll_failed_but_mirrored"
  {
    var s := mode + "_posted";
    if |s| == |"poll_failed_but_mirrored"| {
      assert s[|mode| + 1] == 'p';
      assert "poll_failed_but_mirrored"[|s| - 6] == 'r';
    }
  }

  /** What follows `start_job`: a start error is reported without a
      `ROUTING::` note, an exception of another kind escapes (500), and a
      started job is either handed to the continuation or polled inline. */
  function AfterStart(mode: string, start: Result<Rundeck.StartOutcome>, continuation: bool,
                      poll: Rundeck.PollOutcome, fetched: Result<string>): (r: Result<Finish>)
    ensures start.Ok? && start.value.StartFailed? ==> r == Ok(Finish("rundeck_start_validation_error", None))
    ensures r.Err? <==> start.Err?
    ensures start.Ok? && start.value.Started? && continuation ==> r == Ok(Finish("accepted", None))
    ensures start.Ok? && start.value.Started? && !continuation ==> r == Ok(Inline(mode, start.value.execId, poll, fetched))
  {
    match start
    case Err(e) => Err(e)
    case Ok(StartFailed(_, _)) => Ok(Finish("rundeck_start_validation_error", None))
    case Ok(Started(execId)) =>
      if continuation then Ok(Finish("accepted", None)) else Ok(Inline(mode, execId, poll, fetched))
  }

  /** The guidance posted for a start error: its body, or the status when the
      body is empty. */
  function StartGuidance(status: int, body: string): (r: string)
    ensures body != [] ==> r == body
    ensures r != []
  {
    if body != [] then body else "HTTP " + IntToString(status) + ": (no body)"
  }

  /** An inline run is posted only when the execution succeeded: any other
      final state is a failure whose note names the state. */
  lemma {:induction false} InlineNeedsSuccess(mode: string, execId: string, state: J, st: string, fetched: Result<string>)
    requires ExecutionState(state) == Ok(st) && st != "succeeded"
    ensures Inline(mode, execId, Rundeck.Completed(state), fetched)
      == FailedRun("RUNDECK_EXECUTION_FAILED::" + st)
  {
  }
}

=== FILE: rundeck.dfy ===
/** What the job runner's client makes of the replies it gets
    (`RundeckClient`, lambda_function.py:351-576): starting a job, polling
    its execution until it completes, and turning its log into the text
    posted on the incident. The HTTP exchange itself is left out: each reply
    is an input, with its status, its text, and what `json.loads` makes of
    that text (`Err` carrying the decoder's message when it is not JSON). */
module Rundeck {
  import opened Wrappers
  import opened Text
  import opened Json
  import LogScan
  import Blocks
  import Sections

  /** `raise_for_status()` raises for the client and server error ranges. */
  predicate HttpError(status: int) {
    400 <= status < 600
  }

  /** The message of the `HTTPError` that `raise_for_status()` raises. */
  function HttpErrorMessage(status: int, reason: string, url: string): string {
    IntToString(status) + (if status < 500 then " Client Error: " else " Server Error: ")
      + reason + " for url: " + url
  }

  /** A reply: status line, body text, and the body parsed as JSON. */
  datatype Reply = Reply(status: int, reason: string, text: string, parsed: Result<J>)

  /** `json.loads(text) or {}`: a falsy document reads as the empty dict. */
  function OrEmptyDict(v: J): (r: J)
    ensures Truthy(v) ==> r == v
    ensures !Truthy(v) ==> r == JObj([])
  {
    if Truthy(v) then v else JObj([])
  }

  // ---------------------------------------------------------------------
  // start_job
  // ---------------------------------------------------------------------

  /** `RundeckStartError(status_code, body)` or the execution id. */
  datatype StartOutcome = Started(execId: string) | StartFailed(status: int, body: string)

  const NoIdMessage: string := "Rundeck start succeeded but no execution id in response"

  /** `start_job`'s reading of the reply. A reply that parses to a truthy
      non-dict has no `get` and raises past the client (`Err`). */
  function StartJob(reply: Reply): (r: Result<StartOutcome>)
    ensures HttpError(reply.status) ==> r == Ok(StartFailed(reply.status, reply.text))
    ensures r.Err? <==> (!HttpError(reply.status) && reply.parsed.Ok?
                         && Truthy(reply.parsed.value) && !reply.parsed.value.JObj?)
    ensures r.Ok? && r.value.Started? ==>
      !HttpError(reply.status) && reply.parsed.Ok? && r.value.execId != []
    ensures r.Ok? && r.value.StartFailed? && !HttpError(reply.status) ==> r.value.status == 502
    ensures !HttpError(reply.status) && reply.parsed.Err? ==>
      r == Ok(StartFailed(502, "Invalid JSON response: " + reply.parsed.error))
  {
    if HttpError(reply.status) then Ok(StartFailed(reply.status, reply.text))
    else match reply.parsed
      case Err(msg) => Ok(StartFailed(502, "Invalid JSON response: " + msg))
      case Ok(v) =>
        var id :- DictGet(OrEmptyDict(v), "id");
        var execId := if Truthy(id) then Str(id) else "";
        if execId == [] then Ok(StartFailed(502, NoIdMessage)) else Ok(Started(execId))
  }

  /** A successful reply whose `id` is a non-empty string starts the job
      with exactly that id. */
  lemma {:induction false} StartedWithStringId(status: int, reason: string, text: string, fields: seq<(string, J)>, id: string)
    requires !HttpError(status) && id != []
    requires Member(fields, "id") == JStr(id)
    ensures StartJob(Reply(status, reason, text, Ok(JObj(fields)))) == Ok(Started(id))
  {
  }

  /** A numeric id is printed in decimal; a zero id is falsy and counts as
      missing. */
  lemma {:induction false} StartedWithNumericId(status: int, reason: string, text: string, fields: seq<(string, J)>, n: int)
    requires !HttpError(status)
    requires Member(fields, "id") == JNum(n)
    ensures n != 0 ==> StartJob(Reply(status, reason, text, Ok(JObj(fields)))) == Ok(Started(IntToString(n)))
    ensures n == 0 ==> StartJob(Reply(status, reason, text, Ok(JObj(fields)))) == Ok(StartFailed(502, NoIdMessage))
  {
  }

  /** A successful reply whose document is falsy, or has no usable `id`,
      is a 502 start error. */
  lemma {:induction false} MissingIdIsStartError(status: int, reason: string, text: string, v: J)
    requires !HttpError(status)
    requires !Truthy(v) || (v.JObj? && !Truthy(Member(v.fields, "id")))
    ensures StartJob(Reply(status, reason, text, Ok(v))) == Ok(StartFailed(502, NoIdMessage))
  {
  }

  // ---------------------------------------------------------------------
  // poll_until_done
  // ---------------------------------------------------------------------

  /** How polling ends: the completed state document, the timeout, or an
      exception with its message. */
  datatype PollOutcome = Completed(state: J) | TimedOut | Raised(error: string)

  /** What one poll tick makes of its reply: an exception, the completed
      state, or `None` to go on. */
  function Tick(reply: Reply, url: string): (r: Option<PollOutcome>)
    ensures r.Some? ==> !r.value.TimedOut?
    ensures r.Some? && r.value.Completed? ==>
      !HttpError(reply.status) && reply.parsed.Ok? && r.value.state == reply.parsed.value
    ensures HttpError(reply.status) ==> r == Some(Raised(HttpErrorMessage(reply.status, reply.reason, url)))
    ensures !HttpError(reply.status) && reply.parsed.Err? ==> r == Some(Raised(reply.parsed.error))
    ensures !HttpError(reply.status) && reply.parsed.Ok? && !reply.parsed.value.JObj? ==> r.Some? && r.value.Raised?
    ensures !HttpError(reply.status) && reply.parsed.Ok? && reply.parsed.value.JObj? ==>
      && (Truthy(Member(reply.parsed.value.fields, "completed")) ==> r == Some(Completed(reply.parsed.value)))
      && (!Truthy(Member(reply.parsed.value.fields, "completed")) ==> r == None)
  {
    if HttpError(reply.status) then Some(Raised(HttpErrorMessage(reply.status, reply.reason, url)))
    else match reply.parsed
      case Err(msg) => Some(Raised(msg))
      case Ok(data) =>
        match DictGet(data, "completed")
        case Err(msg) => Some(Raised(msg))
        case Ok(c) => if Truthy(c) then Some(Completed(data)) else None
  }

  /** The tick results of a sequence of replies: `replies(i)` is the reply
      to request `i`. */
  function Ticks(url: string, replies: nat -> Reply): (ticks: nat -> Option<PollOutcome>)
    ensures NoTickTimesOut(ticks)
  {
    var ticks := (i: nat) => Tick(replies(i), url);
    assert forall i: nat :: ticks(i) == Tick(replies(i), url) && (ticks(i).Some? ==> !ticks(i).value.TimedOut?);
    ticks
  }

  /** A tick never reports a timeout itself; only the loop does. */
  ghost predicate NoTickTimesOut(ticks: nat -> Option<PollOutcome>) {
    forall i: nat :: ticks(i) != Some(TimedOut)
  }

  /** The loop from `attempt` on, over the tick results `ticks`. Returns
      the outcome and the number of requests made. */
  function PollFrom(ticks: nat -> Option<PollOutcome>, maxRetries: int, attempt: nat): (r: (PollOutcome, nat))
    requires attempt == 0 || attempt < maxRetries
    requires NoTickTimesOut(ticks)
    ensures attempt <= r.1
    ensures maxRetries <= 0 ==> r == (Completed(JObj([])), 0)
    ensures maxRetries > 0 ==> r.1 <= maxRetries && r.1 > attempt
    ensures r.0.TimedOut? ==> r.1 == maxRetries
    decreases maxRetries - attempt
  {
    if attempt >= maxRetries then (Completed(JObj([])), 0)
    else match ticks(attempt)
      case Some(o) => (o, attempt + 1)
      case None =>
        if attempt == maxRetries - 1 then (TimedOut, attempt + 1)
        else PollFrom(ticks, maxRetries, attempt + 1)
  }

  /** `poll_until_done(execution_id)`: at most `maxRetries` requests. */
  function PollUntilDone(url: string, maxRetries: int, replies: nat -> Reply): (r: (PollOutcome, nat))
    ensures maxRetries > 0 ==> 1 <= r.1 <= maxRetries
    ensures maxRetries <= 0 ==> r == (Completed(JObj([])), 0)
    ensures r.0.TimedOut? ==> r.1 == maxRetries
  {
    PollFrom(Ticks(url, replies), maxRetries, 0)
  }

  /** The message of the timeout. */
  function TimeoutMessage(execId: string): string {
    "Rundeck execution " + execId + " not complete within timeout"
  }

  /** Every tick from `lo` below `hi` goes on. */
  predicate Pending(ticks: nat -> Option<PollOutcome>, lo: nat, hi: nat) {
    forall i: nat :: lo <= i < hi ==> ticks(i).None?
  }

  /** Polling stops at the first tick that does not go on, and reports what
      that tick found. */
  lemma {:induction false} PollFromFirstStop(ticks: nat -> Option<PollOutcome>, maxRetries: int, attempt: nat, k: nat)
    requires attempt <= k < maxRetries && Pending(ticks, attempt, k)
    requires ticks(k).Some? && NoTickTimesOut(ticks)
    ensures PollFrom(ticks, maxRetries, attempt) == (ticks(k).value, k + 1)
    decreases k - attempt
  {
    if attempt < k {
      assert ticks(attempt).None?;
      PollFromFirstStop(ticks, maxRetries, attempt + 1, k);
    }
  }

  /** When every tick goes on, polling times out after exactly `maxRetries`
      requests. */
  lemma {:induction false} PollFromTimesOut(ticks: nat -> Option<PollOutcome>, maxRetries: int, attempt: nat)
    requires attempt < maxRetries && NoTickTimesOut(ticks)
    requires Pending(ticks, attempt, maxRetries)
    ensures PollFrom(ticks, maxRetries, attempt) == (TimedOut, maxRetries)
    decreases maxRetries - attempt
  {
    assert ticks(attempt).None?;
    if attempt < maxRetries - 1 {
      PollFromTimesOut(ticks, maxRetries, attempt + 1);
    }
  }

  /** The first completed (or failing) tick decides the outcome. */
  lemma {:induction false} PollStopsAtFirst(url: string, maxRetries: int, replies: nat -> Reply, k: nat)
    requires k < maxRetries && Pending(Ticks(url, replies), 0, k)
    requires Tick(replies(k), url).Some?
    ensures PollUntilDone(url, maxRetries, replies) == (Tick(replies(k), url).value, k + 1)
  {
    PollFromFirstStop(Ticks(url, replies), maxRetries, 0, k);
  }

  /** Polling times out exactly when all `maxRetries` ticks go on. */
  lemma {:induction false} PollTimesOutIffAllPending(url: string, maxRetries: int, replies: nat -> Reply)
    requires maxRetries > 0
    ensures PollUntilDone(url, maxRetries, replies).0.TimedOut? <==> Pending(Ticks(url, replies), 0, maxRetries)
  {
    var ticks := Ticks(url, replies);
    if Pending(ticks, 0, maxRetries) {
      PollFromTimesOut(ticks, maxRetries, 0);
    } else {
      var k := FirstStop(ticks, 0, maxRetries);
      PollFromFirstStop(ticks, maxRetries, 0, k);
    }
  }

  /** The first tick in `lo..hi` that does not go on, given that there is one. */
  function FirstStop(ticks: nat -> Option<PollOutcome>, lo: nat, hi: nat): (k: nat)
    requires lo <= hi && !Pending(ticks, lo, hi)
    ensures lo <= k < hi && Pending(ticks, lo, k) && ticks(k).Some?
    decreases hi - lo
  {
    if ticks(lo).Some? then lo
    else FirstStop(ticks, lo + 1, hi)
  }

  // ---------------------------------------------------------------------
  // fetch_output
  // ---------------------------------------------------------------------

  /** Characters kept of a reply that is not JSON. */
  const RawOutputLimit: nat := 8000

  /** `s[:n]` */
  function Take(s: string, n: nat): (r: string)
    ensures |r| <= n && |r| <= |s|
    ensures r == s[..|r|]
    ensures |s| <= n ==> r == s
    ensures |s| > n ==> r == s[..n]
  {
    if |s| <= n then s else s[..n]
  }

  /** What `for e in entries` iterates over: a list's items, a dict's keys,
      a string's characters; anything else is not iterable. */
  function Items(v: J): (r: Result<seq<J>>)
    ensures v.JArr? ==> r == Ok(v.items)
    ensures r.Err? <==> v.JNull? || v.JBool? || v.JNum?
  {
    match v
    case JArr(items) => Ok(items)
    case JObj(fields) => Ok(seq(|fields|, i requires 0 <= i < |fields| => JStr(fields[i].0)))
    case JStr(s) => Ok(seq(|s|, i requires 0 <= i < |s| => JStr([s[i]])))
    case _ => Err("TypeError: object is not iterable")
  }

  /** `(e or {}).get("log", "")`, which must be a string for `re.sub`. */
  function LogOf(e: J): (r: Result<string>)
    ensures !Truthy(e) ==> r == Ok("")
    ensures e.JObj? && !HasMember(e.fields, "log") ==> r == Ok("")
    ensures e.JObj? && Member(e.fields, "log").JStr? ==> r == Ok(Member(e.fields, "log").s)
    ensures r.Ok? ==> !Truthy(e) || e.JObj?
    ensures r.Err? <==> Truthy(e) && (!e.JObj? || (HasMember(e.fields, "log") && !Member(e.fields, "log").JStr?))
  {
    if !Truthy(e) then Ok("")
    else if !e.JObj? then Err("AttributeError: 'get' on a non-dict entry")
    else if !HasMember(e.fields, "log") then Ok("")
    else match Member(e.fields, "log")
      case JStr(s) => Ok(s)
      case _ => Err("TypeError: expected string or bytes-like object")
  }

  /** One log entry cleaned: the time stamp stripped, then `_clean_line`. */
  function CleanEntry(raw: string, unwrap: string -> Option<string>): string {
    LogScan.CleanLine(LogScan.StripTimestamp(raw), unwrap)
  }

  /** `CleanEntry` as a function value. */
  function Cleaner(unwrap: string -> Option<string>): string -> string {
    raw => CleanEntry(raw, unwrap)
  }

  /** The logs of the entries, each passed through `clean`, in order; the
      first entry that is not a dict or whose log is not a string stops the
      loop. */
  function EntryLines(entries: seq<J>, clean: string -> string): (r: Result<seq<string>>)
    ensures r.Ok? ==> |r.value| == |entries|
    ensures r.Ok? ==> forall i :: 0 <= i < |entries| ==>
      LogOf(entries[i]).Ok? && r.value[i] == clean(LogOf(entries[i]).value)
    ensures r.Err? ==> exists i :: 0 <= i < |entries| && LogOf(entries[i]).Err?
  {
    if entries == [] then Ok([])
    else
      var raw :- LogOf(entries[0]);
      match EntryLines(entries[1..], clean)
      case Err(e) =>
        LaterBadEntry(entries);
        Err(e)
      case Ok(rest) =>
        LinesCons(entries, clean, rest);
        Ok([clean(raw)] + rest)
  }

  /** An entry without a log after the first is an entry without a log. */
  lemma {:induction false} LaterBadEntry(entries: seq<J>)
    requires entries != []
    requires exists i :: 0 <= i < |entries[1..]| && LogOf(entries[1..][i]).Err?
    ensures exists i :: 0 <= i < |entries| && LogOf(entries[i]).Err?
  {
    var i :| 0 <= i < |entries[1..]| && LogOf(entries[1..][i]).Err?;
    assert entries[i + 1] == entries[1..][i];
  }

  /** The cleaned log of the first entry in front of the cleaned logs of
      the others are the cleaned logs of all the entries. */
  lemma {:induction false} LinesCons(entries: seq<J>, clean: string -> string, rest: seq<string>)
    requires entries != [] && LogOf(entries[0]).Ok?
    requires |rest| == |entries| - 1
    requires forall i :: 0 <= i < |entries[1..]| ==>
      LogOf(entries[1..][i]).Ok? && rest[i] == clean(LogOf(entries[1..][i]).value)
    ensures forall i :: 0 <= i < |entries| ==>
      LogOf(entries[i]).Ok? && ([clean(LogOf(entries[0]).value)] + rest)[i] == clean(LogOf(entries[i]).value)
  {
    forall i | 0 < i < |entries|
      ensures LogOf(entries[i]).Ok? && ([clean(LogOf(entries[0]).value)] + rest)[i] == clean(LogOf(entries[i]).value)
    {
      assert entries[i] == entries[1..][i - 1];
    }
  }

  /** The pure pipeline over the cleaned lines: the scan, then block and
      section de-duplication and the grouped rendering. */
  function Pipeline(lines: seq<string>): string {
    Sections.SectionStage(Blocks.Normalize(LogScan.Collect(lines)))
  }

  /** The cleaned lines of the document's `entries`, read as
      `(j or {}).get("entries", []) or []`. */
  function OutputLines(v: J, unwrap: string -> Option<string>): (r: Result<seq<string>>)
    ensures r.Ok? ==> OrEmptyDict(v).JObj?
  {
    var got :- DictGet(OrEmptyDict(v), "entries");
    var entries :- Items(if Truthy(got) then got else JArr([]));
    EntryLines(entries, Cleaner(unwrap))
  }

  /** `fetch_output(execution_id)` on the reply it gets. */
  function FetchOutput(reply: Reply, url: string, unwrap: string -> Option<string>): (r: Result<string>)
    ensures HttpError(reply.status) ==> r == Err(HttpErrorMessage(reply.status, reply.reason, url))
    ensures !HttpError(reply.status) && reply.parsed.Err? ==>
      r == Ok(Take(Strip(reply.text), RawOutputLimit))
    ensures !HttpError(reply.status) && reply.parsed.Ok? && r.Ok? ==> OrEmptyDict(reply.parsed.value).JObj?
  {
    if HttpError(reply.status) then Err(HttpErrorMessage(reply.status, reply.reason, url))
    else match reply.parsed
      case Err(_) => Ok(Take(Strip(reply.text), RawOutputLimit))
      case Ok(v) =>
        var lines :- OutputLines(v, unwrap);
        Ok(Pipeline(lines))
  }

  /** A reply that is not JSON is passed on stripped and cut to 8000
      characters: the result is the stripped text when it fits, and its
      first 8000 characters otherwise. */
  lemma {:induction false} RawOutputIsPrefix(reply: Reply, url: string, unwrap: string -> Option<string>)
    requires !HttpError(reply.status) && reply.parsed.Err?
    ensures var r := FetchOutput(reply, url, unwrap);
      && r.Ok? && |r.value| <= RawOutputLimit && r.value <= Strip(reply.text)
      && (|Strip(reply.text)| <= RawOutputLimit ==> r.value == Strip(reply.text))
      && (|Strip(reply.text)| > RawOutputLimit ==> r.value == Strip(reply.text)[..RawOutputLimit])
  {
  }

  /** A document with a list of entries whose logs are all strings (or
      absent) yields the cleaned log lines of its entries, in order. */
  lemma {:induction false} OutputLinesOfEntries(fields: seq<(string, J)>, entries: seq<J>, unwrap: string -> Option<string>)
    requires Member(fields, "entries") == JArr(entries)
    requires forall i :: 0 <= i < |entries| ==> LogOf(entries[i]).Ok?
    ensures OutputLines(JObj(fields), unwrap) == EntryLines(entries, Cleaner(unwrap))
    ensures EntryLines(entries, Cleaner(unwrap)).Ok?
  {
    assert fields != [];
    assert DictGet(OrEmptyDict(JObj(fields)), "entries") == Ok(JArr(entries));
    assert Items(if Truthy(JArr(entries)) then JArr(entries) else JArr([])) == Ok(entries);
    EntryLinesOk(entries, Cleaner(unwrap));
  }

  /** A well-formed reply yields the pipeline's text over the cleaned log
      lines of its entries. */
  lemma {:induction false} FetchOutputOfEntries(reply: Reply, url: string, unwrap: string -> Option<string>,
                             fields: seq<(string, J)>, entries: seq<J>)
    requires !HttpError(reply.status) && reply.parsed == Ok(JObj(fields))
    requires Member(fields, "entries") == JArr(entries)
    requires forall i :: 0 <= i < |entries| ==> LogOf(entries[i]).Ok?
    ensures EntryLines(entries, Cleaner(unwrap)).Ok?
    ensures FetchOutput(reply, url, unwrap) == Ok(Pipeline(EntryLines(entries, Cleaner(unwrap)).value))
  {
    OutputLinesOfEntries(fields, entries, unwrap);
  }

  lemma {:induction false} EntryLinesOk(entries: seq<J>, clean: string -> string)
    requires forall i :: 0 <= i < |entries| ==> LogOf(entries[i]).Ok?
    ensures EntryLines(entries, clean).Ok?
  {
    if entries != [] {
      assert LogOf(entries[0]).Ok?;
      EntryLinesOk(entries[1..], clean);
    }
  }

  /** No log lines give no text. */
  lemma {:induction false} PipelineEmpty()
    ensures Pipeline([]) == ""
  {
    assert LogScan.Collect([]) == [];
    Blocks.NormalizeEmpty();
    Sections.SectionStageEmpty();
  }

  /** A document without entries (missing, `null` or empty) gives empty
      text. */
  lemma {:induction false} NoEntriesNoText(reply: Reply, url: string, unwrap: string -> Option<string>, fields: seq<(string, J)>)
    requires !HttpError(reply.status) && reply.parsed == Ok(JObj(fields))
    requires !Truthy(Member(fields, "entries"))
    ensures FetchOutput(reply, url, unwrap) == Ok("")
  {
    assert OutputLines(JObj(fields), unwrap) == Ok([]);
    PipelineEmpty();
  }
}

=== FILE: sections.dfy ===
/** The section stage of the output normaliser (`RundeckClient.fetch_output`,
    lambda_function.py:499-570): the normalised text is cut into sections
    at known header lines, only the first section of each header survives,
    and the sections are rendered group by group in a fixed order with a
    separator line between groups. */
module Sections {
  import opened Text
  import Seqs

  // ---------------------------------------------------------------------
  // Cutting the text into sections
  // ---------------------------------------------------------------------

  /** `SECTION_START.match(ln.strip())`: one of the four fixed headers, or
      `details for ` followed by at least one character, ignoring case. */
  predicate IsSectionStart(ln: string) {
    var t := Lower(Strip(ln));
    || t == "cloud account id:"
    || t == "cloud region:"
    || t == "frontends of the environment:"
    || t == "database of the environment:"
    || (StartsWith(t, "details for ") && |t| > 12)
  }

  /** A grouping of lines as the loop builds it: no group is empty, every
      group after the first opens with a header line, and no header line
      sits anywhere but at the head of a group. */
  predicate WellCut(groups: seq<seq<string>>, h: string -> bool) {
    && (forall i :: 0 <= i < |groups| ==> groups[i] != [])
    && (forall i :: 0 < i < |groups| ==> h(groups[i][0]))
    && (forall i, j :: 0 <= i < |groups| && 0 < j < |groups[i]| ==> !h(groups[i][j]))
  }

  /** The loop `if SECTION_START.match(ln.strip()) and cur: cut; cur.append(ln)`
      followed by the final `if cur: cut`, for the header test `h`: a new
      group starts at every header line except the first line. */
  function Segment(lines: seq<string>, h: string -> bool): (groups: seq<seq<string>>)
    ensures Seqs.Flatten(groups) == lines
    ensures WellCut(groups, h)
    ensures lines != [] ==> groups != []
    decreases |lines|
  {
    if lines == [] then []
    else
      var rest := Segment(lines[1..], h);
      if rest != [] && !h(rest[0][0]) then
        var g := [lines[0]] + rest[0];
        var groups := [g] + rest[1..];
        SegmentMerge(lines, rest, h);
        groups
      else
        var groups := [[lines[0]]] + rest;
        SegmentNew(lines, rest, h);
        groups
  }

  lemma {:induction false} FlattenCons(g: seq<string>, rest: seq<seq<string>>)
    ensures Seqs.Flatten([g] + rest) == g + Seqs.Flatten(rest)
  {
    assert ([g] + rest)[1..] == rest;
  }

  /** A line that is not a header can join the first group. */
  lemma {:induction false} WellCutJoin(x: string, rest: seq<seq<string>>, h: string -> bool)
    requires WellCut(rest, h) && rest != [] && !h(rest[0][0])
    ensures WellCut([[x] + rest[0]] + rest[1..], h)
  {
    var groups := [[x] + rest[0]] + rest[1..];
    forall i, j | 0 <= i < |groups| && 0 < j < |groups[i]|
      ensures !h(groups[i][j])
    {
      if i == 0 {
        assert groups[0][j] == rest[0][j - 1];
      } else {
        assert groups[i] == rest[i];
      }
    }
    forall i | 0 < i < |groups|
      ensures h(groups[i][0])
    {
      assert groups[i] == rest[i];
    }
  }

  /** Any line can open a group of its own before groups that open with a
      header. */
  lemma {:induction false} WellCutOpen(x: string, rest: seq<seq<string>>, h: string -> bool)
    requires WellCut(rest, h) && (rest == [] || h(rest[0][0]))
    ensures WellCut([[x]] + rest, h)
  {
    var groups := [[x]] + rest;
    forall i | 0 < i < |groups|
      ensures h(groups[i][0])
    {
      assert groups[i] == rest[i - 1];
    }
    forall i, j | 0 <= i < |groups| && 0 < j < |groups[i]|
      ensures !h(groups[i][j])
    {
      assert groups[i] == rest[i - 1];
    }
  }

  /** Dropping the first line of a first group that has more. */
  lemma {:induction false} WellCutBehead(groups: seq<seq<string>>, h: string -> bool)
    requires WellCut(groups, h) && groups != [] && |groups[0]| >= 2
    ensures WellCut([groups[0][1..]] + groups[1..], h)
  {
    var groups' := [groups[0][1..]] + groups[1..];
    forall i, j | 0 <= i < |groups'| && 0 < j < |groups'[i]|
      ensures !h(groups'[i][j])
    {
      if i == 0 {
        assert groups'[0][j] == groups[0][j + 1];
      } else {
        assert groups'[i] == groups[i];
      }
    }
    forall i | 0 < i < |groups'|
      ensures h(groups'[i][0])
    {
      assert groups'[i] == groups[i];
    }
  }

  /** Dropping the first group. */
  lemma {:induction false} WellCutTail(groups: seq<seq<string>>, h: string -> bool)
    requires WellCut(groups, h) && groups != []
    ensures WellCut(groups[1..], h)
    ensures |groups| > 1 ==> h(groups[1..][0][0])
  {
    forall i | 0 < i < |groups[1..]|
      ensures h(groups[1..][i][0])
    {
      assert groups[1..][i] == groups[i + 1];
    }
    forall i, j | 0 <= i < |groups[1..]| && 0 < j < |groups[1..][i]|
      ensures !h(groups[1..][i][j])
    {
      assert groups[1..][i] == groups[i + 1];
    }
  }

  lemma {:induction false} SegmentMerge(lines: seq<string>, rest: seq<seq<string>>, h: string -> bool)
    requires lines != [] && Seqs.Flatten(rest) == lines[1..] && WellCut(rest, h)
    requires rest != [] && !h(rest[0][0])
    ensures var groups := [[lines[0]] + rest[0]] + rest[1..];
      Seqs.Flatten(groups) == lines && WellCut(groups, h)
  {
    FlattenCons(rest[0], rest[1..]);
    assert [rest[0]] + rest[1..] == rest;
    FlattenCons([lines[0]] + rest[0], rest[1..]);
    assert [lines[0]] + lines[1..] == lines;
    WellCutJoin(lines[0], rest, h);
  }

  lemma {:induction false} SegmentNew(lines: seq<string>, rest: seq<seq<string>>, h: string -> bool)
    requires lines != [] && Seqs.Flatten(rest) == lines[1..] && WellCut(rest, h)
    requires rest == [] || h(rest[0][0])
    ensures var groups := [[lines[0]]] + rest;
      Seqs.Flatten(groups) == lines && WellCut(groups, h)
  {
    FlattenCons([lines[0]], rest);
    assert [lines[0]] + lines[1..] == lines;
    WellCutOpen(lines[0], rest, h);
  }

  /** The cut is the only one with these properties: any well-cut grouping
      of the lines is the one the loop builds. */
  lemma {:induction false} SegmentUnique(lines: seq<string>, groups: seq<seq<string>>, h: string -> bool)
    requires Seqs.Flatten(groups) == lines && WellCut(groups, h)
    ensures groups == Segment(lines, h)
    decreases |lines|, |groups|
  {
    if groups == [] {
    } else if lines == [] {
      assert false;
    } else {
      var g := groups[0];
      FlattenCons(g, groups[1..]);
      assert [g] + groups[1..] == groups;
      assert g[0] == lines[0];
      var tail := g[1..];
      if tail != [] {
        var groups' := [tail] + groups[1..];
        FlattenCons(tail, groups[1..]);
        assert g == [lines[0]] + tail;
        assert lines[1..] == tail + Seqs.Flatten(groups[1..]);
        WellCutBehead(groups, h);
        SegmentUnique(lines[1..], groups', h);
        assert !h(g[1]);
      } else {
        assert g == [lines[0]];
        assert lines[1..] == Seqs.Flatten(groups[1..]);
        WellCutTail(groups, h);
        SegmentUnique(lines[1..], groups[1..], h);
      }
    }
  }

  /** `"\n".join(cur).strip()` for each group. */
  function SectionTexts(groups: seq<seq<string>>): (r: seq<string>)
    ensures |r| == |groups|
  {
    Seqs.Map(groups, (g: seq<string>) => Strip(Join(g, "\n")))
  }

  /** The sections of the normalised text; there is always at least one,
      because splitting never yields an empty list of lines. */
  function SplitSections(out: string): (r: seq<string>)
    ensures |r| >= 1
  {
    SectionTexts(Segment(Split(out, '\n'), IsSectionStart))
  }

  // ---------------------------------------------------------------------
  // First section of each header
  // ---------------------------------------------------------------------

  /** `sec.split("\n", 1)[0]` */
  function FirstLine(sec: string): string {
    Split(sec, '\n')[0]
  }

  /** `re.sub(r'\s+', ' ', first_line.strip().lower())` */
  function HeaderKey(sec: string): string {
    CollapseSpaces(Lower(Strip(FirstLine(sec))))
  }

  /** The sections, keeping only the first of each normalised first line. */
  function KeptSections(out: string): (r: seq<string>)
    ensures Seqs.DistinctKeys(r, HeaderKey)
    ensures forall i :: 0 <= i < |r| ==> r[i] in SplitSections(out)
    ensures Seqs.KeySet(r, HeaderKey) == Seqs.KeySet(SplitSections(out), HeaderKey)
  {
    Seqs.DedupeBy(SplitSections(out), HeaderKey)
  }

  /** The first section with a given header wins: every kept section is the
      first section of the text with its normalised first line. */
  lemma {:induction false} KeptSectionIsFirst(out: string, i: nat)
    requires i < |KeptSections(out)|
    ensures var secs := SplitSections(out);
      var f := Seqs.FirstWithKey(secs, HeaderKey, HeaderKey(KeptSections(out)[i]));
      f < |secs| && secs[f] == KeptSections(out)[i]
  {
    Seqs.DedupeByFirst(SplitSections(out), HeaderKey, i);
  }

  // ---------------------------------------------------------------------
  // Groups
  // ---------------------------------------------------------------------

  datatype Group = Acct | Fe | Iis | Db | Misc

  /** The order groups are rendered in. */
  const Order: seq<Group> := [Acct, Fe, Iis, Db, Misc]

  function Rank(g: Group): nat {
    match g
    case Acct => 0
    case Fe => 1
    case Iis => 2
    case Db => 3
    case Misc => 4
  }

  /** `classify(header)` on the lower-cased, stripped header line. */
  function ClassifyHeader(h: string): Group {
    if StartsWith(h, "cloud account id:") || StartsWith(h, "cloud region:") then Acct
    else if StartsWith(h, "frontends of the environment:") then Fe
    else if StartsWith(h, "details for") && (Contains(h, "last 15m") || Contains(h, "bucket aggregation of 1m")) then Iis
    else if StartsWith(h, "details for") && (Contains(h, "2m") || Contains(h, "30m")) then Fe
    else if StartsWith(h, "database of the environment:") || StartsWith(h, "details for db") then Db
    else Misc
  }

  /** The group of a section, decided by its first line. */
  function GroupOf(sec: string): Group {
    ClassifyHeader(Lower(Strip(FirstLine(sec))))
  }

  /** A `details for` header naming an IIS window is an IIS section even
      when it also names a frontend window or a database: the IIS test comes
      first. */
  lemma {:induction false} IisBeforeFrontendAndDb(h: string)
    requires StartsWith(h, "details for") && Contains(h, "last 15m")
    requires !StartsWith(h, "cloud account id:") && !StartsWith(h, "cloud region:")
    requires !StartsWith(h, "frontends of the environment:")
    ensures ClassifyHeader(h) == Iis
  {
  }

  /** A header that none of the tests recognise is a misc section. */
  lemma {:induction false} UnknownHeaderIsMisc(h: string)
    requires !StartsWith(h, "cloud account id:") && !StartsWith(h, "cloud region:")
    requires !StartsWith(h, "frontends of the environment:")
    requires !StartsWith(h, "details for")
    requires !StartsWith(h, "database of the environment:")
    ensures ClassifyHeader(h) == Misc
  {
  }

  /** The sections that `cls` puts in group `g`, in order. */
  function MembersBy(secs: seq<string>, cls: string -> Group, g: Group): (r: seq<string>)
    ensures |r| <= |secs|
    ensures forall i :: 0 <= i < |r| ==> cls(r[i]) == g && r[i] in secs
    ensures forall i :: 0 <= i < |secs| && cls(secs[i]) == g ==> secs[i] in r
  {
    Seqs.Filter(secs, s => cls(s) == g)
  }

  /** `groups[g]`: the sections of group `g`, in order. */
  function Members(secs: seq<string>, g: Group): seq<string> {
    MembersBy(secs, GroupOf, g)
  }

  lemma {:induction false} MembersByCons(secs: seq<string>, cls: string -> Group, g: Group)
    requires secs != []
    ensures MembersBy(secs, cls, g) ==
      (if cls(secs[0]) == g then [secs[0]] else []) + MembersBy(secs[1..], cls, g)
  {
  }

  /** The groups are a partition: each section lands in exactly one of the
      five groups, so together they hold as many sections as there are. */
  lemma {:induction false} PartitionBy(secs: seq<string>, cls: string -> Group)
    ensures |MembersBy(secs, cls, Acct)| + |MembersBy(secs, cls, Fe)| + |MembersBy(secs, cls, Iis)|
      + |MembersBy(secs, cls, Db)| + |MembersBy(secs, cls, Misc)| == |secs|
    decreases |secs|
  {
    if secs != [] {
      MembersByCons(secs, cls, Acct);
      MembersByCons(secs, cls, Fe);
      MembersByCons(secs, cls, Iis);
      MembersByCons(secs, cls, Db);
      MembersByCons(secs, cls, Misc);
      PartitionBy(secs[1..], cls);
    }
  }

  /** Every section is rendered in exactly one group, the one its header
      selects; unrecognised headers go to misc rather than being dropped. */
  lemma {:induction false} MembersPartition(secs: seq<string>)
    ensures |Members(secs, Acct)| + |Members(secs, Fe)| + |Members(secs, Iis)|
      + |Members(secs, Db)| + |Members(secs, Misc)| == |secs|
    ensures forall i :: 0 <= i < |secs| ==> secs[i] in Members(secs, GroupOf(secs[i]))
  {
    PartitionBy(secs, GroupOf);
  }

  /** The groups in `order` for which `has` holds. */
  function ShownBy(order: seq<Group>, has: Group -> bool): (r: seq<Group>)
    ensures |r| <= |order|
    ensures forall g :: g in r <==> g in order && has(g)
    decreases |order|
  {
    if order == [] then []
    else
      var rest := ShownBy(order[1..], has);
      if has(order[0]) then [order[0]] + rest else rest
  }

  /** Ranks strictly increase along `gs`. */
  predicate Ascending(gs: seq<Group>) {
    forall i, j :: 0 <= i < j < |gs| ==> Rank(gs[i]) < Rank(gs[j])
  }

  /** Groups keep the rendering order: ranks strictly increase. */
  lemma {:induction false} ShownByOrdered(order: seq<Group>, has: Group -> bool)
    requires Ascending(order)
    ensures Ascending(ShownBy(order, has))
    decreases |order|
  {
    if order != [] {
      AscendingTail(order);
      ShownByOrdered(order[1..], has);
      var rest := ShownBy(order[1..], has);
      if has(order[0]) {
        assert ShownBy(order, has) == [order[0]] + rest;
        AscendingCons(order[0], rest);
      } else {
        assert ShownBy(order, has) == rest;
      }
    }
  }

  /** The tail of an ascending list is ascending, and every group in it ranks
      above the head. */
  lemma {:induction false} AscendingTail(order: seq<Group>)
    requires Ascending(order) && order != []
    ensures Ascending(order[1..])
    ensures forall g :: g in order[1..] ==> Rank(order[0]) < Rank(g)
  {
    forall g | g in order[1..] ensures Rank(order[0]) < Rank(g) {
      var k :| 0 <= k < |order[1..]| && order[1..][k] == g;
      assert order[k + 1] == g;
    }
  }

  /** A group ranking below every group of an ascending list can lead it. */
  lemma {:induction false} AscendingCons(x: Group, rest: seq<Group>)
    requires Ascending(rest)
    requires forall g :: g in rest ==> Rank(x) < Rank(g)
    ensures Ascending([x] + rest)
  {
    var r := [x] + rest;
    forall i, j | 0 <= i < j < |r| ensures Rank(r[i]) < Rank(r[j]) {
      assert r[j] == rest[j - 1] && rest[j - 1] in rest;
      if i > 0 {
        assert r[i] == rest[i - 1];
      }
    }
  }

  /** Every group appears in the rendering order. */
  lemma {:induction false} InOrder(g: Group)
    ensures g in Order
  {
    match g
    case Acct => assert Order[0] == g;
    case Fe => assert Order[1] == g;
    case Iis => assert Order[2] == g;
    case Db => assert Order[3] == g;
    case Misc => assert Order[4] == g;
  }

  /** Over the rendering order, `ShownBy` keeps exactly the groups for which
      `has` holds, with ranks strictly increasing. */
  lemma {:induction false} ShownByOrder(has: Group -> bool)
    ensures forall g :: g in ShownBy(Order, has) <==> has(g)
    ensures Ascending(ShownBy(Order, has))
  {
    ShownByOrdered(Order, has);
    forall g ensures g in Order { InOrder(g); }
  }

  /** The groups that have members, in rendering order. */
  function Shown(secs: seq<string>): (r: seq<Group>) {
    ShownBy(Order, NonEmpty(secs))
  }

  /** Whether a group has a section. */
  function NonEmpty(secs: seq<string>): Group -> bool {
    g => Members(secs, g) != []
  }

  /** A group is rendered exactly when it has a section, and the rendered
      groups follow the order account, frontend, IIS, database, misc. */
  lemma {:induction false} ShownGroups(secs: seq<string>)
    ensures forall g :: g in Shown(secs) <==> Members(secs, g) != []
    ensures Ascending(Shown(secs))
  {
    ShownByOrder(NonEmpty(secs));
  }

  /** No section is dropped: the group its header selects, misc for an
      unrecognised header, is rendered and holds it. */
  lemma {:induction false} SectionNeverDropped(secs: seq<string>, i: nat)
    requires i < |secs|
    ensures GroupOf(secs[i]) in Shown(secs)
    ensures secs[i] in Members(secs, GroupOf(secs[i]))
  {
    MembersPartition(secs);
    ShownGroups(secs);
  }

  /** Over the rendering order, a shown account group comes first and a
      shown misc group last. */
  lemma {:induction false} ShownByEnds(has: Group -> bool)
    ensures has(Acct) ==> ShownBy(Order, has)[0] == Acct
    ensures has(Misc) ==> ShownBy(Order, has)[|ShownBy(Order, has)| - 1] == Misc
  {
    ShownByOrder(has);
    var r := ShownBy(Order, has);
    if has(Acct) {
      AscendingFirst(r);
    }
    if has(Misc) {
      AscendingLast(r);
    }
  }

  /** An ascending list holding the account group starts with it. */
  lemma {:induction false} AscendingFirst(r: seq<Group>)
    requires Ascending(r) && Acct in r
    ensures r[0] == Acct
  {
    var k :| 0 <= k < |r| && r[k] == Acct;
    assert k == 0 || Rank(r[0]) < Rank(r[k]);
    assert Rank(r[0]) <= Rank(r[k]);
  }

  /** An ascending list holding the misc group ends with it. */
  lemma {:induction false} AscendingLast(r: seq<Group>)
    requires Ascending(r) && Misc in r
    ensures r[|r| - 1] == Misc
  {
    var k :| 0 <= k < |r| && r[k] == Misc;
    assert k == |r| - 1 || Rank(r[k]) < Rank(r[|r| - 1]);
    assert Rank(r[k]) <= Rank(r[|r| - 1]);
  }

  /** Account sections, when there are any, are rendered first, and misc
      sections, when there are any, last. */
  lemma {:induction false} AccountFirstMiscLast(secs: seq<string>)
    ensures Members(secs, Acct) != [] ==> Shown(secs)[0] == Acct
    ensures Members(secs, Misc) != [] ==> Shown(secs)[|Shown(secs)| - 1] == Misc
  {
    ShownByEnds(NonEmpty(secs));
  }

  /** `"\n\n".join(xs).strip()` */
  function JoinGroup(xs: seq<string>): string {
    Strip(Join(xs, "\n\n"))
  }

  /** One rendered block per group shown. */
  function GroupBlocks(secs: seq<string>, gs: seq<Group>): (r: seq<string>)
    ensures |r| == |gs|
    ensures forall i :: 0 <= i < |gs| ==> r[i] == JoinGroup(Members(secs, gs[i]))
  {
    Seqs.Map(gs, g => JoinGroup(Members(secs, g)))
  }

  const Sep: string := "\n\n-----------------------\n\n"

  /** `SEP.join(ordered_text_blocks).strip()` */
  function Render(secs: seq<string>): string {
    Strip(Join(GroupBlocks(secs, Shown(secs)), Sep))
  }

  /** A group's block, where it sits in the rendered text. */
  lemma {:induction false} BlockInRender(secs: seq<string>, g: Group) returns (k: nat, p: nat)
    requires JoinGroup(Members(secs, g)) != []
    ensures p < |Shown(secs)| && Shown(secs)[p] == g
    ensures At(Render(secs), JoinGroup(Members(secs, g)), k)
    ensures k == JoinOffset(GroupBlocks(secs, Shown(secs)), Sep, p) - Lead(Join(GroupBlocks(secs, Shown(secs)), Sep))
  {
    var block := JoinGroup(Members(secs, g));
    p := ShownIndex(secs, g);
    var bs := GroupBlocks(secs, Shown(secs));
    assert bs[p] == block && Trimmed(block) by {
      StripTrimmed(Join(Members(secs, g), "\n\n"));
    }
    k := AtStripJoin(bs, Sep, p, block);
  }

  /** Where a group with a non-empty block sits among the groups shown. */
  lemma {:induction false} ShownIndex(secs: seq<string>, g: Group) returns (p: nat)
    requires JoinGroup(Members(secs, g)) != []
    ensures p < |Shown(secs)| && Shown(secs)[p] == g
  {
    ShownGroups(secs);
    assert Members(secs, g) != [];
    p :| 0 <= p < |Shown(secs)| && Shown(secs)[p] == g;
  }

  /** Every section of a shown group appears in the rendered text: the
      sections are stripped, so neither strip cuts into one. */
  lemma {:induction false} RenderKeepsSections(secs: seq<string>, i: nat)
    requires i < |secs| && Trimmed(secs[i])
    ensures Contains(Render(secs), secs[i])
  {
    var sec := secs[i];
    if sec == [] {
      AtContains(Render(secs), sec, 0);
    } else {
      var g := GroupOf(sec);
      var ms := Members(secs, g);
      assert sec in ms by {
        SectionNeverDropped(secs, i);
      }
      var m :| 0 <= m < |ms| && ms[m] == sec;
      var q := MemberInBlock(ms, m);
      var k, _ := BlockInRender(secs, g);
      AtTrans(Render(secs), JoinGroup(ms), sec, k, q);
      AtContains(Render(secs), sec, k + q);
    }
  }

  /** A non-empty stripped section sits inside its group's block. */
  lemma {:induction false} MemberInBlock(xs: seq<string>, m: nat) returns (q: nat)
    requires m < |xs| && xs[m] != [] && Trimmed(xs[m])
    ensures At(JoinGroup(xs), xs[m], q)
    ensures JoinGroup(xs) != []
  {
    var j := JoinOffset(xs, "\n\n", m);
    AtStrip(Join(xs, "\n\n"), xs[m], j);
    q := j - Lead(Join(xs, "\n\n"));
  }

  /** In an ascending list, a lower rank sits at a lower index. */
  lemma {:induction false} AscendingIndex(gs: seq<Group>, p1: nat, p2: nat)
    requires Ascending(gs) && p1 < |gs| && p2 < |gs| && Rank(gs[p1]) < Rank(gs[p2])
    ensures p1 < p2
  {
  }

  /** Blocks come out in group order: the block of a group that ranks
      before another is rendered before it, a separator line apart. */
  lemma {:induction false} RenderGroupOrder(secs: seq<string>, g1: Group, g2: Group)
    requires Rank(g1) < Rank(g2)
    requires JoinGroup(Members(secs, g1)) != [] && JoinGroup(Members(secs, g2)) != []
    ensures exists k1: nat, ks: nat, k2: nat ::
      && At(Render(secs), JoinGroup(Members(secs, g1)), k1)
      && ks == k1 + |JoinGroup(Members(secs, g1))| && At(Render(secs), Sep, ks)
      && At(Render(secs), JoinGroup(Members(secs, g2)), k2)
      && ks + |Sep| <= k2
  {
    var k1, ks, k2 := GroupsInRender(secs, g1, g2);
  }

  /** The offsets of two shown groups' blocks and of the separator after
      the first. */
  lemma {:induction false} GroupsInRender(secs: seq<string>, g1: Group, g2: Group) returns (k1: nat, ks: nat, k2: nat)
    requires Rank(g1) < Rank(g2)
    requires JoinGroup(Members(secs, g1)) != [] && JoinGroup(Members(secs, g2)) != []
    ensures At(Render(secs), JoinGroup(Members(secs, g1)), k1)
    ensures ks == k1 + |JoinGroup(Members(secs, g1))| && At(Render(secs), Sep, ks)
    ensures At(Render(secs), JoinGroup(Members(secs, g2)), k2)
    ensures ks + |Sep| <= k2
  {
    var p1, p2;
    k1, p1 := BlockInRender(secs, g1);
    k2, p2 := BlockInRender(secs, g2);
    assert p1 < p2 by {
      ShownGroups(secs);
      AscendingIndex(Shown(secs), p1, p2);
    }
    var bs := GroupBlocks(secs, Shown(secs));
    assert bs[p1] == JoinGroup(Members(secs, g1)) && bs[p2] == JoinGroup(Members(secs, g2));
    assert Trimmed(bs[p1]) && Trimmed(bs[p2]) by {
      StripTrimmed(Join(Members(secs, g1), "\n\n"));
      StripTrimmed(Join(Members(secs, g2), "\n\n"));
    }
    ks := SepBetweenBlocks(bs, Sep, p1, p2);
    assert Render(secs) == Strip(Join(bs, Sep));
  }

  /** Between two non-empty trimmed parts, `sep.join(parts).strip()` holds
      the separator right after the first of them. */
  lemma {:induction false} SepBetweenBlocks(bs: seq<string>, sep: string, p1: nat, p2: nat) returns (k: nat)
    requires p1 < p2 < |bs|
    requires bs[p1] != [] && Trimmed(bs[p1]) && bs[p2] != [] && Trimmed(bs[p2])
    ensures Lead(Join(bs, sep)) <= JoinOffset(bs, sep, p1)
    ensures k == JoinOffset(bs, sep, p1) - Lead(Join(bs, sep)) + |bs[p1]|
    ensures k + |sep| <= JoinOffset(bs, sep, p2) - Lead(Join(bs, sep))
    ensures At(Strip(Join(bs, sep)), sep, k)
  {
    var j := Join(bs, sep);
    var o1, o2 := JoinOffset(bs, sep, p1), JoinOffset(bs, sep, p2);
    JoinOffsetOrder(bs, sep, p1, p2);
    JoinSepAfter(bs, sep, p1);
    AtFirst(j, bs[p1], o1);
    AtFirst(j, bs[p2], o2);
    AtStripInterior(j, sep, o1 + |bs[p1]|, o1, o2);
    k := o1 + |bs[p1]| - Lead(j);
  }

  /** The section stage as a whole. */
  function SectionStage(out: string): string {
    Render(KeptSections(out))
  }

  /** Every section the stage keeps appears in its output. */
  lemma {:induction false} SectionStageKeepsSections(out: string, i: nat)
    requires i < |KeptSections(out)|
    ensures Contains(SectionStage(out), KeptSections(out)[i])
  {
    var sec := KeptSections(out)[i];
    var groups := Segment(Split(out, '\n'), IsSectionStart);
    var j :| 0 <= j < |SplitSections(out)| && SplitSections(out)[j] == sec;
    assert sec == Strip(Join(groups[j], "\n"));
    StripTrimmed(Join(groups[j], "\n"));
    RenderKeepsSections(KeptSections(out), i);
  }

  /** Empty text is one blank section. */
  lemma {:induction false} SplitSectionsEmpty()
    ensures KeptSections("") == [""]
  {
    assert Split("", '\n') == [""];
    assert Segment([""], IsSectionStart) == [[""]];
    assert SplitSections("") == [""];
    assert Seqs.DedupeBy([""], HeaderKey) == [""];
  }

  /** A lone blank section is a misc section, and the only group shown. */
  lemma {:induction false} BlankSectionShown()
    ensures Shown([""]) == [Misc]
  {
    assert GroupOf("") == Misc;
    forall g ensures NonEmpty([""])(g) <==> g == Misc {
      MembersByCons([""], GroupOf, g);
    }
    ShownByOnlyMisc(NonEmpty([""]));
  }

  /** When only misc has sections, only misc is shown. */
  lemma {:induction false} ShownByOnlyMisc(has: Group -> bool)
    requires forall g :: has(g) <==> g == Misc
    ensures ShownBy(Order, has) == [Misc]
  {
    assert ShownBy([Misc], has) == [Misc];
    assert ShownBy([Db, Misc], has) == [Misc];
    assert ShownBy([Iis, Db, Misc], has) == [Misc];
    assert ShownBy([Fe, Iis, Db, Misc], has) == [Misc];
  }

  /** Empty text renders as empty text: its one blank section is a misc
      section and renders as nothing. */
  lemma {:induction false} SectionStageEmpty()
    ensures SectionStage("") == ""
  {
    SplitSectionsEmpty();
    BlankSectionRendersEmpty();
  }

  /** A lone blank section renders as nothing. */
  lemma {:induction false} BlankSectionRendersEmpty()
    ensures Render([""]) == ""
  {
    BlankSectionBlocks();
    assert Join([""], Sep) == "";
  }

  /** A lone blank section gives one empty block. */
  lemma {:induction false} BlankSectionBlocks()
    ensures GroupBlocks([""], Shown([""])) == [""]
  {
    BlankSectionShown();
    assert Members([""], Misc) == [""];
    assert JoinGroup([""]) == "";
  }
}

=== FILE: seqs.dfy ===
/** Sequence operations the output normaliser is built from: adjacent
    de-duplication, first-occurrence de-duplication by a key, and
    flattening. */
module Seqs {

  function Flatten(xss: seq<seq<string>>): seq<string> {
    if xss == [] then [] else xss[0] + Flatten(xss[1..])
  }

  lemma {:induction false} FlattenAppend(a: seq<seq<string>>, b: seq<seq<string>>)
    ensures Flatten(a + b) == Flatten(a) + Flatten(b)
    decreases |a|
  {
    if a == [] {
      assert a + b == b;
    } else {
      assert (a + b)[0] == a[0] && (a + b)[1..] == a[1..] + b;
      FlattenAppend(a[1..], b);
    }
  }

  predicate NoAdjacentRepeats(xs: seq<string>) {
    forall i :: 0 <= i < |xs| - 1 ==> xs[i] != xs[i + 1]
  }

  /** Drops every entry equal to the one kept just before it. */
  function DedupeAdjacent(xs: seq<string>): (r: seq<string>)
    ensures |r| <= |xs|
    ensures NoAdjacentRepeats(r)
    ensures forall s :: s in r <==> s in xs
    ensures xs != [] ==> r != [] && r[0] == xs[0]
  {
    if |xs| <= 1 then xs
    else if xs[0] == xs[1] then DedupeAdjacent(xs[1..])
    else
      var rest := DedupeAdjacent(xs[1..]);
      assert forall s :: s in xs <==> s == xs[0] || s in xs[1..];
      [xs[0]] + rest
  }

  /** A list with no adjacent repeats is left as it is; hence the
      de-duplication is idempotent. */
  lemma {:induction false} DedupeAdjacentFixed(xs: seq<string>)
    requires NoAdjacentRepeats(xs)
    ensures DedupeAdjacent(xs) == xs
  {
    if |xs| > 1 {
      DedupeAdjacentFixed(xs[1..]);
      assert xs == [xs[0]] + xs[1..];
    }
  }

  /** A run of equal entries keeps one copy. */
  lemma {:induction false} DedupeAdjacentRun(s: string, n: nat, rest: seq<string>)
    requires n >= 1
    requires rest == [] || rest[0] != s
    ensures DedupeAdjacent(seq(n, _ => s) + rest) == [s] + DedupeAdjacent(rest)
    decreases n
  {
    var xs := seq(n, _ => s) + rest;
    if n == 1 {
      assert xs == [s] + rest;
      if rest != [] {
        assert xs[1..] == rest;
      }
    } else {
      assert xs[1..] == seq(n - 1, _ => s) + rest;
      DedupeAdjacentRun(s, n - 1, rest);
    }
  }

  /** The keys of the entries of `xs`. */
  function KeySet(xs: seq<string>, key: string -> string): set<string> {
    set i | 0 <= i < |xs| :: key(xs[i])
  }

  lemma {:induction false} KeySetCons(xs: seq<string>, key: string -> string)
    requires xs != []
    ensures KeySet(xs, key) == {key(xs[0])} + KeySet(xs[1..], key)
  {
    forall k | k in KeySet(xs, key)
      ensures k in {key(xs[0])} + KeySet(xs[1..], key)
    {
      var i :| 0 <= i < |xs| && key(xs[i]) == k;
      if i > 0 {
        assert xs[1..][i - 1] == xs[i];
      }
    }
    forall k | k in KeySet(xs[1..], key)
      ensures k in KeySet(xs, key)
    {
      var i :| 0 <= i < |xs[1..]| && key(xs[1..][i]) == k;
      assert xs[1..][i] == xs[i + 1];
    }
  }

  predicate DistinctKeys(r: seq<string>, key: string -> string) {
    forall i, j :: 0 <= i < j < |r| ==> key(r[i]) != key(r[j])
  }

  /** The loop `if key not in seen: seen.add(key); uniq.append(x)` started
      with the keys in `seen` already taken. */
  function DedupeFrom(xs: seq<string>, key: string -> string, seen: set<string>): (r: seq<string>)
    ensures |r| <= |xs|
    ensures DistinctKeys(r, key)
    ensures forall i :: 0 <= i < |r| ==> key(r[i]) !in seen
    decreases |xs|
  {
    if xs == [] then []
    else
      var k := key(xs[0]);
      if k in seen then DedupeFrom(xs[1..], key, seen)
      else [xs[0]] + DedupeFrom(xs[1..], key, seen + {k})
  }

  /** What the loop keeps: entries of the input, one for every key not
      taken in advance. */
  lemma {:induction false} DedupeFromContent(xs: seq<string>, key: string -> string, seen: set<string>)
    ensures var r := DedupeFrom(xs, key, seen);
      (forall i :: 0 <= i < |r| ==> r[i] in xs) && KeySet(r, key) == KeySet(xs, key) - seen
    decreases |xs|
  {
    if xs != [] {
      KeySetCons(xs, key);
      var k := key(xs[0]);
      if k in seen {
        DedupeFromContent(xs[1..], key, seen);
      } else {
        var rest := DedupeFrom(xs[1..], key, seen + {k});
        DedupeFromContent(xs[1..], key, seen + {k});
        KeySetCons([xs[0]] + rest, key);
        assert ([xs[0]] + rest)[1..] == rest;
      }
    }
  }

  /** One step of the loop: the head is kept exactly when its key is new. */
  lemma {:induction false} DedupeFromCons(x: string, xs: seq<string>, key: string -> string, seen: set<string>)
    ensures DedupeFrom([x] + xs, key, seen) ==
      if key(x) in seen then DedupeFrom(xs, key, seen) else [x] + DedupeFrom(xs, key, seen + {key(x)})
  {
    assert ([x] + xs)[0] == x && ([x] + xs)[1..] == xs;
  }

  /** Appending to a prefix that grew by `x` exactly when `full` starts
      with `x`. */
  lemma {:induction false} Shift(p: seq<string>, p': seq<string>, x: string, taken: bool,
                                 d: seq<string>, full: seq<string>, r: seq<string>)
    requires full == if taken then d else [x] + d
    requires p' == p + (if taken then [] else [x])
    requires r == p' + d
    ensures r == p + full
  {
    if taken {
      assert p + [] == p;
    } else {
      assert (p + [x]) + d == p + ([x] + d);
    }
  }

  /** Keeps the first entry of each key, in order. */
  function DedupeBy(xs: seq<string>, key: string -> string): (r: seq<string>)
    ensures |r| <= |xs|
    ensures DistinctKeys(r, key)
    ensures forall i :: 0 <= i < |r| ==> r[i] in xs
    ensures KeySet(r, key) == KeySet(xs, key)
    ensures Ordered(xs, key, r)
  {
    var r := DedupeFrom(xs, key, {});
    DedupeFromContent(xs, key, {});
    DedupeFromOrdered(xs, key, {});
    r
  }

  /** The entries of `r` come in the order their keys first occur in `xs`. */
  predicate Ordered(xs: seq<string>, key: string -> string, r: seq<string>) {
    forall i, j :: 0 <= i < j < |r| ==> FirstWithKey(xs, key, key(r[i])) < FirstWithKey(xs, key, key(r[j]))
  }

  /** The identity, as a key function: de-duplication of plain strings. */
  function Id(s: string): string {
    s
  }

  /** Past a first entry with another key, the search moves one step on. */
  lemma {:induction false} FirstWithKeyTail(xs: seq<string>, key: string -> string, k: string)
    requires xs != [] && key(xs[0]) != k
    ensures FirstWithKey(xs, key, k) == 1 + FirstWithKey(xs[1..], key, k)
  {
  }

  /** Kept entries come in the order their keys first occur in the input. */
  lemma {:induction false} DedupeFromOrdered(xs: seq<string>, key: string -> string, seen: set<string>)
    ensures Ordered(xs, key, DedupeFrom(xs, key, seen))
    decreases |xs|
  {
    if xs != [] {
      var k := key(xs[0]);
      var r := DedupeFrom(xs, key, seen);
      var seen' := if k in seen then seen else seen + {k};
      var rest := DedupeFrom(xs[1..], key, seen');
      DedupeFromOrdered(xs[1..], key, seen');
      var off := if k in seen then 0 else 1;
      assert r == if k in seen then rest else [xs[0]] + rest;
      forall i, j | 0 <= i < j < |r|
        ensures FirstWithKey(xs, key, key(r[i])) < FirstWithKey(xs, key, key(r[j]))
      {
        var rj := rest[j - off];
        assert r[j] == rj && key(rj) !in seen';
        FirstWithKeyTail(xs, key, key(rj));
        if i >= off {
          var ri := rest[i - off];
          assert r[i] == ri && key(ri) !in seen';
          FirstWithKeyTail(xs, key, key(ri));
          assert FirstWithKey(xs[1..], key, key(ri)) < FirstWithKey(xs[1..], key, key(rj));
        } else {
          assert r[i] == xs[0];
        }
      }
    }
  }

  /** De-duplicating a concatenation: the second part starts with the keys
      of the first part already taken. */
  lemma {:induction false} DedupeFromAppend(a: seq<string>, b: seq<string>, key: string -> string, seen: set<string>)
    ensures DedupeFrom(a + b, key, seen) == DedupeFrom(a, key, seen) + DedupeFrom(b, key, seen + KeySet(a, key))
    decreases |a|
  {
    if a == [] {
      assert a + b == b;
      assert KeySet(a, key) == {};
      assert seen + KeySet(a, key) == seen;
    } else {
      var k, t := key(a[0]), a[1..];
      assert (a + b)[0] == a[0] && (a + b)[1..] == t + b;
      KeySetCons(a, key);
      if k in seen {
        assert DedupeFrom(a + b, key, seen) == DedupeFrom(t + b, key, seen);
        DedupeFromAppend(t, b, key, seen);
        assert seen + KeySet(a, key) == seen + KeySet(t, key);
      } else {
        var x, y := DedupeFrom(t, key, seen + {k}), DedupeFrom(b, key, seen + KeySet(a, key));
        assert DedupeFrom(a + b, key, seen) == [a[0]] + DedupeFrom(t + b, key, seen + {k});
        DedupeFromAppend(t, b, key, seen + {k});
        assert seen + {k} + KeySet(t, key) == seen + KeySet(a, key);
        assert [a[0]] + (x + y) == ([a[0]] + x) + y;
      }
    }
  }

  /** One more entry is kept exactly when its key is new, and goes last. */
  lemma {:induction false} DedupeBySnoc(xs: seq<string>, x: string, key: string -> string)
    ensures DedupeBy(xs + [x], key) == DedupeBy(xs, key) + (if key(x) in KeySet(xs, key) then [] else [x])
  {
    DedupeFromAppend(xs, [x], key, {});
    assert [x][0] == x && [x][1..] == [];
    assert {} + KeySet(xs, key) == KeySet(xs, key);
  }

  /** Position of the first entry with key `k`, or `|xs|`. */
  function FirstWithKey(xs: seq<string>, key: string -> string, k: string): (i: nat)
    ensures i <= |xs|
    ensures i < |xs| ==> key(xs[i]) == k
    ensures forall j :: 0 <= j < i ==> key(xs[j]) != k
  {
    if xs == [] then 0
    else if key(xs[0]) == k then 0
    else 1 + FirstWithKey(xs[1..], key, k)
  }

  /** The first occurrence wins: every kept entry is the first entry of the
      input with its key. */
  lemma {:induction false} DedupeFromFirst(xs: seq<string>, key: string -> string, seen: set<string>, i: nat)
    requires i < |DedupeFrom(xs, key, seen)|
    ensures var r := DedupeFrom(xs, key, seen);
      var f := FirstWithKey(xs, key, key(r[i]));
      f < |xs| && xs[f] == r[i]
    decreases |xs|
  {
    var r := DedupeFrom(xs, key, seen);
    var k := key(xs[0]);
    if k in seen {
      DedupeFromFirst(xs[1..], key, seen, i);
      assert key(r[i]) != k;
    } else if i > 0 {
      var rest := DedupeFrom(xs[1..], key, seen + {k});
      assert r[i] == rest[i - 1];
      DedupeFromFirst(xs[1..], key, seen + {k}, i - 1);
      assert key(r[i]) != k;
    }
  }

  lemma {:induction false} DedupeByFirst(xs: seq<string>, key: string -> string, i: nat)
    requires i < |DedupeBy(xs, key)|
    ensures var r := DedupeBy(xs, key);
      var f := FirstWithKey(xs, key, key(r[i]));
      f < |xs| && xs[f] == r[i]
  {
    DedupeFromFirst(xs, key, {}, i);
  }

  /** Applies `f` to every entry. */
  function Map<A, B>(xs: seq<A>, f: A -> B): (r: seq<B>)
    ensures |r| == |xs|
    ensures forall i :: 0 <= i < |xs| ==> r[i] == f(xs[i])
  {
    if xs == [] then [] else [f(xs[0])] + Map(xs[1..], f)
  }

  /** A property of each of three values holds across their sequence. */
  lemma {:induction false} HoldsOnThree<T>(p: T -> bool, a: T, b: T, c: T)
    requires p(a) && p(b) && p(c)
    ensures forall i :: 0 <= i < |[a, b, c]| ==> p([a, b, c][i])
  {
    var xs := [a, b, c];
    forall i | 0 <= i < |xs| ensures p(xs[i]) {
      assert xs[i] == a || xs[i] == b || xs[i] == c;
    }
  }

  /** A property of each of two values holds across their sequence. */
  lemma {:induction false} HoldsOnTwo<T>(p: T -> bool, a: T, b: T)
    requires p(a) && p(b)
    ensures forall i :: 0 <= i < |[a, b]| ==> p([a, b][i])
  {
    var xs := [a, b];
    forall i | 0 <= i < |xs| ensures p(xs[i]) {
      assert xs[i] == a || xs[i] == b;
    }
  }

  /** Entries with a predicate, in order. */
  function Filter(xs: seq<string>, p: string -> bool): (r: seq<string>)
    ensures |r| <= |xs|
    ensures forall i :: 0 <= i < |r| ==> p(r[i]) && r[i] in xs
    ensures forall i :: 0 <= i < |xs| && p(xs[i]) ==> xs[i] in r
  {
    if xs == [] then []
    else
      var rest := Filter(xs[1..], p);
      assert forall i :: 0 < i < |xs| ==> xs[i] == xs[1..][i - 1];
      if p(xs[0]) then [xs[0]] + rest else rest
  }

  /** The indices, from `lo` on, of the entries with a predicate, in
      increasing order: exactly those indices. */
  function KeptFrom(xs: seq<string>, p: string -> bool, lo: nat): (ks: seq<nat>)
    requires lo <= |xs|
    ensures forall i :: 0 <= i < |ks| ==> lo <= ks[i] < |xs| && p(xs[ks[i]])
    ensures forall i, j :: 0 <= i < j < |ks| ==> ks[i] < ks[j]
    ensures forall i :: lo <= i < |xs| && p(xs[i]) ==> i in ks
    decreases |xs| - lo
  {
    if lo == |xs| then []
    else
      var rest := KeptFrom(xs, p, lo + 1);
      if p(xs[lo]) then [lo] + rest else rest
  }

  /** `Filter` picks the entries at the kept indices: the filtered list is
      the input restricted to exactly the entries with the predicate, with
      their order kept. */
  lemma {:induction false} FilterPicks(xs: seq<string>, p: string -> bool, lo: nat)
    requires lo <= |xs|
    ensures var ks := KeptFrom(xs, p, lo);
      |Filter(xs[lo..], p)| == |ks| && forall i :: 0 <= i < |ks| ==> Filter(xs[lo..], p)[i] == xs[ks[i]]
    decreases |xs| - lo
  {
    if lo < |xs| {
      FilterPicks(xs, p, lo + 1);
      FilterStep(xs, p, lo);
      var f, f' := Filter(xs[lo..], p), Filter(xs[lo + 1..], p);
      var ks, ks' := KeptFrom(xs, p, lo), KeptFrom(xs, p, lo + 1);
      if p(xs[lo]) {
        assert f == [xs[lo]] + f' && ks == [lo] + ks';
        forall i | 0 <= i < |ks| ensures f[i] == xs[ks[i]] {
          if i > 0 {
            assert f[i] == f'[i - 1] && ks[i] == ks'[i - 1];
          }
        }
      } else {
        assert f == f' && ks == ks';
      }
    }
  }

  /** One step of `Filter` from position `lo`. */
  lemma {:induction false} FilterStep(xs: seq<string>, p: string -> bool, lo: nat)
    requires lo < |xs|
    ensures Filter(xs[lo..], p) == (if p(xs[lo]) then [xs[lo]] else []) + Filter(xs[lo + 1..], p)
  {
    assert xs[lo..][0] == xs[lo] && xs[lo..][1..] == xs[lo + 1..];
    if !p(xs[lo]) {
      assert [] + Filter(xs[lo + 1..], p) == Filter(xs[lo + 1..], p);
    }
  }

  /** Filtering splits over concatenation. */
  lemma {:induction false} FilterAppend(a: seq<string>, b: seq<string>, p: string -> bool)
    ensures Filter(a + b, p) == Filter(a, p) + Filter(b, p)
    decreases |a|
  {
    if a == [] {
      assert a + b == b;
    } else {
      assert (a + b)[0] == a[0] && (a + b)[1..] == a[1..] + b;
      FilterAppend(a[1..], b, p);
    }
  }
}

=== FILE: text.dfy ===
/** String primitives with the meaning Python gives them in the bridge:
    `str.lower`, `str.strip`/`rstrip`, `str.split`/`join`, `in` on strings,
    `startswith`, `isdigit`, `re.sub(r'\s+', ' ', …)` and `str(int)`.

    Only ASCII is modelled: white space is the six ASCII white-space
    characters, `lower` maps `A`-`Z` only and a digit is `0`-`9`. */
module Text {

  predicate IsSpace(c: char) {
    c == ' ' || c == '\t' || c == '\n' || c == '\r' || c == '\U{000B}' || c == '\U{000C}'
  }

  predicate IsDigit(c: char) {
    '0' <= c <= '9'
  }

  predicate IsLowerLetter(c: char) {
    'a' <= c <= 'z'
  }

  predicate IsUpperLetter(c: char) {
    'A' <= c <= 'Z'
  }

  function LowerChar(c: char): char {
    if IsUpperLetter(c) then (c as int - 'A' as int + 'a' as int) as char else c
  }

  /** `s.lower()` */
  function Lower(s: string): (r: string)
    ensures |r| == |s|
    ensures forall i :: 0 <= i < |s| ==> r[i] == LowerChar(s[i])
  {
    if s == [] then [] else [LowerChar(s[0])] + Lower(s[1..])
  }

  lemma {:induction false} LowerNoop(s: string)
    requires forall i :: 0 <= i < |s| ==> !IsUpperLetter(s[i])
    ensures Lower(s) == s
  {
  }

  /** Lower-casing works character by character. */
  lemma {:induction false} LowerAppend(u: string, v: string)
    ensures Lower(u + v) == Lower(u) + Lower(v)
  {
    var x, y := Lower(u + v), Lower(u) + Lower(v);
    assert |x| == |y|;
    forall i | 0 <= i < |x| ensures x[i] == y[i] {
      if i < |u| {
        assert x[i] == LowerChar((u + v)[i]) && (u + v)[i] == u[i];
        assert y[i] == Lower(u)[i];
      } else {
        assert x[i] == LowerChar((u + v)[i]) && (u + v)[i] == v[i - |u|];
        assert y[i] == Lower(v)[i - |u|];
      }
    }
  }

  /** Lower-casing twice is lower-casing once. */
  lemma {:induction false} LowerIdempotent(s: string)
    ensures Lower(Lower(s)) == Lower(s)
  {
    var l := Lower(s);
    forall i | 0 <= i < |l| ensures !IsUpperLetter(l[i]) {
      assert l[i] == LowerChar(s[i]);
    }
    LowerNoop(l);
  }

  /** Drops the longest prefix of characters satisfying `drop`. */
  function TrimLeftBy(s: string, drop: char -> bool): (r: string)
    ensures |r| <= |s| && r == s[|s| - |r|..]
    ensures r == [] || !drop(r[0])
    ensures forall i :: 0 <= i < |s| - |r| ==> drop(s[i])
  {
    if s != [] && drop(s[0]) then
      var r := TrimLeftBy(s[1..], drop);
      assert forall i :: 0 <= i < |s| - |r| ==> drop(s[i]) by {
        forall i | 1 <= i < |s| - |r|
          ensures drop(s[i])
        {
          assert s[i] == s[1..][i - 1];
        }
      }
      r
    else s
  }

  /** Drops the longest suffix of characters satisfying `drop`. */
  function TrimRightBy(s: string, drop: char -> bool): (r: string)
    ensures |r| <= |s| && r == s[..|r|]
    ensures r == [] || !drop(r[|r| - 1])
    ensures forall i :: |r| <= i < |s| ==> drop(s[i])
  {
    if s != [] && drop(s[|s| - 1]) then
      var r := TrimRightBy(s[..|s| - 1], drop);
      assert forall i :: |r| <= i < |s| ==> drop(s[i]) by {
        forall i | |r| <= i < |s| - 1
          ensures drop(s[i])
        {
          assert s[i] == s[..|s| - 1][i];
        }
      }
      r
    else s
  }

  /** Trimming a prefix of dropped characters stops where they end. */
  lemma {:induction false} TrimLeftByPrefix(a: string, b: string, drop: char -> bool)
    requires forall i :: 0 <= i < |a| ==> drop(a[i])
    requires b == [] || !drop(b[0])
    ensures TrimLeftBy(a + b, drop) == b
  {
    if a == [] {
      assert a + b == b;
    } else {
      assert (a + b)[0] == a[0] && (a + b)[1..] == a[1..] + b;
      TrimLeftByPrefix(a[1..], b, drop);
    }
  }

  /** Nothing to trim when the ends already fail `drop`. */
  lemma {:induction false} TrimByNoop(s: string, drop: char -> bool)
    requires s == [] || (!drop(s[0]) && !drop(s[|s| - 1]))
    ensures TrimLeftBy(s, drop) == s && TrimRightBy(s, drop) == s
  {
  }

  /** Python's `s.strip(chars)` for the character class `drop`. */
  function TrimBy(s: string, drop: char -> bool): string {
    TrimRightBy(TrimLeftBy(s, drop), drop)
  }

  /** What `TrimBy` keeps is a slice of `s`, starting after the dropped
      prefix. */
  lemma {:induction false} TrimBySlice(s: string, drop: char -> bool) returns (a: nat, r: string)
    ensures a == |s| - |TrimLeftBy(s, drop)| && r == TrimBy(s, drop)
    ensures a + |r| <= |s| && r == s[a..a + |r|]
  {
    var l := TrimLeftBy(s, drop);
    r := TrimRightBy(l, drop);
    a := |s| - |l|;
    SliceOfSuffix(s, l, r, a);
  }

  /** A prefix of the suffix `s[a..]` is the slice of `s` starting at `a`. */
  lemma {:induction false} SliceOfSuffix(s: string, l: string, r: string, a: nat)
    requires a <= |s| && l == s[a..] && |r| <= |l| && r == l[..|r|]
    ensures r == s[a..a + |r|]
  {
    forall i | 0 <= i < |r|
      ensures r[i] == s[a + i]
    {
      assert r[i] == l[i];
    }
  }

  /** Every character of `s` satisfies `drop`. */
  predicate Only(s: string, drop: char -> bool) {
    forall i :: 0 <= i < |s| ==> drop(s[i])
  }

  /** `r` is what is left of `t` once some characters satisfying `drop`
      are removed from its two ends. */
  predicate TrimmedFrom(t: string, r: string, drop: char -> bool) {
    exists a: nat | a + |r| <= |t| :: r == t[a..a + |r|] && Only(t[..a], drop) && Only(t[a + |r|..], drop)
  }

  /** A cut point `a` shows `r` is trimmed from `t`. */
  lemma {:induction false} TrimmedAt(t: string, r: string, drop: char -> bool, a: nat)
    requires a + |r| <= |t| && r == t[a..a + |r|]
    requires Only(t[..a], drop) && Only(t[a + |r|..], drop)
    ensures TrimmedFrom(t, r, drop)
  {
  }

  /** `TrimBy` removes only dropped characters, and only from the ends. */
  lemma {:induction false} TrimByTrimmed(s: string, drop: char -> bool)
    ensures TrimmedFrom(s, TrimBy(s, drop), drop)
  {
    var a, r := TrimByCut(s, drop);
    TrimmedAt(s, r, drop, a);
  }

  /** The cut point of `TrimBy`: the length of the dropped prefix. */
  lemma {:induction false} TrimByCut(s: string, drop: char -> bool) returns (a: nat, r: string)
    ensures a == |s| - |TrimLeftBy(s, drop)| && r == TrimBy(s, drop)
    ensures a + |r| <= |s| && r == s[a..a + |r|]
    ensures Only(s[..a], drop) && Only(s[a + |r|..], drop)
  {
    var l := TrimLeftBy(s, drop);
    a, r := TrimBySlice(s, drop);
    OnlyPrefix(s, a, drop);
    OnlyTail(s, l, |r|, drop);
  }

  /** A prefix whose characters all satisfy `drop`. */
  lemma {:induction false} OnlyPrefix(s: string, a: nat, drop: char -> bool)
    requires a <= |s| && forall i :: 0 <= i < a ==> drop(s[i])
    ensures Only(s[..a], drop)
  {
  }

  /** The dropped tail of a suffix `l` of `s` is a dropped tail of `s`. */
  lemma {:induction false} OnlyTail(s: string, l: string, n: nat, drop: char -> bool)
    requires |l| <= |s| && l == s[|s| - |l|..] && n <= |l|
    requires forall i :: n <= i < |l| ==> drop(l[i])
    ensures Only(s[|s| - |l| + n..], drop)
  {
    var tail := s[|s| - |l| + n..];
    forall i | 0 <= i < |tail|
      ensures drop(tail[i])
    {
      assert tail[i] == l[n + i];
    }
  }

  /** What `TrimBy` keeps neither starts nor ends with a dropped character. */
  lemma {:induction false} TrimByEnds(s: string, drop: char -> bool)
    ensures var r := TrimBy(s, drop);
      r == [] || (!drop(r[0]) && !drop(r[|r| - 1]))
  {
    var l := TrimLeftBy(s, drop);
    var r := TrimRightBy(l, drop);
    if r != [] {
      assert r[0] == l[0];
    }
  }

  /** A prefix of dropped characters does not change what the left trim
      keeps. */
  lemma {:induction false} TrimLeftDropPrefix(pre: string, y: string, drop: char -> bool)
    requires Only(pre, drop)
    ensures TrimLeftBy(pre + y, drop) == TrimLeftBy(y, drop)
    decreases |pre|
  {
    if pre == [] {
      assert pre + y == y;
    } else {
      assert (pre + y)[0] == pre[0] && (pre + y)[1..] == pre[1..] + y;
      assert Only(pre[1..], drop) by {
        forall i | 0 <= i < |pre[1..]| ensures drop(pre[1..][i]) {
          assert pre[1..][i] == pre[i + 1];
        }
      }
      TrimLeftDropPrefix(pre[1..], y, drop);
    }
  }

  /** A suffix of dropped characters does not change what the right trim
      keeps. */
  lemma {:induction false} TrimRightDropSuffix(y: string, post: string, drop: char -> bool)
    requires Only(post, drop)
    ensures TrimRightBy(y + post, drop) == TrimRightBy(y, drop)
    decreases |post|
  {
    if post == [] {
      assert y + post == y;
    } else {
      var init := post[..|post| - 1];
      assert (y + post)[|y + post| - 1] == post[|post| - 1];
      assert (y + post)[..|y + post| - 1] == y + init;
      assert Only(init, drop) by {
        forall i | 0 <= i < |init| ensures drop(init[i]) {
          assert init[i] == post[i];
        }
      }
      TrimRightDropSuffix(y, init, drop);
    }
  }

  /** Once the left trim stops inside `x`, whatever follows `x` is kept. */
  lemma {:induction false} TrimLeftAppend(x: string, v: string, drop: char -> bool)
    requires TrimLeftBy(x, drop) != []
    ensures TrimLeftBy(x + v, drop) == TrimLeftBy(x, drop) + v
  {
    var l := TrimLeftBy(x, drop);
    var pre := x[..|x| - |l|];
    assert x + v == pre + (l + v);
    OnlyPrefix(x, |x| - |l|, drop);
    TrimLeftDropPrefix(pre, l + v, drop);
    assert (l + v)[0] == l[0];
  }

  /** Once the right trim stops inside `x`, whatever precedes `x` is kept. */
  lemma {:induction false} TrimRightPrepend(v: string, x: string, drop: char -> bool)
    requires TrimRightBy(x, drop) != []
    ensures TrimRightBy(v + x, drop) == v + TrimRightBy(x, drop)
  {
    var r := TrimRightBy(x, drop);
    var post := x[|r|..];
    assert v + x == (v + r) + post;
    assert Only(post, drop) by {
      forall i | 0 <= i < |post| ensures drop(post[i]) {
        assert post[i] == x[|r| + i];
      }
    }
    TrimRightDropSuffix(v + r, post, drop);
    assert (v + r)[|v + r| - 1] == r[|r| - 1];
  }

  /** Dropped characters around `r` do not change what `TrimBy` keeps. */
  lemma {:induction false} TrimByAround(pre: string, r: string, post: string, drop: char -> bool)
    requires Only(pre, drop) && Only(post, drop)
    ensures TrimBy(pre + r + post, drop) == TrimBy(r, drop)
  {
    assert pre + r + post == pre + (r + post);
    TrimLeftDropPrefix(pre, r + post, drop);
    var l := TrimLeftBy(r, drop);
    if l != [] {
      TrimLeftAppend(r, post, drop);
      TrimRightDropSuffix(l, post, drop);
    } else {
      assert Only(r + post, drop) by {
        forall i | 0 <= i < |r + post| ensures drop((r + post)[i]) {
          if i >= |r| {
            assert (r + post)[i] == post[i - |r|];
          }
        }
      }
      TrimLeftByPrefix(r + post, [], drop);
      assert r + post + [] == r + post;
    }
  }

  /** A slice cuts a string into three. */
  lemma {:induction false} SplitAround(t: string, a: nat, r: string)
    requires a + |r| <= |t| && r == t[a..a + |r|]
    ensures t == t[..a] + r + t[a + |r|..]
  {
  }

  /** Characters of a class are characters of any wider class. */
  lemma {:induction false} OnlyWiden(x: string, d1: char -> bool, d2: char -> bool)
    requires Only(x, d1)
    requires forall c :: d1(c) ==> d2(c)
    ensures Only(x, d2)
  {
    forall i | 0 <= i < |x| ensures d2(x[i]) {
      assert d1(x[i]);
    }
  }

  /** Trimming a wider class of characters does not see an earlier trim of
      a narrower one. */
  lemma {:induction false} TrimByWithin(t: string, r: string, d1: char -> bool, d2: char -> bool)
    requires TrimmedFrom(t, r, d1)
    requires forall c :: d1(c) ==> d2(c)
    ensures TrimBy(t, d2) == TrimBy(r, d2)
  {
    var a: nat :| a + |r| <= |t| && r == t[a..a + |r|] && Only(t[..a], d1) && Only(t[a + |r|..], d1);
    var pre, post := t[..a], t[a + |r|..];
    SplitAround(t, a, r);
    OnlyWiden(pre, d1, d2);
    OnlyWiden(post, d1, d2);
    TrimByAround(pre, r, post, d2);
  }

  function TrimLeft(s: string): string {
    TrimLeftBy(s, IsSpace)
  }

  /** `s.rstrip()` */
  function TrimRight(s: string): string {
    TrimRightBy(s, IsSpace)
  }

  /** `s.strip()` */
  function Strip(s: string): string {
    TrimBy(s, IsSpace)
  }

  /** A non-blank character survives `strip()`, shifted by the number of
      leading blanks. */
  lemma {:induction false} StripKeeps(s: string, i: nat)
    requires i < |s| && !IsSpace(s[i])
    ensures |s| - |TrimLeft(s)| <= i
    ensures i - (|s| - |TrimLeft(s)|) < |Strip(s)|
    ensures Strip(s)[i - (|s| - |TrimLeft(s)|)] == s[i]
  {
    var l := TrimLeft(s);
    var a := |s| - |l|;
    var t := Strip(s);
    assert l == s[a..];
    assert a <= i;
    assert l[i - a] == s[i];
    assert t == l[..|t|];
  }

  predicate IsBlank(s: string) {
    forall i :: 0 <= i < |s| ==> IsSpace(s[i])
  }

  /** `s.strip()` is falsy exactly when `s` is blank. */
  lemma {:induction false} StripEmptyIffBlank(s: string)
    ensures Strip(s) == [] <==> IsBlank(s)
  {
    var t := TrimLeft(s);
    if t != [] {
      assert !IsSpace(t[0]) && t[0] == s[|s| - |t|];
    }
  }

  /** Text that is not blank stays non-blank once stripped. */
  lemma {:induction false} StripNotBlank(s: string)
    requires !IsBlank(s)
    ensures !IsBlank(Strip(s))
  {
    var i :| 0 <= i < |s| && !IsSpace(s[i]);
    StripKeeps(s, i);
  }

  predicate StartsWith(s: string, prefix: string) {
    |prefix| <= |s| && s[..|prefix|] == prefix
  }

  /** Python's `pat in s` */
  predicate Contains(s: string, pat: string) {
    exists i | 0 <= i <= |s| :: StartsWith(s[i..], pat)
  }

  /** A phrase longer than the text cannot occur in it. */
  lemma {:induction false} NotContainsLonger(s: string, pat: string)
    requires |pat| > |s|
    ensures !Contains(s, pat)
  {
  }

  /** `pat` occurs in `s` at position `k`. */
  predicate At(s: string, pat: string, k: nat) {
    k + |pat| <= |s| && s[k..k + |pat|] == pat
  }

  /** An occurrence at a known position is an occurrence. */
  lemma {:induction false} AtContains(s: string, pat: string, k: nat)
    requires At(s, pat, k)
    ensures Contains(s, pat)
  {
    assert StartsWith(s[k..], pat);
  }

  /** Every text contains itself. */
  lemma {:induction false} SelfContains(s: string)
    ensures Contains(s, s)
  {
    assert s[0..][..|s|] == s;
  }

  /** The first character of a non-empty occurrence. */
  lemma {:induction false} AtFirst(s: string, t: string, k: nat)
    requires At(s, t, k) && t != []
    ensures k < |s| && s[k] == t[0]
  {
    assert s[k..k + |t|][0] == s[k];
  }

  /** An occurrence inside an occurrence. */
  lemma {:induction false} AtTrans(s: string, b: string, t: string, k: nat, q: nat)
    requires At(s, b, k) && At(b, t, q)
    ensures At(s, t, k + q)
  {
    forall j | 0 <= j < |t|
      ensures s[k + q + j] == t[j]
    {
      assert t[j] == b[q + j] && b[q + j] == s[k + q + j];
    }
  }

  /** Neither end of `t` is white space: what `strip()` leaves. */
  predicate Trimmed(t: string) {
    t == [] || (!IsSpace(t[0]) && !IsSpace(t[|t| - 1]))
  }

  /** What `strip()` returns is trimmed. */
  lemma {:induction false} StripTrimmed(s: string)
    ensures Trimmed(Strip(s))
  {
    TrimByEnds(s, IsSpace);
  }

  /** The number of leading blanks `strip()` removes. */
  function Lead(s: string): nat {
    |s| - |TrimLeftBy(s, IsSpace)|
  }

  /** `strip()` never cuts into a non-empty trimmed occurrence: it keeps it,
      shifted by the number of leading blanks. */
  lemma {:induction false} AtStrip(s: string, t: string, k: nat)
    requires At(s, t, k) && t != [] && Trimmed(t)
    ensures Lead(s) <= k
    ensures At(Strip(s), t, k - Lead(s))
  {
    var a, r := AtTrimBy(s, t, k, IsSpace);
  }

  /** `TrimBy` never cuts into an occurrence whose two ends it would keep:
      it lies in the kept slice `r`, shifted by the dropped prefix `a`. */
  lemma {:induction false} AtTrimBy(s: string, t: string, k: nat, drop: char -> bool) returns (a: nat, r: string)
    requires At(s, t, k) && t != [] && !drop(t[0]) && !drop(t[|t| - 1])
    ensures a == |s| - |TrimLeftBy(s, drop)| && r == TrimBy(s, drop)
    ensures a <= k && At(r, t, k - a)
  {
    a, r := TrimByCut(s, drop);
    AtCut(s, t, k, a, r, drop);
  }

  /** An occurrence with kept ends inside `s` lies inside the slice `r`
      left between a dropped prefix and a dropped suffix. */
  lemma {:induction false} AtCut(s: string, t: string, k: nat, a: nat, r: string, drop: char -> bool)
    requires a + |r| <= |s| && r == s[a..a + |r|] && Only(s[..a], drop) && Only(s[a + |r|..], drop)
    requires At(s, t, k) && t != [] && !drop(t[0]) && !drop(t[|t| - 1])
    ensures a <= k && At(r, t, k - a)
  {
    assert !drop(s[k]) && !drop(s[k + |t| - 1]) by {
      assert s[k] == t[0] && s[k + |t| - 1] == t[|t| - 1];
    }
    OutsideCut(s, a, a + |r|, k, drop);
    OutsideCut(s, a, a + |r|, k + |t| - 1, drop);
    SliceOfSlice(s, r, a, k - a, |t|);
    assert r[k - a..k - a + |t|] == s[k..k + |t|] == t;
  }

  /** A kept character lies between a dropped prefix and a dropped suffix. */
  lemma {:induction false} OutsideCut(s: string, a: nat, b: nat, k: nat, drop: char -> bool)
    requires a <= b <= |s| && k < |s| && !drop(s[k])
    requires Only(s[..a], drop) && Only(s[b..], drop)
    ensures a <= k < b
  {
  }

  /** A slice of a slice is a slice. */
  lemma {:induction false} SliceOfSlice(s: string, r: string, a: nat, d: nat, n: nat)
    requires a + |r| <= |s| && r == s[a..a + |r|] && d + n <= |r|
    ensures r[d..d + n] == s[a + d..a + d + n]
  {
    var x, y := r[d..d + n], s[a + d..a + d + n];
    forall j | 0 <= j < n
      ensures x[j] == y[j]
    {
      assert r[d + j] == s[a + d + j];
    }
  }

  /** Where part `i` starts in `sep.join(parts)`. */
  function JoinOffset(parts: seq<string>, sep: string, i: nat): (k: nat)
    requires i < |parts|
    ensures At(Join(parts, sep), parts[i], k)
    decreases i
  {
    if i == 0 then
      assert Join(parts, sep)[..|parts[0]|] == parts[0];
      0
    else
      var k := JoinOffset(parts[1..], sep, i - 1);
      var tail := Join(parts[1..], sep);
      var pre := parts[0] + sep;
      assert Join(parts, sep) == pre + tail;
      assert At(pre + tail, tail, |pre|);
      AtTrans(pre + tail, tail, parts[i], |pre|, k);
      |pre| + k
  }

  /** A non-empty trimmed part survives `sep.join(parts).strip()`: it sits at
      its offset in the join, less the blanks the strip removes in front. */
  lemma {:induction false} AtStripJoin(parts: seq<string>, sep: string, p: nat, t: string) returns (k: nat)
    requires p < |parts| && parts[p] == t && t != [] && Trimmed(t)
    ensures Lead(Join(parts, sep)) <= JoinOffset(parts, sep, p)
    ensures k == JoinOffset(parts, sep, p) - Lead(Join(parts, sep))
    ensures At(Strip(Join(parts, sep)), t, k)
  {
    var j, o := Join(parts, sep), JoinOffset(parts, sep, p);
    AtStrip(j, t, o);
    k := o - Lead(j);
  }

  /** Parts come out of `sep.join` in order, a separator apart. */
  lemma {:induction false} JoinOffsetOrder(parts: seq<string>, sep: string, p: nat, q: nat)
    requires p < q < |parts|
    ensures JoinOffset(parts, sep, p) + |parts[p]| + |sep| <= JoinOffset(parts, sep, q)
    decreases p
  {
    if p > 0 {
      JoinOffsetOrder(parts[1..], sep, p - 1, q - 1);
    }
  }

  /** Between part `p` and the next, `sep.join(parts)` holds the separator. */
  lemma {:induction false} JoinSepAfter(parts: seq<string>, sep: string, p: nat)
    requires p + 1 < |parts|
    ensures At(Join(parts, sep), sep, JoinOffset(parts, sep, p) + |parts[p]|)
    decreases p
  {
    var tail := Join(parts[1..], sep);
    var pre := parts[0] + sep;
    assert Join(parts, sep) == pre + tail;
    if p == 0 {
      assert (pre + tail)[|parts[0]|..|parts[0]| + |sep|] == sep;
    } else {
      JoinSepAfter(parts[1..], sep, p - 1);
      assert parts[1..][p - 1] == parts[p];
      assert At(pre + tail, tail, |pre|);
      AtTrans(pre + tail, tail, sep, |pre|, JoinOffset(parts[1..], sep, p - 1) + |parts[p]|);
    }
  }

  /** `strip()` keeps an occurrence that has a non-blank character at or
      before its start and another at or after its end. */
  lemma {:induction false} AtStripInterior(s: string, t: string, k: nat, i: nat, j: nat)
    requires At(s, t, k)
    requires i <= k && k + |t| <= j < |s| && !IsSpace(s[i]) && !IsSpace(s[j])
    ensures Lead(s) <= k
    ensures At(Strip(s), t, k - Lead(s))
  {
    var a, r := StripSpan(s, i, j);
    SliceShift(s, r, t, a, k);
  }

  /** `strip()` keeps everything from one non-blank character to another. */
  lemma {:induction false} StripSpan(s: string, i: nat, j: nat) returns (a: nat, r: string)
    requires i <= j < |s| && !IsSpace(s[i]) && !IsSpace(s[j])
    ensures a == Lead(s) && r == Strip(s)
    ensures a + |r| <= |s| && r == s[a..a + |r|]
    ensures a <= i && j < a + |r|
  {
    a, r := TrimBySlice(s, IsSpace);
    StripKeeps(s, i);
    StripKeeps(s, j);
  }

  /** An occurrence in `s` that lies inside the slice `r` starting at `a`
      is an occurrence in `r`. */
  lemma {:induction false} SliceShift(s: string, r: string, t: string, a: nat, k: nat)
    requires a + |r| <= |s| && r == s[a..a + |r|]
    requires At(s, t, k) && a <= k && k + |t| <= a + |r|
    ensures At(r, t, k - a)
  {
    forall m | 0 <= m < |t|
      ensures r[k - a + m] == t[m]
    {
      assert r[k - a + m] == s[k + m];
      assert s[k..k + |t|][m] == s[k + m];
    }
  }

  /** A separator that occurs in neither head splits `a + [c] + b` in one way. */
  lemma {:induction false} SeparatorUnique(a: string, b: string, x: string, y: string, c: char)
    requires c !in a && c !in x
    requires a + [c] + b == x + [c] + y
    ensures a == x && b == y
  {
    var s := a + [c] + b;
    var t := x + [c] + y;
    assert s[|a|] == c && t[|x|] == c;
    assert a == s[..|a|] && x == t[..|x|];
    assert b == s[|a| + 1..] && y == t[|x| + 1..];
  }

  /** `sep.join(parts)` */
  function Join(parts: seq<string>, sep: string): string {
    if parts == [] then []
    else if |parts| == 1 then parts[0]
    else parts[0] + sep + Join(parts[1..], sep)
  }

  /** `s.split(c)` for a one-character separator: never empty, the pieces
      hold no separator, and joining them back gives `s`. */
  function Split(s: string, c: char): (parts: seq<string>)
    ensures |parts| >= 1
    ensures forall i :: 0 <= i < |parts| ==> c !in parts[i]
  {
    if s == [] then [[]]
    else
      var rest := Split(s[1..], c);
      if s[0] == c then [[]] + rest
      else [[s[0]] + rest[0]] + rest[1..]
  }

  lemma {:induction false} JoinSplit(s: string, c: char)
    ensures Join(Split(s, c), [c]) == s
  {
    if s != [] {
      var rest := Split(s[1..], c);
      JoinSplit(s[1..], c);
      if s[0] == c {
        assert Split(s, c) == [[]] + rest;
      } else {
        var parts := Split(s, c);
        assert parts == [[s[0]] + rest[0]] + rest[1..];
        if |rest| == 1 {
          assert Join(parts, [c]) == [s[0]] + rest[0];
        } else {
          assert parts[1..] == rest[1..];
          assert Join(rest, [c]) == rest[0] + [c] + Join(rest[1..], [c]);
          assert Join(parts, [c]) == ([s[0]] + rest[0]) + [c] + Join(rest[1..], [c]);
        }
      }
    }
  }

  /** Splitting `a + [c] + b`, where `a` holds no separator, gives `a` followed
      by the pieces of `b`. */
  lemma {:induction false} SplitAfterPiece(a: string, c: char, b: string)
    requires c !in a
    ensures Split(a + [c] + b, c) == [a] + Split(b, c)
  {
    if a == [] {
      assert (a + [c] + b)[1..] == b;
    } else {
      assert (a + [c] + b)[1..] == a[1..] + [c] + b;
      SplitAfterPiece(a[1..], c, b);
      assert [a[0]] + a[1..] == a;
    }
  }

  /** `re.sub(r'\s+', ' ', s)`: every run of white space becomes one space. */
  function CollapseSpaces(s: string): (r: string)
    ensures |r| <= |s|
    ensures forall i :: 0 <= i < |r| - 1 ==> !(IsSpace(r[i]) && IsSpace(r[i + 1]))
    ensures r != [] && IsSpace(r[0]) ==> s != [] && IsSpace(s[0])
  {
    if s == [] then []
    else if IsSpace(s[0]) then
      var rest := CollapseSpaces(TrimLeft(s[1..]));
      assert rest != [] ==> !IsSpace(rest[0]);
      [' '] + rest
    else [s[0]] + CollapseSpaces(s[1..])
  }

  /** Replaces every occurrence of the character `a` by `b` (`s.replace(a, b)`). */
  function ReplaceChar(s: string, a: char, b: char): (r: string)
    ensures |r| == |s|
    ensures forall i :: 0 <= i < |s| ==> r[i] == if s[i] == a then b else s[i]
  {
    if s == [] then [] else [if s[0] == a then b else s[0]] + ReplaceChar(s[1..], a, b)
  }

  function DigitChar(d: nat): char
    requires d < 10
  {
    ('0' as int + d) as char
  }

  /** `str(n)` for a non-negative integer */
  function NatToString(n: nat): (r: string)
    ensures |r| >= 1
    ensures forall i :: 0 <= i < |r| ==> IsDigit(r[i])
  {
    if n < 10 then [DigitChar(n)] else NatToString(n / 10) + [DigitChar(n % 10)]
  }

  /** `str(n)` */
  function IntToString(n: int): (r: string)
    ensures r != [] && !IsSpace(r[0])
  {
    if n < 0 then "-" + NatToString(-n) else NatToString(n)
  }

  /** `s.isdigit()` */
  predicate IsDigits(s: string) {
    s != [] && forall i :: 0 <= i < |s| ==> IsDigit(s[i])
  }

  /** `int(s)` for a string of decimal digits */
  function DigitsValue(s: string): nat
    requires forall i :: 0 <= i < |s| ==> IsDigit(s[i])
  {
    if s == [] then 0
    else
      assert IsDigit(s[|s| - 1]);
      DigitsValue(s[..|s| - 1]) * 10 + (s[|s| - 1] as int - '0' as int)
  }
}

=== FILE: wrappers.dfy ===
/** Failure-compatible wrappers shared by every module of the model.
    `Option` stands for Python's "value or None"; `Result` stands for
    "value, or the exception the Python code would raise", with the
    exception's message kept as a string. */
module Wrappers {

  datatype Option<+T> = None | Some(value: T)

  datatype Result<+T> = Ok(value: T) | Err(error: string) {

    predicate IsFailure() {
      Err?
    }

    function PropagateFailure<U>(): Result<U>
      requires Err?
    {
      Err(error)
    }

    function Extract(): T
      requires Ok?
    {
      value
    }
  }
}
